=== FILE: README.md ===
# forever and lighttpd's request parser, modelled in Dafny

This project models two pieces of software and proves properties of both.

The first is the core of **forever**, a Node.js supervisor that keeps a script running:

- the `Monitor`, which supervises one child process: its constructor, `start`, `trySpawn`, `save`, the exit handler's restart decision, `kill`, `stop` and `restart`;
- the process table of `lib/forever.js`: `getAllProcesses` over the `.pid` and `.fvr` files, `findByIndex`, `findByScript`, `stop`, `stat`, `logFilePath`, `pidFilePath`, `cleanUp`, `cleanLogsSync`, the padding of `list(true)`, and `randomString`;
- `randomString` of `lib/util/utils.js`;
- the control-socket `Worker`: `findSocket`, the constructor, `start` and the four message handlers;
- the CLI handlers `exec`, `set`, `clear` and `columns`;
- the `watch` plugin's filter, its `.foreverignore` reader and its change callback;
- the `foreverd` service's `add`, `remove`, `pause` and `resume`.

The second is the HTTP request parser of lighttpd's `request.c`:

- `request_check_hostname`;
- `http_request_split_value`;
- `request_uri_is_valid_char`;
- `http_request_parse`: the request line, the header loop and the checks after it.

Every asynchronous event of forever is a pure step function over an immutable record. This covers a start request, a child's `exit`, the spin-sleep timer, the next tick and a kill request. Each step returns the new record and the events it emits, in order. Clock readings, `fs.stat` answers, directory listings, file contents, pids and random words are parameters. The C parser works on the request buffer as a `seq<char>` ending in its NUL. The header `array` is a sequence in arrival order, and the pointers the parser keeps are indices into that sequence.

Modules and files:

| module | file |
|---|---|
| `Wrappers`, `Strings` | `base.dfy` |
| `Paths` (Node's POSIX `path.join` and `path.normalize`) | `paths.dfy` |
| `Monitor` | `monitor.dfy` |
| `Forever` | `forever.dfy` |
| `Random` | `random.dfy` |
| `Worker` | `worker.dfy` |
| `Cli` | `cli.dfy` |
| `Watch` | `watch.dfy` |
| `Service` | `service.dfy` |
| `Host` | `host.dfy` |
| `UriChars` | `uri.dfy` |
| `HeaderValues` | `values.dfy` |
| `RequestLine` | `requestline.dfy` |
| `Request` | `request.dfy` |
| `RequestProps` | `requestprops.dfy`, for properties that span several steps of the parse |

Where the repository's documentation and its code disagree, the model follows the code:

- The restart counter `times` grows only in `restartChild`. For a spinning child it grows when the spin-sleep timer fires, not when the exit is seen.
- `forceStop` is never reset once set.
- A monitor whose command is `node` stats its script before every spawn.
- The exit handler tests spinning before the restart limit.
- The comment of `randomString` in `lib/util/utils.js` promises ⌈bits/6⌉ characters. The code yields `length` characters of four bits each, or sixteen when the length is 0 or missing.

## Model

| member | source | states |
|---|---|---|
| Monitor.New | lib/forever/monitor.js:23-74 | The constructor starts with no restarts, not running and no child. An argv script supplies the command; a path script uses the `command` option or `node`. `sourceDir` is joined onto the first argument only, with `path.join`. An argv script with no arguments gets the directory itself as its one argument, because `path.join` drops the `undefined` first argument. `minUptime` defaults to 2000. A zero spin-sleep time counts as none. The uid is the option or the fresh random one. |
| Monitor.TrySpawn | lib/forever/monitor.js:194-206 | Nothing is spawned exactly when the target is stat-ed and is missing (or there is no argument). Otherwise the given pid is the child. Only `childExists` can change. |
| Monitor.Save | lib/forever/monitor.js:212-238 | The saved record names the child's pid, the host's pid and the uid. Its options are the arguments after the script. It has a file exactly when there is a first argument. |
| Monitor.SaveRestoresScript | lib/forever/monitor.js:235-238 | For a freshly built monitor whose script is a plain relative path and whose `sourceDir` is a normal directory, the record names the script it was given: `save` strips exactly the `sourceDir/` that the constructor joined on. |
| Monitor.SaveKeepsTrailingSlashDir | lib/forever/monitor.js:235-238 | With `sourceDir` `dir/`, the joined script is `dir/app.js`. `save` looks for `dir//`, finds nothing, and the record keeps `dir/app.js`. |
| Monitor.StartAsWritten | lib/forever/monitor.js:84-110 | As written: on a running monitor, `start()` emits the already-running error first and then carries on. |
| Monitor.Start | lib/forever/monitor.js:84-110 | A start on a running monitor changes nothing and reports the error. A missing target changes nothing and reports it. Otherwise the child runs, `ctime` is now, the counter is kept, the snapshot is saved, and `start` or `restart` is emitted with it. |
| Monitor.MissingScriptNotStarted | lib/forever/monitor.js:93-99 | A missing `node` script is not started and yields one "does not exist" error naming it. |
| Monitor.StartWhileRunningSpawnsTwice | lib/forever/monitor.js:87-103 | As written, a second `start()` both reports the error and replaces the live child with a new one. |
| Monitor.Decide | lib/forever/monitor.js:167-181 | The child dies exactly on a forced stop, a spin without a sleep time, or the restart limit being reached. Otherwise it restarts: after the sleep time when spinning, at once when not. |
| Monitor.SpinBeforeMax | lib/forever/monitor.js:170-175 | A spin without a sleep time dies even below the limit. A spin at the limit dies. A spin below the limit waits the sleep time. |
| Monitor.Exit | lib/forever/monitor.js:142-182 | By decision: dying stops the monitor and emits `exit` with the spin flag. A delayed restart arms the timer. An immediate restart adds one to `times` and queues `start(true)`. |
| Monitor.CrashOnStartGivesUp | lib/forever/monitor.js:143-172 | Under the default options, a script that exits within 2 s of its start is given up after that first exit, with no restart counted. |
| Monitor.SpinTimerFired | lib/forever/monitor.js:159-165 | The spin timer adds one restart and queues the restart for the next tick. |
| Monitor.Tick | lib/forever/monitor.js:161-164 | The queued `start(true)` leaves the counter as it is. |
| Monitor.Kill | lib/forever/monitor.js:287-311 | Without a running child: an error, nothing changed, nothing signalled. Otherwise: the child is signalled, `stop` is emitted with the saved data, and `forceStop` is set when asked. |
| Monitor.Stop | lib/forever/monitor.js:278-280 | Stopping a running child sets `forceStop`. |
| Monitor.Restart | lib/forever/monitor.js:270-272 | A restart leaves `forceStop` as it was. |
| Monitor.StopThenExitDies | lib/forever/monitor.js:167-169 | After `stop`, the child's exit lets it die without another restart. |
| Monitor.StopWhenStoppedIsError | lib/forever/monitor.js:290-294 | Stopping a monitor that is not running only reports the error. |
| Monitor.RestartsUntilMax | lib/forever/monitor.js:159-181 | With `max = N`, no spinning and no forced stop, the monitor restarts exactly until `times == N`. It emits one `restart` per cycle, then a single `exit`. |
| Monitor.NoMaxNeverGivesUp | lib/forever/monitor.js:173-181 | Without a limit, a non-spinning crash loop restarts on every exit, one count each. |
| Forever.Extname | lib/forever.js:536-538 | The extension is empty, or a dot-led suffix of the name that is shorter than the name and holds no other dot. |
| Forever.UidOfFileName | lib/forever.js:537-538 | `<uid><ext>` maps back to its uid and extension when the uid has no dot. |
| Forever.AbsorbMeaning | lib/forever.js:541-561 | An unreadable file records a bare entry. A `.pid` file adds the monitor pid unless the uid is known. A `.fvr` file replaces the entry with its parsed record, or with a bare one when the parse fails. Other files change nothing. |
| Forever.FvrWins | lib/forever.js:550-553 | A readable `.fvr` file determines its uid's entry when nothing later overwrites it. |
| Forever.Collect | lib/forever.js:564-568 | Entries with a pid are listed. Without `findDead` no others are; with it, every entry is, and the pidless ones are marked dead. Every listed record is an entry, marked dead only when `findDead` is set. |
| Forever.AbsorbSound | lib/forever.js:535-561 | After one directory entry, each record is the one kept from before or the entry's own record under its uid. |
| Forever.MergeSound | lib/forever.js:534-562 | Every merged record is the record of one of the directory entries, filed under that entry's uid. |
| Forever.CollectSound | lib/forever.js:564-568 | Every listed record is the record of some directory entry, marked dead only when dead records are asked for. |
| Forever.GetAllProcesses | lib/forever.js:528-571 | An empty directory gives `null`. Otherwise every listed process has a pid or is a dead one asked for, and it is the record of one of the directory's files. |
| Forever.LiveFvrListed | lib/forever.js:550-568 | The record of a live `.fvr` file is in the list. |
| Forever.FindByIndex | lib/forever.js:275-277 | With a table, the result is one slot: a listed process, or undefined when the index does not parse into range. Without a table, the result is `null`. |
| Forever.FindListedIndex | lib/forever.js:275-277 | The decimal text of index `i` finds the `i`-th process. |
| Forever.FindByScript | lib/forever.js:285-289 | The result is exactly the processes whose file is the script, each as many times as it is listed. |
| Forever.FilterFileCounts | lib/forever.js:285-289 | A record of the script is kept as many times as it is listed, and no other record is kept. |
| Forever.FilterFileAppend | lib/forever.js:285-289 | Filtering two listings in turn is filtering their concatenation, so the listing order is kept. |
| Forever.FilterFileOne | lib/forever.js:285-289 | A single record is kept exactly when its file is the script. |
| Forever.StopAsWritten | lib/forever.js:182-210 | As written: any non-empty lookup counts as found, and every listed record is signalled. With `format` set, as the command line asks (lib/forever/cli.js:92), `stop` throws exactly when the lookup holds `undefined` or a record without a `file`, because `forever.list(true, procs)` reads `proc.file` of every record. The signals are sent first. |
| Forever.StopFilelessThrows | lib/forever.js:511-520 | A record without a `file`, stopped by index with `format` on, is signalled (monitor, then child) and then `stop` throws. With `format` off it is reported stopped. |
| Forever.StopMissingIndexClaimsSuccess | lib/forever.js:187-201 | As written, index 7 in a one-process table reports `stop` for `[undefined]` and signals nothing when `format` is off. With `format` on, it throws in `forever.list`. The corrected stop reports the index as not found. |
| Forever.Stop | lib/forever.js:187-207 | A stop fails exactly when the target names no record. An index target stops exactly the record at that index. A script target stops every record of that file and no other. The pids signalled are exactly the monitor pid of each stopped record that has one, and that record's child pid. |
| Forever.LookupMeaning | lib/forever.js:187-188 | The lookup is defined exactly when there is a table. An index target finds the one record at that index. A script target finds every record of that file and only those. |
| Forever.AllSignals | lib/forever.js:191-197 | A pid is signalled exactly when it is the monitor pid, or the child pid, of a record that has a monitor pid. |
| Forever.LogFilePath | lib/forever.js:465-471 | An absolute log file is kept. Anything else is `path.join`ed onto the root, defaulting to `<uid>.log` and then `forever.log`. |
| Forever.PidFilePath | lib/forever.js:478-484 | An absolute pid file is kept. Anything else is `path.join`ed onto the pid directory. |
| Forever.LogFilePathIdempotent | lib/forever.js:465-471 | The log path is absolute, and resolving it again changes nothing. |
| Forever.PidFilePathIdempotent | lib/forever.js:478-484 | The pid path is absolute, and resolving it again changes nothing. |
| Forever.Stat | lib/forever.js:109-131 | Success exactly when the script exists and the log is appended to or absent. A missing script is reported first. |
| Forever.ShouldRemoveMeaning | lib/forever.js:376 | A record is removed exactly when both pids are dead, or only the manager lives and that is allowed, or it is marked dead. A live child is never removed. |
| Forever.Unlinks | lib/forever.js:377-386 | The files unlinked for a record are exactly its `.fvr` and `.pid`, plus its log when cleaning logs, and only when it is removed. |
| Forever.CleanUp | lib/forever.js:365-416 | When logs are cleaned, the root directory's `.log` files that no listed record uses are deleted first, exactly those. Then every removable record's `.fvr` and `.pid` (and log, when asked) are unlinked, and nothing else is. |
| Forever.UnlinkAllComplete | lib/forever.js:373-398 | Every file due for a removable record is in the unlink list. |
| Forever.RunningLogs | lib/forever.js:426-427 | The base names of exactly the listed processes' log files. |
| Forever.CleanLogs | lib/forever.js:424-434 | Exactly the `.log` files not used by a listed process are deleted. |
| Forever.CleanLogsKeepsRunning | lib/forever.js:426-433 | A listed process's log file is never deleted. |
| Forever.Paddings | lib/forever.js:341-355 | Each row is padded with spaces to the longest row's length, and the longest row gets no padding. |
| Paths.Normalize | lib/forever/monitor.js:60 | `path.normalize` never gives the empty path, and its result is absolute exactly when its input is. |
| Paths.Join | lib/forever.js:469 | `path.join` of two parts never gives the empty path, and it is absolute when the first part is. |
| Paths.NormalizePlain | lib/forever/monitor.js:60 | A path of plain segments is already normal, with or without a leading `/`. |
| Paths.JoinPlain | lib/forever/monitor.js:60 | Joining a plain relative path onto a normal directory gives `dir/path`. |
| Paths.JoinTrailingSlash | lib/forever/monitor.js:60 | A trailing `/` on the directory does not survive the join. |
| Paths.JoinDotSlash | lib/forever/monitor.js:60 | A leading `./` on the joined path does not survive the join. |
| Paths.JoinBasename | lib/forever/worker.js:13 | The last segment of a join is the file name joined on. |
| Random.CharAt | lib/forever.js:444 | Indices below 62 are alphanumerics. Every character is in the alphabet and is not a dot. |
| Random.CharAtInjective | lib/forever.js:444 | Distinct indices give distinct characters. |
| Random.InnerShape | lib/forever.js:453-455 | The inner loop yields one character per `step` while both `i` and the bits left are positive, stopping at whichever runs out first, and uses `step` bits per character. |
| Random.SliceShape | lib/forever.js:450-456 | One character per `step` bits requested, and one 32-bit word per `26/step` characters, rounded up. |
| Random.ForeverRandomString | lib/forever.js:443-458 | Every character comes from forever's alphabet. |
| Random.ForeverRandomStringShape | lib/forever.js:437-458 | The string has ⌈bits/6⌉ characters (none for `bits <= 0`) and draws one word per five characters. |
| Random.UtilsRandomString | lib/util/utils.js:8-29 | Every character comes from the utils alphabet. |
| Random.UtilsRandomStringShape | lib/util/utils.js:13-26 | The string has `length` characters, sixteen for a zero or missing length, none for a negative one. It draws one word per seven characters. |
| Random.GeneratedUidRoundTrip | lib/forever/monitor.js:35-39 | The default uid has four characters and no dot, so its `.fvr` and `.pid` file names map back to it. |
| Worker.StopSlot | lib/forever/worker.js:12-21 | The search stops at the first slot from the start that does not exist. |
| Worker.FindSocket | lib/forever/worker.js:6-23 | The result is the path of that slot when `stat` says ENOENT, or the stat error met there. |
| Worker.SocketFileSegment | lib/forever/worker.js:13 | `worker.<n>.sock` is a single path segment. |
| Worker.SocketNamesDistinct | lib/forever/worker.js:13 | Distinct slots have distinct socket paths. |
| Worker.NextWorkerNextSlot | lib/forever/worker.js:6-23 | Once a worker holds the slot found, the next search from the same start finds a later slot. |
| Worker.NewWorker | lib/forever/worker.js:25-33 | `exitOnKill` holds exactly for the boolean `true`. The socket path is the option or the configured one. There is no server yet. |
| Worker.OnlyTrueExits | lib/forever/worker.js:30 | The string "true" and a missing flag leave `exitOnKill` off. |
| Worker.Start | lib/forever/worker.js:35-79 | A started worker throws. Otherwise the server is created and the socket found is listened on. |
| Worker.StartTwiceThrows | lib/forever/worker.js:38 | A second start throws even when the first one's search failed. |
| Worker.HandleAsWritten | lib/forever/worker.js:40-72 | As written: `spawn` with a script always builds and starts a monitor. The worker dies (Crashed) exactly when that monitor's target is missing, because its `error` has no listener; otherwise it answers `spawn start`. `kill` never exits. `kill` on a monitor with no running child kills the worker exactly when the monitor's owner does not listen for its `error`. |
| Worker.SpawnGuardNeverFires | lib/forever/worker.js:54-56 | As written, a worker with a monitor still spawns another. The corrected handler refuses with "Already running". |
| Worker.ExitOnKillIgnored | lib/forever/worker.js:66-70 | As written, a worker with `exitOnKill` does not exit after `kill`. The corrected handler does. |
| Worker.Handle | lib/forever/worker.js:40-72 | `ping` answers `pong`. `data` and `kill` throw exactly without a monitor. `spawn` without a script, or with a monitor already present, is refused. `spawn` on a worker without a monitor starts one. The worker process dies (Crashed) exactly when the new monitor's target is missing, since only `start` is listened for and the monitor's `error` is thrown. Otherwise it answers `spawn start`. `kill` adds a listener, and each listener answers once the child stops. `kill` ends the process exactly when `exitOnKill` is set and a child was stopped. `kill` on a monitor with no running child kills the worker (Crashed, with the "not running" error) exactly when the monitor's owner does not listen for its `error`. |
| Worker.KillStoppedMonitor | lib/forever/worker.js:66-72 | `kill` on a worker whose monitor is not running crashes it exactly when nobody hears the monitor's `error`. Otherwise it answers nothing, does not exit and keeps the monitor. |
| Worker.SpawnStartMeaning | lib/forever/monitor.js:93-110 | A spawned monitor's first start emits `error` exactly when its target is missing, and otherwise emits `start`. |
| Worker.MissingTargetCrashes | lib/forever/worker.js:58-63 | A `spawn` of a missing `node` script kills the worker. The new monitor's only event is the error naming the script, and it is not running. |
| Worker.SpawnStartsMonitor | lib/forever/worker.js:58-63 | A spawn whose script exists answers `spawn start`. |
| Cli.Exec | lib/forever/cli.js:24-63 | `cleanlogs` tidies. A missing or empty action starts here with the file. An array action calls its handler with its argument and without daemon mode. Only a named action runs as a daemon, and it gets the file. |
| Cli.EmptyNameStartsHere | lib/forever/cli.js:57-63 | An empty name is dispatched like a missing action, while an array with an empty name still calls a handler. |
| Cli.ArrayActionNotDaemon | lib/forever/cli.js:60-62 | An array action never dispatches like the named action of the same name. |
| Cli.SetConfig | lib/forever/cli.js:196-205 | Refused exactly when the key or value is missing or empty. Otherwise the key gets the value and every other key is kept. |
| Cli.ClearConfig | lib/forever/cli.js:212-223 | Refused exactly for `root` and `pidPath`. Otherwise the key is gone and every other key is kept. |
| Cli.ClearUndoesSet | lib/forever/cli.js:196-223 | Clearing a key just set leaves the configuration as clearing alone would. |
| Cli.RemoveFirst | lib/forever/cli.js:259 | Exactly one occurrence, the first, is removed. |
| Cli.ColumnsAsWritten | lib/forever/cli.js:233-278 | As written: `set` always ends in "Unknown column" with the columns unchanged. |
| Cli.SetColumnsAlwaysRefused | lib/forever/cli.js:267-273 | As written, `columns set` never changes the columns, whatever the names. |
| Cli.Columns | lib/forever/cli.js:233-278 | An invalid action is refused. A refusal keeps the columns. `set` replaces them exactly when every name is known. `add` appends a new known name, and `rm` removes a present one. |
| Cli.AddRmUnchanged | lib/forever/cli.js:244-260 | `add` and `rm` behave the same as written and corrected. |
| Cli.AddThenRemove | lib/forever/cli.js:244-260 | Adding a new known column and then removing it restores the list. |
| Watch.FirstMatching | lib/forever/plugins/watch.js:23-27 | The first pattern the name matches, with no match before it. |
| Watch.WatchFilter | lib/forever/plugins/watch.js:16-30 | A change restarts exactly when it is not an ignored dot-file and no pattern matches its relative path. |
| Watch.MorePatternsRejectMore | lib/forever/plugins/watch.js:23-29 | Adding patterns never accepts more files. |
| Watch.OnNotification | lib/forever/plugins/watch.js:44-57 | The end of the walk is ignored. A change restarts (not stops) the monitor exactly when the filter accepts it. |
| Watch.AddIgnoreFile | lib/forever/plugins/watch.js:35-42 | An unreadable file changes nothing. Otherwise one pattern per line is appended after the old ones, and the appended lines join back to the text. |
| Watch.IgnoredLineRejects | lib/forever/plugins/watch.js:24-41 | A `.foreverignore` line matching the file's relative path stops it from restarting the child. |
| Strings.JoinSplit | lib/forever/plugins/watch.js:41 | Splitting at a separator and joining back gives the text. |
| Service.Pause | lib/foreverd/service.js:200-204 | Pausing keeps the applications. |
| Service.Resume | lib/foreverd/service.js:210-214 | Resuming keeps the applications. |
| Service.Add | lib/foreverd/service.js:94-99 | Refused exactly while paused. Otherwise the file and options are handed on. |
| Service.PauseBlocksChanges | lib/foreverd/service.js:94-109 | After `pause`, `add` and `remove` are refused. After `resume`, `add` goes through. |
| Service.Filter | lib/foreverd/service.js:113-121 | Exactly the applications the selector holds for. |
| Service.FilterCounts | lib/foreverd/service.js:113-121 | A selected application is kept as many times as it is listed, and no other application is kept. |
| Service.FilterAppend | lib/foreverd/service.js:113-121 | Filtering two lists in turn is filtering their concatenation, so the registry's order is kept. |
| Service.FilterCons | lib/foreverd/service.js:113-121 | Filtering a non-empty list is filtering its head, then its tail. |
| Service.FilterOne | lib/foreverd/service.js:113-121 | A single application is kept exactly when it is selected. |
| Service.FilterNone | lib/foreverd/service.js:113-121 | Nothing is kept when nothing is selected. |
| Service.RemoveAsWritten | lib/foreverd/service.js:106-132 | As written, with a file or options, the registry keeps exactly the applications that match them. |
| Service.RemoveByFileKeepsMatch | lib/foreverd/service.js:111-116 | As written, removing `a.js` from `[a.js, b.js]` leaves `[a.js]`. |
| Service.SpliceWhileVisitingShape | lib/foreverd/service.js:124-129 | A `forEach` that splices its own array visits the even positions and leaves the odd ones. |
| Service.RemoveAllAsWritten | lib/foreverd/service.js:124-129 | As written, `remove()` stops and removes the even-position applications and keeps the odd ones. |
| Service.RemoveAllLeavesEverySecond | lib/foreverd/service.js:124-129 | As written, `remove()` on two applications leaves the second. |
| Service.Remove | lib/foreverd/service.js:106-132 | Refused exactly while paused. Otherwise the applications left are the unselected ones, in the registry's order and with their multiplicity (the Filter lemmas), and `remove()` removes all. |
| Service.RemoveStopsSelected | lib/foreverd/service.js:123-129 | `remove` stops the monitor of each selected application that has one: one stop per such application, in registry order, and no other stop. |
| Service.StopAllMeaning | lib/foreverd/service.js:124-127 | The monitors stopped are those of the applications with a monitor, one each, in order. |
| Service.FilterFilter | lib/foreverd/service.js:113-121 | Two filters in turn are one filter by both predicates. |
| Service.RemoveIdempotent | lib/foreverd/service.js:106-132 | A second identical `remove` changes nothing. |
| Host.CheckHostnameMeaning | request.c:13-193 | A missing Host passes. `[`-values must be IPv6 references. Any other value needs an all-digit port, if it has one, and a host part that is a host name by the grammar or an IPv4 address of four digit parts. |
| Host.Ipv6ScanMeaning | request.c:42-60 | The scan finds the first `]` when it is preceded only by hex digits and at most seven colons. Otherwise it fails. |
| Host.HostExamples | request.c:37-86 | A missing Host passes. An empty host, and a bare port, fail. |
| UriChars.UriValidChar | request.c:262-307 | The valid characters are the alphanumerics and RFC 2396's reserved and mark characters, plus `%`, `#`, `[` and `]`. |
| UriChars.ExcludedRefused | request.c:262-307 | Of the characters RFC 2396 excludes, only `%`, `#` and the brackets pass. |
| UriChars.OnlyAscii | request.c:262-307 | Nothing outside US-ASCII passes, and neither do space, CR, LF or NUL. |
| HeaderValues.SplitValues | request.c:200-260 | The C state machine's output equals `Values`: the pieces at `,`, trimmed of spaces and tabs, with a blank last piece dropped. |
| HeaderValues.ValuesSplit | request.c:216-258 | The values are the trimmed pieces of a split at `,`, with a blank last piece dropped. |
| HeaderValues.ValuesExamples | request.c:221-235 | Blank text has no values, and the blanks around a value go. |
| RequestLine.RequestLineMeaning | request.c:358-509 | The line is found exactly when a CRLF ends it with exactly two spaces before it. The parse waits exactly when there is no CRLF and at most two spaces. The two spaces found are that line's. |
| Request.AbsPathStrips | request.c:440-448 | `http://host/path` keeps only `/path`, and any other URI is kept. |
| Request.LineFieldsMeaning | request.c:388-468 | 501 exactly for an unknown method. 505 exactly for `HTTP/1.` with a minor version other than 0 and 1. Otherwise the fields are the method, the named version (1.1 only where allowed) and a valid URI ending the URI field. |
| Request.TokenOf | request.c:704-729 | A `keep-alive` decision needs a `keep-alive` value, and a `close` decision a `close` value, unless it was already made. Without either value the previous decision stands. |
| Request.TokenOfFirstDecides | request.c:704-729 | The first `keep-alive` or `close` value decides, whatever values follow it. |
| Request.StoreMeaning | request.c:704-799 | `Expect` is refused with 417, and a non-digit `Content-Length` with 400. `Host`, `Content-Length` and `Connection` set only their own record. |
| Request.Fold | request.c:672-683 | A continuation line is appended to the last header's value. The other headers, the `Host`, `Content-Length` and `Connection` records and the position in the line are kept. |
| Request.ScanNames | request.c:513-664 | Every header the loop stores has a well-formed field name, and none is `Expect`. |
| Request.FinishMeaning | request.c:835-925 | HTTP/1.1 needs a non-empty Host. Every Host must pass the hostname check. A POST needs a length within the limits, or gets 411 or 413. Keep-alive follows the version and `Connection`. |
| Request.ParseMeaning | request.c:309-925 | Waiting, the 400 for a bad space count and the 501 for an unknown method, each stated exactly. Every outcome refuses only with the statuses and keep-alive the code sets, and accepts only well-formed requests. |
| Request.AfterLineMeaning | request.c:388-509 | After a request line: 501 for an unknown method, never waiting, and a well-formed outcome. |
| Request.AfterFieldsMeaning | request.c:511-925 | After the fields of a valid request line, every outcome is well formed. |
| RequestProps.FieldsOf | request.c:388-476 | A line `m u HTTP/1.x` with a known method and a valid URI yields exactly those fields. |
| RequestProps.NoHeaders | request.c:601-611 | An empty header block accepts HTTP/1.0 without a body unless the method is POST, which gets 411 for its missing length. It refuses HTTP/1.1 for its missing Host. |
| RequestProps.OneHeader | request.c:666-810 | One header line is stored, or the request is refused as storing refuses it. |
| RequestProps.KeyCharRefused | request.c:526-662 | After name characters, a separator or a control character other than tab and CR in a field name refuses with 400. |
| RequestProps.SkipWsIs | request.c:573-597 | The blank-skipping after a field name stops at the first non-blank. |
| RequestProps.KeyBlankRefused | request.c:560-597 | Blanks inside a field name, not followed by the `:`, refuse with 400. |
| RequestProps.KeyCrRefused | request.c:601-619 | A CR in a field name, or a CR opening a line without its LF, refuses with 400. |
| RequestProps.ValueCrRefused | request.c:666-819 | A CR in a value that is not followed by its LF refuses with 400. |
| RequestProps.BadKeyRejected | request.c:537-659 | A request whose first header name runs into a separator or a control character is refused with 400 and no keep-alive. |
| RequestProps.BlankInKeyRejected | request.c:560-597 | A request whose first header name has blanks not followed by the `:` is refused with 400 and no keep-alive. |
| RequestProps.CrInKeyRejected | request.c:601-619 | A request whose first header name is cut by a CR, or whose header block opens with a CR without its LF, is refused with 400 and no keep-alive. |
| RequestProps.LoneCrRejected | request.c:666-819 | A request whose first header line `key: value` ends in a CR without its LF is refused with 400 and no keep-alive. |
| RequestProps.RoundTrip | request.c:309-925 | A header-less HTTP/1.0 request is accepted exactly as written, with no body and the connection closed. This holds when the method is known and is not POST, and the URI is valid and does not start with `http://`. |
| RequestProps.PostWithoutLengthRefused | request.c:879-893 | The POST case left out of RoundTrip: with no `Content-Length` it is refused with 411 and the connection closed. |
| RequestProps.HostRoundTrip | request.c:309-925 | An HTTP/1.1 request with one `Host` header is accepted with that host and the connection kept alive. This holds when HTTP/1.1 is allowed, the method is known and is not POST, the URI is valid and does not start with `http://`, and the host passes the hostname check and has no blank or CR. |
| Strings.ParseIntNatToString | lib/forever.js:276 | `parseInt` reads back every index printed in decimal. |
| Strings.NatToStringInjective | lib/forever/worker.js:13 | Distinct numbers print differently. |

## Left out

- I/O of every kind is left out. This covers file reads, writes and unlinks, `spawn`, `process.kill`, `ps`, sockets, logging and timers. Their answers are parameters, and their effects are the values the steps return.
- Randomness is a parameter: `rand(k)` is the `k`-th 32-bit word `Math.random` would give.
- `JSON.parse` of a `.fvr` file is an abstract function. `JSON.stringify` in `remove` is modelled by comparing the stored text of `file` and `options`.
- `minimatch` and `path.relative` in the watch filter are abstract functions.
- `forever.columns` is not defined in `lib/forever.js`, so the list of known columns is a parameter of `Cli.Columns`.
- `monitor.data`, which the worker's `data` handler sends, is not set anywhere in `monitor.js`. The model sends a payload stored beside the monitor.
- The monitor's stdout and stderr files, its logger, `silent`, `spawnWith`, `outFile` and `errFile` are left out. They do not affect the restart policy.
- Monitor.CrashLoop: runs at most `fuel` exit/restart cycles. The lemmas about it state what holds within that bound.
- `forever.list`'s row formatting is left out, apart from the padding lengths.
- `cleanUp`'s batching of ten at a time is left out, because it does not change which files are removed.
- Paths: `path.join` and `path.normalize` follow Node's POSIX rules. Windows paths and `path.resolve` are left out.
- Monitor.SaveRestoresScript: stated only for a plain relative script (no empty, `.` or `..` segment) and a `sourceDir` in normal form. For `sourceDir` `dir/`, `save` does not strip the directory (Monitor.SaveKeepsTrailingSlashDir). For a script `./app.js`, the join drops the `./` (Paths.JoinDotSlash), so the record names `app.js`.
- Forever.PidFilePath: a missing pid file joins the empty name and gives the pid directory itself. This is how Node 0.8's `path.join` drops a non-string argument. Later versions of Node throw a TypeError instead.
- Forever.Stop: the corrected stop returns the records unformatted. With `format` on, a record without a `file` would still make `forever.list` throw, as Forever.StopAsWritten shows.
- Forever.Stop: `process.kill` is taken to succeed on every pid it is given. When killing the monitor throws (a pid that no longer exists), the code skips that record's child, but the model still lists the child as signalled.
- Cli.Columns: `add` or `rm` with no name reads `value[0]` as `undefined`, and building the "Unknown column" message throws a TypeError. The model reports `UnknownColumn` instead. The columns are left unchanged either way. The same holds for Cli.ColumnsAsWritten.
- Monitor.New: an argv script with no arguments and a `sourceDir` follows Node 0.8's `path.join`, which drops the `undefined` argument. Later versions of Node throw a TypeError instead.
- Forever.StopAsWritten: a record whose `options` field is missing also makes `formatProcess` throw (`proc.options.map`). The model's records always carry an options list, with a missing list read as empty, so this case is not covered. `timespan` on a missing `ctime` is not modelled either.
- Worker.Handle: the worker takes its monitor from `options.monitor`, and nothing in `lib/` builds a worker. Whether that monitor's owner listens for its `error` is therefore a parameter, `MonitorHandle.errorHeard`.
- Worker.Handle: the spawned monitor's first `save` is taken to write its `.fvr` file. A failed write emits a second `error` that nobody hears, which would also kill the worker.
- Forever.GetAllProcesses: lists records in the order their uids were first seen. `Object.keys` puts integer-like keys first, in numeric order, and the model does not reorder them.
- `array.c`, `buffer.c`, `keyvalue.c` and the rest of lighttpd are not part of this model. `get_http_method_key` is the method table in `Config`.
- Request: `array_insert_unique` merges a header into an earlier one with the same name. The model keeps every stored header in arrival order.
- Request: `Content-Type`, `If-Modified-Since`, `If-None-Match` and `Range` only record pointers that the parse never reads. They are stored as ordinary headers.
- Request: `con->response.keep_alive` is not tracked, only `con->keep_alive`.
- Request: the stored field name keeps the blanks that stood before its `:`, as the code does (`key_len` counts them). The model does not strip them.
- Request.StrToUl: `strtoul` saturates at `ULONG_MAX`. `Config.ulongMax` is that bound, and `errno` is not modelled.
- Request: a buffer with no CRLF at all is reported as `Unterminated`. The caller only parses once the header block has ended, so the model does not follow the checks after the loops on such a buffer.

## Findings

| source | as written | input that shows it | evidently intended | confidence | as-written member | corrected member |
|---|---|---|---|---|---|---|
| lib/forever/monitor.js:87-91 | On a running monitor, `start()` queues the already-running error but does not return, so it spawns a second child. | `start()` twice on a monitor whose script exists (Monitor.StartWhileRunningSpawnsTwice) | return after queueing the error | not executed | Monitor.StartAsWritten | Monitor.Start |
| lib/forever.js:187-201 | An index out of range gives `[undefined]`, whose length is 1. With `format` off, `stop` reports success and signals nothing. With `format` on, as `forever stop 7` calls it, `forever.list` reads `command` of `undefined` and the process throws. | `stop("7")` with one process (Forever.StopMissingIndexClaimsSuccess) | report "Cannot find forever process" | not executed | Forever.StopAsWritten | Forever.Stop |
| lib/forever/cli.js:267-273 | For `set`, the whole array is looked up among the known column names. `indexOf` of an array is -1, so `set` always ends in "Unknown column". | `columns set uid pid` (Cli.SetColumnsAlwaysRefused) | check each name in the array | not executed | Cli.ColumnsAsWritten | Cli.Columns |
| lib/forever/worker.js:54-56 | The guard reads `this.monitor`, where `this` is the socket, so "Already running" is never sent. | `spawn` on a worker that has a monitor (Worker.SpawnGuardNeverFires) | test the worker's own monitor | not executed | Worker.HandleAsWritten | Worker.Handle |
| lib/forever/worker.js:67-70 | Inside the `stop` listener, `this.exitOnKill` reads the monitor, which has no such property, so the worker never exits. | `kill` on a worker built with `exitOnKill: true` (Worker.ExitOnKillIgnored) | exit when the worker's flag is set | not executed | Worker.HandleAsWritten | Worker.Handle |
| lib/foreverd/service.js:110-122 | The filters keep the applications whose file or options DIFFER, so those are the ones stopped and removed. | `remove("a.js")` on `[a.js, b.js]` keeps `a.js` (Service.RemoveByFileKeepsMatch) | remove the matching applications | not executed | Service.RemoveAsWritten | Service.Remove |
| lib/foreverd/service.js:124-129 | Without a file or options, the `forEach` runs over the registry's own array while splicing it, so every second application is skipped. | `remove()` on `[a, b]` leaves `[b]` (Service.RemoveAllLeavesEverySecond) | remove every application | not executed | Service.RemoveAllAsWritten | Service.Remove |

=== FILE: base.dfy ===
/** Failure-carrying wrappers shared by every module of the model. */
module Wrappers {

  /** An optional value: the JavaScript `undefined`/`null` cases become `None`. */
  datatype Option<+T> = None | Some(value: T)

  /** The outcome of an operation that may report an error instead of a value. */
  datatype Result<+T, +E> = Ok(value: T) | Err(error: E)
}

/** Character classes and string operations the modelled code relies on.
    Strings are sequences of characters; no Unicode folding is modelled. */
module Strings {

  import opened Wrappers

  /** JavaScript truthiness of an optional string: present and non-empty. */
  predicate Truthy(s: Option<string>)
  {
    s.Some? && s.value != ""
  }

  /** The value of a truthy optional string, else the fallback (`a || b`). */
  function Or(s: Option<string>, fallback: string): (r: string)
    ensures Truthy(s) ==> r == s.value
    ensures !Truthy(s) ==> r == fallback
  {
    if Truthy(s) then s.value else fallback
  }

  /* ----- character classes (the `light_is*` macros and their JavaScript uses) ----- */

  predicate IsDigit(c: char) { '0' <= c <= '9' }

  predicate IsAlpha(c: char) { 'a' <= c <= 'z' || 'A' <= c <= 'Z' }

  predicate IsAlnum(c: char) { IsDigit(c) || IsAlpha(c) }

  predicate IsXDigit(c: char) { IsDigit(c) || 'a' <= c <= 'f' || 'A' <= c <= 'F' }

  predicate AllDigits(s: string) { forall i :: 0 <= i < |s| ==> IsDigit(s[i]) }

  /** ASCII lower-casing, the only case folding the code performs. */
  function Lower(c: char): char
  {
    if 'A' <= c <= 'Z' then (c as int + 32) as char else c
  }

  /** Equality ignoring ASCII case. */
  predicate CaselessEq(a: string, b: string)
  {
    |a| == |b| && forall i :: 0 <= i < |a| ==> Lower(a[i]) == Lower(b[i])
  }

  predicate StartsWith(s: string, prefix: string)
  {
    |prefix| <= |s| && s[..|prefix|] == prefix
  }

  predicate EndsWith(s: string, suffix: string)
  {
    |suffix| <= |s| && s[|s| - |suffix|..] == suffix
  }

  /* ----- searching ----- */

  /** The first position of `c` in `s`, or `|s|` when there is none
      (`indexOf`, with `|s|` standing for `-1`). */
  function FirstIndexOf<T(==)>(s: seq<T>, c: T): (k: nat)
    ensures k <= |s|
    ensures forall j :: 0 <= j < k ==> s[j] != c
    ensures k < |s| ==> s[k] == c
    decreases |s|
  {
    if |s| == 0 then 0
    else if s[0] == c then 0
    else 1 + FirstIndexOf(s[1..], c)
  }

  /** `pat` occurs in `s` starting at position `j`. */
  predicate MatchAt(s: string, pat: string, j: nat)
  {
    j + |pat| <= |s| && s[j..j + |pat|] == pat
  }

  /** The first occurrence of `pat` in `s` at or after `from`, JavaScript `indexOf`. */
  function IndexOfFrom(s: string, pat: string, from: nat): (r: Option<nat>)
    ensures r.Some? ==> from <= r.value && MatchAt(s, pat, r.value)
    ensures r.Some? ==> forall j :: from <= j < r.value ==> !MatchAt(s, pat, j)
    ensures r.None? ==> forall j :: from <= j ==> !MatchAt(s, pat, j)
    decreases |s| - from
  {
    if from + |pat| > |s| then None
    else if MatchAt(s, pat, from) then Some(from)
    else IndexOfFrom(s, pat, from + 1)
  }

  /** A match at `k` with none before it is the first one. */
  lemma {:induction false} IndexOfFromFirst(s: string, pat: string, from: nat, k: nat)
    requires from <= k && MatchAt(s, pat, k)
    requires forall j :: from <= j < k ==> !MatchAt(s, pat, j)
    ensures IndexOfFrom(s, pat, from) == Some(k)
    decreases k - from
  {
    if from < k {
      IndexOfFromFirst(s, pat, from + 1, k);
    }
  }

  /** JavaScript `String.prototype.replace` with a string pattern: only the
      first occurrence is replaced. */
  function ReplaceFirst(s: string, pat: string, rep: string): (r: string)
    ensures IndexOfFrom(s, pat, 0).None? ==> r == s
  {
    match IndexOfFrom(s, pat, 0)
    case None => s
    case Some(k) => s[..k] + rep + s[k + |pat|..]
  }

  /** Removing a prefix with `replace(prefix, '')` gives back the rest. */
  lemma ReplacePrefix(prefix: string, rest: string)
    ensures ReplaceFirst(prefix + rest, prefix, "") == rest
  {
    var s := prefix + rest;
    assert MatchAt(s, prefix, 0);
    assert IndexOfFrom(s, prefix, 0) == Some(0);
    assert s[|prefix|..] == rest;
  }

  /** The position just after the last `c` of `s`, or 0 when there is none. */
  function AfterLast(s: string, c: char): (k: nat)
    ensures k <= |s|
    ensures forall j :: k <= j < |s| ==> s[j] != c
    ensures k > 0 ==> s[k - 1] == c
  {
    if |s| == 0 then 0
    else if s[|s| - 1] == c then |s|
    else AfterLast(s[..|s| - 1], c)
  }

  /** The last `c` of `a + b` is the first character of `b` when `b` has no
      other `c`. */
  lemma {:induction false} AfterLastAppend(a: string, b: string, c: char)
    requires |b| >= 1 && b[0] == c && c !in b[1..]
    ensures AfterLast(a + b, c) == |a| + 1
    decreases |b|
  {
    var s := a + b;
    if |b| > 1 {
      assert s[|s| - 1] == b[|b| - 1] && b[|b| - 1] in b[1..];
      assert s[..|s| - 1] == a + b[..|b| - 1];
      assert b[..|b| - 1][1..] == b[1..|b| - 1];
      AfterLastAppend(a, b[..|b| - 1], c);
    }
  }

  /** The last `/`-separated component, `split('/').pop()` and `path.basename`. */
  function Basename(s: string): (r: string)
    ensures '/' !in r
    ensures EndsWith(s, r)
  {
    s[AfterLast(s, '/')..]
  }

  /* ----- split and join on one separator (JavaScript `split` / `join`) ----- */

  function Split(s: string, sep: char): (parts: seq<string>)
    ensures |parts| >= 1
    ensures forall i :: 0 <= i < |parts| ==> sep !in parts[i]
    decreases |s|
  {
    var k := FirstIndexOf(s, sep);
    if k == |s| then [s]
    else [s[..k]] + Split(s[k + 1..], sep)
  }

  function JoinWith(parts: seq<string>, sep: char): string
  {
    if |parts| == 0 then ""
    else if |parts| == 1 then parts[0]
    else parts[0] + [sep] + JoinWith(parts[1..], sep)
  }

  /** Splitting then joining on the same separator gives back the text. */
  lemma {:induction false} JoinSplit(s: string, sep: char)
    ensures JoinWith(Split(s, sep), sep) == s
    decreases |s|
  {
    var k := FirstIndexOf(s, sep);
    if k == |s| {
      assert Split(s, sep) == [s];
    } else {
      var tail := s[k + 1..];
      JoinSplit(tail, sep);
      var rest := Split(tail, sep);
      var head := s[..k];
      assert Split(s, sep) == [head] + rest;
      JoinCons(head, rest, sep);
      Decompose(s, k);
      calc {
        JoinWith(Split(s, sep), sep);
        JoinWith([head] + rest, sep);
        head + [sep] + JoinWith(rest, sep);
        head + [sep] + tail;
      }
    }
  }

  /** A string is its prefix, one character and its suffix. */
  lemma Decompose(s: string, k: nat)
    requires k < |s|
    ensures s == s[..k] + [s[k]] + s[k + 1..]
  {
  }

  lemma JoinCons(a: string, rest: seq<string>, sep: char)
    requires |rest| >= 1
    ensures JoinWith([a] + rest, sep) == a + [sep] + JoinWith(rest, sep)
  {
    var parts := [a] + rest;
    assert parts[0] == a && parts[1..] == rest;
  }

  /** Joining separator-free parts then splitting gives back the parts. */
  lemma {:induction false} SplitJoin(parts: seq<string>, sep: char)
    requires |parts| >= 1
    requires forall i :: 0 <= i < |parts| ==> sep !in parts[i]
    ensures Split(JoinWith(parts, sep), sep) == parts
    decreases |parts|
  {
    var p := parts[0];
    if |parts| == 1 {
      assert FirstIndexOf(p, sep) == |p|;
    } else {
      var tail := JoinWith(parts[1..], sep);
      var s := p + [sep] + tail;
      assert s == JoinWith(parts, sep);
      FirstIndexSkips(p, [sep] + tail, sep);
      assert s == p + ([sep] + tail);
      assert FirstIndexOf(s, sep) == |p|;
      assert s[..|p|] == p;
      assert s[|p| + 1..] == tail;
      SplitJoin(parts[1..], sep);
      assert parts == [p] + parts[1..];
    }
  }

  /** The first separator of `a + b` lies in `b` when `a` has none. */
  lemma {:induction false} FirstIndexSkips(a: string, b: string, c: char)
    requires c !in a
    requires |b| > 0 && b[0] == c
    ensures FirstIndexOf(a + b, c) == |a|
    decreases |a|
  {
    if |a| > 0 {
      assert (a + b)[1..] == a[1..] + b;
      FirstIndexSkips(a[1..], b, c);
    } else {
      assert a + b == b;
    }
  }

  /** Number of occurrences of `c`. */
  function Count(s: string, c: char): nat
  {
    if |s| == 0 then 0 else (if s[0] == c then 1 else 0) + Count(s[1..], c)
  }

  lemma {:induction false} CountAppend(a: string, b: string, c: char)
    ensures Count(a + b, c) == Count(a, c) + Count(b, c)
    decreases |a|
  {
    if |a| > 0 {
      assert (a + b)[1..] == a[1..] + b;
      CountAppend(a[1..], b, c);
    } else {
      assert a + b == b;
    }
  }

  /** A split yields one part more than there are separators. */
  lemma {:induction false} SplitCount(s: string, sep: char)
    ensures |Split(s, sep)| == Count(s, sep) + 1
    decreases |s|
  {
    var k := FirstIndexOf(s, sep);
    if k == |s| {
      NoneCounted(s, sep);
    } else {
      SplitCount(s[k + 1..], sep);
      assert s == s[..k] + [sep] + s[k + 1..];
      CountAppend(s[..k] + [sep], s[k + 1..], sep);
      CountAppend(s[..k], [sep], sep);
      NoneCounted(s[..k], sep);
      assert Count([sep], sep) == 1 by { assert [sep][1..] == []; }
    }
  }

  lemma {:induction false} NoneCounted(s: string, c: char)
    requires forall j :: 0 <= j < |s| ==> s[j] != c
    ensures Count(s, c) == 0
    decreases |s|
  {
    if |s| > 0 {
      NoneCounted(s[1..], c);
    }
  }

  /* ----- decimal numerals ----- */

  /** The value of a string of decimal digits. */
  function DigitsValue(s: string): nat
    requires AllDigits(s)
  {
    if |s| == 0 then 0
    else DigitsValue(s[..|s| - 1]) * 10 + (s[|s| - 1] as int - '0' as int)
  }

  /** The decimal representation of `n` (JavaScript string concatenation of a number). */
  function NatToString(n: nat): (s: string)
    ensures |s| >= 1 && AllDigits(s)
    ensures DigitsValue(s) == n
  {
    var d := ((n % 10) + '0' as int) as char;
    if n < 10 then
      assert [d][..0] == [];
      [d]
    else
      var prefix := NatToString(n / 10);
      var s := prefix + [d];
      assert s[..|s| - 1] == prefix;
      s
  }

  /** Distinct numbers print differently, so generated names never collide. */
  lemma NatToStringInjective(m: nat, n: nat)
    requires m != n
    ensures NatToString(m) != NatToString(n)
  {
  }

  /* ----- JavaScript parseInt(string) with no radix ----- */

  predicate IsJsSpace(c: char)
  {
    c == ' ' || c == '\t' || c == '\n' || c == '\r' || c == '\U{B}' || c == '\U{C}'
  }

  /** The digit value of a decimal or hexadecimal digit. */
  function DigitVal(c: char): nat
  {
    if IsDigit(c) then c as int - '0' as int
    else if 'a' <= c <= 'f' then c as int - 'a' as int + 10
    else if 'A' <= c <= 'F' then c as int - 'A' as int + 10
    else 0
  }

  predicate IsRadixDigit(c: char, radix: nat)
  {
    if radix == 16 then IsXDigit(c) else IsDigit(c)
  }

  /** Length of the leading run of characters satisfying the predicate. */
  function SpaceRun(s: string): (k: nat)
    ensures k <= |s|
    ensures forall j :: 0 <= j < k ==> IsJsSpace(s[j])
    ensures k < |s| ==> !IsJsSpace(s[k])
  {
    if |s| == 0 || !IsJsSpace(s[0]) then 0 else 1 + SpaceRun(s[1..])
  }

  function DigitRun(s: string, radix: nat): (k: nat)
    ensures k <= |s|
    ensures forall j :: 0 <= j < k ==> IsRadixDigit(s[j], radix)
    ensures k < |s| ==> !IsRadixDigit(s[k], radix)
  {
    if |s| == 0 || !IsRadixDigit(s[0], radix) then 0 else 1 + DigitRun(s[1..], radix)
  }

  /** The value of a digit string in the given radix. */
  function RadixValue(s: string, radix: nat): nat
  {
    if |s| == 0 then 0
    else RadixValue(s[..|s| - 1], radix) * radix + DigitVal(s[|s| - 1])
  }

  /** `parseInt(s)`: leading white space, an optional sign, an optional `0x`
      prefix selecting base 16, then the longest run of digits; `None` is
      `NaN` (no digit at all). */
  function ParseInt(s: string): (r: Option<int>)
  {
    var t := s[SpaceRun(s)..];
    var neg := |t| > 0 && t[0] == '-';
    var u := if |t| > 0 && (t[0] == '-' || t[0] == '+') then t[1..] else t;
    var hex := |u| >= 2 && u[0] == '0' && (u[1] == 'x' || u[1] == 'X');
    var radix := if hex then 16 else 10;
    var v := if hex then u[2..] else u;
    var k := DigitRun(v, radix);
    if k == 0 then None
    else
      var n: int := RadixValue(v[..k], radix);
      Some(if neg then -n else n)
  }

  lemma {:induction false} RadixValueDecimal(s: string)
    requires AllDigits(s)
    ensures RadixValue(s, 10) == DigitsValue(s)
    decreases |s|
  {
    if |s| > 0 {
      RadixValueDecimal(s[..|s| - 1]);
    }
  }

  /** `parseInt` reads back every number JavaScript prints. */
  lemma ParseIntNatToString(n: nat)
    ensures ParseInt(NatToString(n)) == Some(n)
  {
    ParseIntDigits(NatToString(n));
  }

  /** A nonempty run of decimal digits is read as its decimal value. */
  lemma ParseIntDigits(s: string)
    requires |s| >= 1 && AllDigits(s)
    ensures ParseInt(s) == Some(DigitsValue(s))
  {
    assert IsDigit(s[0]) && !IsJsSpace(s[0]);
    assert SpaceRun(s) == 0;
    var t := s[SpaceRun(s)..];
    assert t == s;
    assert !(t[0] == '-' || t[0] == '+');
    assert !(|s| >= 2 && s[0] == '0' && (s[1] == 'x' || s[1] == 'X')) by {
      if |s| >= 2 { assert IsDigit(s[1]); }
    }
    DigitsRun(s);
    RadixValueDecimal(s);
    assert s[..DigitRun(s, 10)] == s;
  }

  lemma DigitsRun(s: string)
    requires AllDigits(s)
    ensures DigitRun(s, 10) == |s|
  {
  }
}

=== FILE: cli.dfy ===
/** The command-line handlers of lib/forever/cli.js that decide something
    before any I/O: the `exec` dispatch, the `set` / `clear` guards on the
    user configuration and the `columns` list editing. Logging, the config
    file and the handlers' own effects are left out; the configuration is a
    map of strings and the column list a sequence of names. */
module Cli {

  import opened Wrappers
  import opened Strings

  /* ----- `exec` ----- */

  /** The `action` argument: missing, a name, or an array whose first element
      names the handler and whose second is its argument. An empty name is
      falsy in JavaScript and is dispatched as a missing action. */
  datatype Action = NoAction | Named(name: string) | Listed(name: string, arg: Option<string>)

  /** Where `exec` sends control. */
  datatype Dispatch =
    | Tidy                                               // `forever.cleanUp(true)`
    | StartHere(file: Option<string>)                    // `cli.start(file, options)`
    | Call(handler: string, arg: Option<string>, daemon: bool)  // `cli[handler](arg, options, daemon)`

  function Exec(action: Action, file: Option<string>): (r: Dispatch)
    ensures r.Tidy? <==> action == Named("cleanlogs")
    ensures r.StartHere? <==> action.NoAction? || action == Named("")
    ensures r.StartHere? ==> r.file == file
    ensures action.Listed? ==> r == Call(action.name, action.arg, false)
    ensures r.Call? && r.daemon ==> action.Named? && r.handler == action.name && r.arg == file
    ensures r.Call? ==> r.handler == action.name && (r.daemon <==> action.Named?)
  {
    match action
    case NoAction => StartHere(file)
    case Named(name) =>
      if name == "cleanlogs" then Tidy
      else if name == "" then StartHere(file)
      else Call(name, file, true)
    case Listed(name, arg) => Call(name, arg, false)
  }

  /** An empty action name is falsy, so it starts the file here just as a
      missing action does; an array is truthy even with an empty name. */
  lemma EmptyNameStartsHere(file: Option<string>, arg: Option<string>)
    ensures Exec(Named(""), file) == Exec(NoAction, file) == StartHere(file)
    ensures Exec(Listed("", arg), file) == Call("", arg, false)
  {
  }

  /** Only a plain named action runs its handler as a daemon; an array action
      with the same name does not, and is never the clean-up shortcut. */
  lemma ArrayActionNotDaemon(name: string, arg: Option<string>, file: Option<string>)
    ensures Exec(Listed(name, arg), file) != Exec(Named(name), file)
  {
  }

  /* ----- `set` and `clear` ----- */

  /** The keys `clear` refuses to remove. */
  const Reserved := ["root", "pidPath"]

  datatype ConfigError = MissingKeyOrValue | ReservedKey(key: string)

  /** `cli.set(key, value)`: both must be truthy, then the key is written. */
  function SetConfig(config: map<string, string>, key: Option<string>, value: Option<string>): (r: Result<map<string, string>, ConfigError>)
    ensures r.Err? <==> !Truthy(key) || !Truthy(value)
    ensures r.Err? ==> r.error == MissingKeyOrValue
    ensures r.Ok? ==> key.value in r.value && r.value[key.value] == value.value
    ensures r.Ok? ==> forall k :: k != key.value ==>
              (k in r.value <==> k in config) && (k in config ==> r.value[k] == config[k])
  {
    if !Truthy(key) || !Truthy(value) then Err(MissingKeyOrValue)
    else Ok(config[key.value := value.value])
  }

  /** `cli.clear(key)`: a reserved key is refused, any other is removed. */
  function ClearConfig(config: map<string, string>, key: string): (r: Result<map<string, string>, ConfigError>)
    ensures r.Err? <==> key in Reserved
    ensures r.Err? ==> r.error == ReservedKey(key)
    ensures r.Ok? ==> key !in r.value
    ensures r.Ok? ==> forall k :: k != key ==>
              (k in r.value <==> k in config) && (k in config ==> r.value[k] == config[k])
  {
    if FirstIndexOf(Reserved, key) != |Reserved| then Err(ReservedKey(key))
    else Ok(config - {key})
  }

  /** Clearing a key just set leaves the configuration as clearing it alone. */
  lemma ClearUndoesSet(config: map<string, string>, key: string, value: string)
    requires key != "" && value != "" && key !in Reserved
    ensures SetConfig(config, Some(key), Some(value)).Ok?
    ensures ClearConfig(SetConfig(config, Some(key), Some(value)).value, key) == ClearConfig(config, key)
  {
    var written := SetConfig(config, Some(key), Some(value)).value;
    assert written - {key} == config - {key};
  }

  /* ----- `columns` ----- */

  datatype ColumnsMessage =
    | InvalidAction   // 'Invalid action: columns ...'
    | UnknownColumn   // 'Unknown column: ...'
    | AlreadyExists   // '... already exists in forever'
    | NotPresent      // "... doesn't exist in forever"
    | Added
    | Removed
    | Replaced

  /** The column list after the command and what was reported. */
  datatype ColumnsResult = ColumnsResult(columns: seq<string>, message: ColumnsMessage)

  predicate IsColumnsAction(action: string)
  {
    action == "add" || action == "rm" || action == "set"
  }

  /** `columns.splice(columns.indexOf(name), 1)`. */
  function RemoveFirst(columns: seq<string>, name: string): (r: seq<string>)
    requires name in columns
    ensures |r| == |columns| - 1
    ensures multiset(r) + multiset{name} == multiset(columns)
    ensures var k := FirstIndexOf(columns, name); r == columns[..k] + columns[k + 1..]
  {
    var k := FirstIndexOf(columns, name);
    assert columns == columns[..k] + [columns[k]] + columns[k + 1..];
    columns[..k] + columns[k + 1..]
  }

  /** The `add` and `rm` sub-actions, on the single name `value[0]`. */
  function EditOne(columns: seq<string>, action: string, name: string): (r: ColumnsResult)
    requires action == "add" || action == "rm"
  {
    if action == "add" then
      if name in columns then ColumnsResult(columns, AlreadyExists)
      else ColumnsResult(columns + [name], Added)
    else
      if name !in columns then ColumnsResult(columns, NotPresent)
      else ColumnsResult(RemoveFirst(columns, name), Removed)
  }

  /** `cli.columns(action, value)` as written: for `set` the whole array is
      looked up among the column names with `indexOf`, which never finds an
      array, so `set` is always refused. */
  function ColumnsAsWritten(columns: seq<string>, allColumns: seq<string>, action: string, value: seq<string>): (r: ColumnsResult)
    ensures action == "set" ==> r == ColumnsResult(columns, UnknownColumn)
  {
    if !IsColumnsAction(action) then ColumnsResult(columns, InvalidAction)
    else if action == "set" then ColumnsResult(columns, UnknownColumn)
    else if |value| == 0 || value[0] !in allColumns then ColumnsResult(columns, UnknownColumn)
    else EditOne(columns, action, value[0])
  }

  /** Whatever the columns and names, `columns set` changes nothing. */
  lemma SetColumnsAlwaysRefused(columns: seq<string>, allColumns: seq<string>, value: seq<string>)
    ensures ColumnsAsWritten(columns, allColumns, "set", value) == ColumnsResult(columns, UnknownColumn)
  {
  }

  /** `cli.columns` with `set` checking every name it is given. */
  function Columns(columns: seq<string>, allColumns: seq<string>, action: string, value: seq<string>): (r: ColumnsResult)
    ensures !IsColumnsAction(action) ==> r == ColumnsResult(columns, InvalidAction)
    ensures r.message in {InvalidAction, UnknownColumn, AlreadyExists, NotPresent} ==> r.columns == columns
    ensures action == "set" ==>
              (r.message == Replaced <==> forall i :: 0 <= i < |value| ==> value[i] in allColumns)
    ensures r.message == Replaced ==> r.columns == value
    ensures action == "add" && |value| > 0 && value[0] in allColumns ==>
              r.columns == (if value[0] in columns then columns else columns + [value[0]])
    ensures action == "rm" && |value| > 0 && value[0] in allColumns && value[0] in columns ==>
              multiset(r.columns) + multiset{value[0]} == multiset(columns) &&
              |r.columns| == |columns| - 1
    ensures (action == "add" || action == "rm") && (|value| == 0 || value[0] !in allColumns) ==>
              r == ColumnsResult(columns, UnknownColumn)
  {
    if !IsColumnsAction(action) then ColumnsResult(columns, InvalidAction)
    else if action == "set" then
      if forall i :: 0 <= i < |value| ==> value[i] in allColumns then ColumnsResult(value, Replaced)
      else ColumnsResult(columns, UnknownColumn)
    else if |value| == 0 || value[0] !in allColumns then ColumnsResult(columns, UnknownColumn)
    else EditOne(columns, action, value[0])
  }

  /** `add` and `rm` agree with the corrected command. */
  lemma AddRmUnchanged(columns: seq<string>, allColumns: seq<string>, action: string, value: seq<string>)
    requires action != "set"
    ensures ColumnsAsWritten(columns, allColumns, action, value) == Columns(columns, allColumns, action, value)
  {
  }

  /** Adding a new known column and then removing it restores the list. */
  lemma AddThenRemove(columns: seq<string>, allColumns: seq<string>, name: string)
    requires name in allColumns && name !in columns
    ensures var added := Columns(columns, allColumns, "add", [name]);
            added.message == Added &&
            Columns(added.columns, allColumns, "rm", [name]) == ColumnsResult(columns, Removed)
  {
    var added := columns + [name];
    assert FirstIndexOf(added, name) == |columns| by {
      FirstIndexAppend(columns, name);
    }
    assert added[..|columns|] == columns;
  }

  lemma {:induction false} FirstIndexAppend(s: seq<string>, x: string)
    requires x !in s
    ensures FirstIndexOf(s + [x], x) == |s|
    decreases |s|
  {
    if |s| > 0 {
      assert (s + [x])[1..] == s[1..] + [x];
      FirstIndexAppend(s[1..], x);
    }
  }
}

=== FILE: forever.dfy ===
/** The process-table helpers of the top-level module (lib/forever.js): the
    registry of `<uid>.pid` / `<uid>.fvr` files, lookups by index and by
    script, the `stop` target dispatch, path resolution, the pre-start `stat`
    decision, the clean-up rules and the padding of the formatted list.
    Directory listings, file contents, `JSON.parse` and the liveness probe
    (`ps`) are inputs. */
module Forever {

  import opened Wrappers
  import opened Strings
  import opened Paths

  /** A process record as read back from a `.fvr` file (or synthesised from a
      `.pid` file); every property may be missing. */
  datatype Proc = Proc(
    uid: Option<string>,
    pid: Option<int>,         // `None` also stands for `NaN`
    foreverPid: Option<int>,
    file: Option<string>,
    logFile: Option<string>,
    command: Option<string>,
    options: seq<string>,
    dead: bool)

  /** JavaScript truthiness of a numeric property (`0` and `NaN` are falsy). */
  predicate Set(n: Option<int>)
  {
    n.Some? && n.value != 0
  }

  /* ----- the registry merge (`getAllProcesses`) ----- */

  /** One directory entry: its name and the result of reading it. */
  datatype FileData = Unreadable | Readable(text: string)
  datatype DirEntry = DirEntry(name: string, data: FileData)

  /** `path.extname` of a plain file name: from the last `.` to the end, unless
      that dot is the first character or there is none. */
  function Extname(name: string): (ext: string)
    ensures ext == "" || (ext[0] == '.' && EndsWith(name, ext) && |ext| < |name|)
    ensures ext != "" ==> '.' !in ext[1..]
  {
    var k := AfterLast(name, '.');
    if k >= 2 then name[k - 1..] else ""
  }

  /** The uid of a registry file: `file.replace(ext, '')`. */
  function UidOf(name: string): string
  {
    ReplaceFirst(name, Extname(name), "")
  }

  /** A registry file named `<uid><ext>` gives back its uid when the uid has
      no dot, which holds for every generated uid. */
  lemma UidOfFileName(uid: string, ext: string)
    requires uid != "" && '.' !in uid
    requires |ext| >= 1 && ext[0] == '.' && '.' !in ext[1..]
    ensures Extname(uid + ext) == ext
    ensures UidOf(uid + ext) == uid
  {
    var name := uid + ext;
    AfterLastAppend(uid, ext, '.');
    assert name[|uid|..] == ext;
    FirstMatchAfter(uid, ext);
    assert name[..|uid|] == uid;
    assert name[|uid| + |ext|..] == "";
  }

  /** A dot-led pattern cannot start inside a dot-free prefix. */
  lemma FirstMatchAfter(uid: string, ext: string)
    requires '.' !in uid
    requires |ext| >= 1 && ext[0] == '.'
    ensures IndexOfFrom(uid + ext, ext, 0) == Some(|uid|)
  {
    var name := uid + ext;
    forall j | 0 <= j < |uid|
      ensures !MatchAt(name, ext, j)
    {
      assert name[j] == uid[j];
      if j + |ext| <= |name| {
        assert name[j..j + |ext|][0] == name[j];
      }
    }
    assert name[|uid|..|uid| + |ext|] == ext;
    IndexOfFromFirst(name, ext, 0, |uid|);
  }

  /** The uid-keyed object the merge builds, with `Object.keys` order kept. */
  datatype Table = Table(order: seq<string>, entries: map<string, Proc>)

  ghost predicate WellFormed(t: Table)
  {
    (forall i, j :: 0 <= i < j < |t.order| ==> t.order[i] != t.order[j]) &&
    (forall k :: k in t.entries <==> k in t.order)
  }

  /** `processes[uid] = p`: a new key goes last, an existing key keeps its place. */
  function Put(t: Table, uid: string, p: Proc): (r: Table)
    requires WellFormed(t)
    ensures WellFormed(r)
    ensures r.entries == t.entries[uid := p]
    ensures uid in t.entries ==> r.order == t.order
    ensures uid !in t.entries ==> r.order == t.order + [uid]
  {
    if uid in t.entries then t.(entries := t.entries[uid := p])
    else Table(t.order + [uid], t.entries[uid := p])
  }

  /** The record a `.pid` file or a failed read contributes. */
  function Bare(uid: string, foreverPid: Option<int>): Proc
  {
    Proc(Some(uid), None, foreverPid, None, None, None, [], false)
  }

  /** The body of the `files.forEach` callback for one entry. */
  function Absorb(t: Table, e: DirEntry, parseJson: string -> Option<Proc>): (r: Table)
    requires WellFormed(t)
    ensures WellFormed(r)
  {
    var uid := UidOf(e.name);
    var ext := Extname(e.name);
    match e.data
    case Unreadable => Put(t, uid, Bare(uid, None))
    case Readable(text) =>
      if ext == ".pid" then
        if uid in t.entries then t else Put(t, uid, Bare(uid, ParseInt(text)))
      else if ext == ".fvr" then
        match parseJson(text)
        case Some(p) => Put(t, uid, p)
        case None => Put(t, uid, Bare(uid, None))
      else t
  }

  /** What one entry does to the records: an unreadable file leaves a bare
      record, a `.pid` file adds a bare record with its pid unless its uid
      already has one, a `.fvr` file replaces the uid's record with the
      parsed one (or a bare one when it does not parse), and any other file
      changes nothing. */
  lemma AbsorbMeaning(t: Table, e: DirEntry, parseJson: string -> Option<Proc>)
    requires WellFormed(t)
    ensures var r := Absorb(t, e, parseJson);
            (e.data.Unreadable? ==> r.entries == t.entries[UidOf(e.name) := Bare(UidOf(e.name), None)]) &&
            (e.data.Readable? && Extname(e.name) == ".pid" ==>
               r.entries == (if UidOf(e.name) in t.entries then t.entries
                             else t.entries[UidOf(e.name) := Bare(UidOf(e.name), ParseInt(e.data.text))])) &&
            (e.data.Readable? && Extname(e.name) == ".fvr" ==>
               r.entries == t.entries[UidOf(e.name) := match parseJson(e.data.text)
                                                      case Some(p) => p
                                                      case None => Bare(UidOf(e.name), None)]) &&
            (e.data.Readable? && Extname(e.name) != ".pid" && Extname(e.name) != ".fvr" ==> r == t)
  {
  }

  /** All entries absorbed in listing order. */
  function Merge(files: seq<DirEntry>, parseJson: string -> Option<Proc>): (r: Table)
    ensures WellFormed(r)
    decreases |files|
  {
    if |files| == 0 then Table([], map[])
    else Absorb(Merge(files[..|files| - 1], parseJson), files[|files| - 1], parseJson)
  }

  /** An entry that cannot displace a `.fvr` record of `uid`: it belongs to
      another uid, or it is a readable file other than a `.fvr`. */
  predicate Harmless(e: DirEntry, uid: string)
  {
    UidOf(e.name) != uid || (e.data.Readable? && Extname(e.name) != ".fvr")
  }

  /** A parsed `.fvr` file wins over the uid's `.pid` file whichever comes
      first in the listing. */
  lemma {:induction false} FvrWins(files: seq<DirEntry>, i: nat, parseJson: string -> Option<Proc>, p: Proc)
    requires i < |files|
    requires files[i].data.Readable? && Extname(files[i].name) == ".fvr"
    requires parseJson(files[i].data.text) == Some(p)
    requires forall j :: i < j < |files| ==> Harmless(files[j], UidOf(files[i].name))
    ensures UidOf(files[i].name) in Merge(files, parseJson).entries
    ensures Merge(files, parseJson).entries[UidOf(files[i].name)] == p
    decreases |files|
  {
    var n := |files|;
    var init := files[..n - 1];
    var uid := UidOf(files[i].name);
    var t := Merge(init, parseJson);
    assert Merge(files, parseJson) == Absorb(t, files[n - 1], parseJson);
    if i == n - 1 {
      AbsorbFvr(t, files[i], parseJson, p);
    } else {
      HarmlessInit(files, i);
      FvrWins(init, i, parseJson, p);
      assert uid in t.entries && t.entries[uid] == p;
      AbsorbHarmless(t, files[n - 1], uid, parseJson);
    }
  }

  /** Dropping the last entry keeps entry `i` and the harmless entries
      after it. */
  lemma HarmlessInit(files: seq<DirEntry>, i: nat)
    requires i < |files| - 1
    requires forall j :: i < j < |files| ==> Harmless(files[j], UidOf(files[i].name))
    ensures files[..|files| - 1][i] == files[i]
    ensures var init := files[..|files| - 1];
            forall j :: i < j < |init| ==> Harmless(init[j], UidOf(files[i].name))
  {
    var init := files[..|files| - 1];
    forall j | i < j < |init|
      ensures Harmless(init[j], UidOf(files[i].name))
    {
      assert init[j] == files[j];
    }
  }

  /** Absorbing a parsed `.fvr` file stores its record under its uid. */
  lemma AbsorbFvr(t: Table, e: DirEntry, parseJson: string -> Option<Proc>, p: Proc)
    requires WellFormed(t)
    requires e.data.Readable? && Extname(e.name) == ".fvr" && parseJson(e.data.text) == Some(p)
    ensures UidOf(e.name) in Absorb(t, e, parseJson).entries
    ensures Absorb(t, e, parseJson).entries[UidOf(e.name)] == p
  {
    AbsorbMeaning(t, e, parseJson);
  }

  /** A harmless entry leaves a present uid's record alone. */
  lemma AbsorbHarmless(t: Table, e: DirEntry, uid: string, parseJson: string -> Option<Proc>)
    requires WellFormed(t) && uid in t.entries && Harmless(e, uid)
    ensures uid in Absorb(t, e, parseJson).entries
    ensures Absorb(t, e, parseJson).entries[uid] == t.entries[uid]
  {
    AbsorbMeaning(t, e, parseJson);
  }

  /** The final `Object.keys` pass: records without a truthy `pid` are
      dropped, or kept and marked dead when `findDead`. */
  function Collect(order: seq<string>, entries: map<string, Proc>, findDead: bool): (r: seq<Proc>)
    requires forall k :: k in order ==> k in entries
    ensures |r| <= |order|
    ensures findDead ==> |r| == |order|
    ensures forall q :: q in r ==> Set(q.pid) || (findDead && q.dead)
    ensures forall i :: 0 <= i < |order| && Set(entries[order[i]].pid) ==> entries[order[i]] in r
    ensures findDead ==> forall i :: 0 <= i < |order| && !Set(entries[order[i]].pid) ==>
              entries[order[i]].(dead := true) in r
    ensures forall q :: q in r ==> exists i :: (0 <= i < |order| &&
              (q == entries[order[i]] || (findDead && q == entries[order[i]].(dead := true))))
  {
    if |order| == 0 then []
    else
      var q := entries[order[0]];
      var rest := Collect(order[1..], entries, findDead);
      if Set(q.pid) then [q] + rest
      else if findDead then [q.(dead := true)] + rest
      else rest
  }

  /** `getAllProcesses(findDead)`: `None` (JavaScript `null`) for an empty
      directory, otherwise the merged records in key order. */
  function GetAllProcesses(files: seq<DirEntry>, findDead: bool, parseJson: string -> Option<Proc>): (r: Option<seq<Proc>>)
    ensures r.None? <==> |files| == 0
    ensures r.Some? ==> forall q :: q in r.value ==> Set(q.pid) || (findDead && q.dead)
    ensures r.Some? ==> forall q :: q in r.value ==> Listed(files, findDead, parseJson, q)
  {
    if |files| == 0 then None
    else
      var t := Merge(files, parseJson);
      var ps := Collect(t.order, t.entries, findDead);
      CollectSound(files, findDead, parseJson, t, ps);
      Some(ps)
  }

  /** A listed record is the record of some directory entry, marked dead
      only when dead records are asked for. */
  ghost predicate Listed(files: seq<DirEntry>, findDead: bool, parseJson: string -> Option<Proc>, q: Proc)
  {
    exists j :: 0 <= j < |files| && Record(files[j], parseJson).Some? &&
      (q == Record(files[j], parseJson).value || (findDead && q == Record(files[j], parseJson).value.(dead := true)))
  }

  lemma CollectSound(files: seq<DirEntry>, findDead: bool, parseJson: string -> Option<Proc>, t: Table, ps: seq<Proc>)
    requires t == Merge(files, parseJson) && ps == Collect(t.order, t.entries, findDead)
    ensures forall q :: q in ps ==> Listed(files, findDead, parseJson, q)
  {
    forall q | q in ps ensures Listed(files, findDead, parseJson, q) {
      var i :| 0 <= i < |t.order| && (q == t.entries[t.order[i]] || (findDead && q == t.entries[t.order[i]].(dead := true)));
      var k := t.order[i];
      MergeSoundAt(files, parseJson, k);
      ListedFrom(files, findDead, parseJson, k, t.entries[k], q);
    }
  }

  lemma ListedFrom(files: seq<DirEntry>, findDead: bool, parseJson: string -> Option<Proc>, k: string, p: Proc, q: Proc)
    requires FiledFrom(files, parseJson, k, p)
    requires q == p || (findDead && q == p.(dead := true))
    ensures Listed(files, findDead, parseJson, q)
  {
    var j :| 0 <= j < |files| && UidOf(files[j].name) == k && Record(files[j], parseJson) == Some(p);
  }

  /** The record one directory entry stands for on its own: a bare record
      for an unreadable file, a bare record with the file's pid for a
      `.pid` file, the parsed record (or a bare one) for a `.fvr` file, and
      none for any other file. */
  function Record(e: DirEntry, parseJson: string -> Option<Proc>): Option<Proc>
  {
    var uid := UidOf(e.name);
    match e.data
    case Unreadable => Some(Bare(uid, None))
    case Readable(text) =>
      if Extname(e.name) == ".pid" then Some(Bare(uid, ParseInt(text)))
      else if Extname(e.name) == ".fvr" then
        match parseJson(text)
        case Some(p) => Some(p)
        case None => Some(Bare(uid, None))
      else None
  }

  /** One entry keeps a record or puts its own record under its uid. */
  lemma AbsorbSound(t: Table, e: DirEntry, parseJson: string -> Option<Proc>)
    requires WellFormed(t)
    ensures var r := Absorb(t, e, parseJson);
            forall k :: k in r.entries ==> ((k in t.entries && r.entries[k] == t.entries[k]) ||
              (k == UidOf(e.name) && Record(e, parseJson) == Some(r.entries[k])))
  {
    AbsorbMeaning(t, e, parseJson);
  }

  /** Some entry of `files` has uid `k` and stands for the record `p`. */
  ghost predicate FiledFrom(files: seq<DirEntry>, parseJson: string -> Option<Proc>, k: string, p: Proc)
  {
    exists j :: 0 <= j < |files| && UidOf(files[j].name) == k && Record(files[j], parseJson) == Some(p)
  }

  lemma FiledFromExtend(files: seq<DirEntry>, parseJson: string -> Option<Proc>, k: string, p: Proc)
    requires |files| > 0 && FiledFrom(files[..|files| - 1], parseJson, k, p)
    ensures FiledFrom(files, parseJson, k, p)
  {
    var init := files[..|files| - 1];
    var j :| 0 <= j < |init| && UidOf(init[j].name) == k && Record(init[j], parseJson) == Some(p);
    assert files[j] == init[j];
  }

  /** Every merged record is the record of one of the entries, filed under
      that entry's uid. */
  lemma MergeSound(files: seq<DirEntry>, parseJson: string -> Option<Proc>)
    ensures var t := Merge(files, parseJson);
            forall k :: k in t.entries ==> FiledFrom(files, parseJson, k, t.entries[k])
  {
    forall k | k in Merge(files, parseJson).entries
      ensures FiledFrom(files, parseJson, k, Merge(files, parseJson).entries[k])
    {
      MergeSoundAt(files, parseJson, k);
    }
  }

  lemma {:induction false} MergeSoundAt(files: seq<DirEntry>, parseJson: string -> Option<Proc>, k: string)
    requires k in Merge(files, parseJson).entries
    ensures FiledFrom(files, parseJson, k, Merge(files, parseJson).entries[k])
    decreases |files|
  {
    var init := files[..|files| - 1];
    var e := files[|files| - 1];
    var t0 := Merge(init, parseJson);
    var t := Merge(files, parseJson);
    assert t == Absorb(t0, e, parseJson);
    AbsorbSound(t0, e, parseJson);
    if k in t0.entries && t.entries[k] == t0.entries[k] {
      MergeSoundAt(init, parseJson, k);
      FiledFromExtend(files, parseJson, k, t.entries[k]);
    } else {
      assert UidOf(files[|files| - 1].name) == k && Record(files[|files| - 1], parseJson) == Some(t.entries[k]);
    }
  }

  /** A live `.fvr` record is listed, whatever `.pid` files sit beside it. */
  lemma LiveFvrListed(files: seq<DirEntry>, i: nat, findDead: bool, parseJson: string -> Option<Proc>, p: Proc)
    requires i < |files|
    requires files[i].data.Readable? && Extname(files[i].name) == ".fvr"
    requires parseJson(files[i].data.text) == Some(p) && Set(p.pid)
    requires forall j :: i < j < |files| ==> Harmless(files[j], UidOf(files[i].name))
    ensures GetAllProcesses(files, findDead, parseJson).Some?
    ensures p in GetAllProcesses(files, findDead, parseJson).value
  {
    FvrWins(files, i, parseJson, p);
    var t := Merge(files, parseJson);
    var u := UidOf(files[i].name);
    var k :| 0 <= k < |t.order| && t.order[k] == u;
    assert t.entries[t.order[k]] == p;
  }

  /* ----- lookups and `stop` ----- */

  /** `findByIndex`: a one-element list holding the entry at `parseInt(index)`,
      which is `None` (JavaScript `undefined`) when out of range or `NaN`. */
  function FindByIndex(index: string, processes: Option<seq<Proc>>): (r: Option<seq<Option<Proc>>>)
    ensures r.Some? <==> processes.Some?
    ensures r.Some? ==> |r.value| == 1
    ensures r.Some? && r.value[0].Some? ==> r.value[0].value in processes.value
    ensures r.Some? && r.value[0].None? ==>
              var n := ParseInt(index); n.None? || n.value < 0 || n.value >= |processes.value|
  {
    match processes
    case None => None
    case Some(ps) =>
      var n := ParseInt(index);
      Some([if n.Some? && 0 <= n.value < |ps| then Some(ps[n.value]) else None])
  }

  /** The index printed by `forever list` finds its own row. */
  lemma FindListedIndex(ps: seq<Proc>, i: nat)
    requires i < |ps|
    ensures FindByIndex(NatToString(i), Some(ps)) == Some([Some(ps[i])])
  {
    ParseIntNatToString(i);
  }

  /** `findByScript`: the records whose `file` is `script`, in order. */
  function FindByScript(script: string, processes: Option<seq<Proc>>): (r: Option<seq<Proc>>)
    ensures r.Some? <==> processes.Some?
    ensures r.Some? ==> |r.value| <= |processes.value|
    ensures r.Some? ==> forall q :: q in r.value ==> q in processes.value && q.file == Some(script)
    ensures r.Some? ==> forall q :: q in processes.value && q.file == Some(script) ==> q in r.value
    ensures r.Some? ==> forall q :: multiset(r.value)[q] == if q.file == Some(script) then multiset(processes.value)[q] else 0
  {
    match processes
    case None => None
    case Some(ps) =>
      assert forall q :: multiset(FilterFile(script, ps))[q] == if q.file == Some(script) then multiset(ps)[q] else 0 by {
        forall q { FilterFileCounts(script, ps, q); }
      }
      Some(FilterFile(script, ps))
  }

  function FilterFile(script: string, ps: seq<Proc>): (r: seq<Proc>)
    ensures |r| <= |ps|
    ensures forall q :: q in r <==> q in ps && q.file == Some(script)
  {
    if |ps| == 0 then []
    else if ps[0].file == Some(script) then [ps[0]] + FilterFile(script, ps[1..])
    else FilterFile(script, ps[1..])
  }

  /** Each matching record is kept as many times as it is listed, and no
      other record is kept. */
  lemma {:induction false} FilterFileCounts(script: string, ps: seq<Proc>, q: Proc)
    ensures multiset(FilterFile(script, ps))[q] == if q.file == Some(script) then multiset(ps)[q] else 0
  {
    if |ps| > 0 {
      assert ps == [ps[0]] + ps[1..];
      FilterFileCounts(script, ps[1..], q);
    }
  }

  /** The filter keeps the listing order: filtering two listings one after
      the other is filtering their concatenation. */
  lemma {:induction false} FilterFileAppend(script: string, a: seq<Proc>, b: seq<Proc>)
    ensures FilterFile(script, a + b) == FilterFile(script, a) + FilterFile(script, b)
  {
    if |a| == 0 {
      assert a + b == b;
    } else {
      var head := if a[0].file == Some(script) then [a[0]] else [];
      assert (a + b)[0] == a[0] && (a + b)[1..] == a[1..] + b;
      assert FilterFile(script, a + b) == head + FilterFile(script, a[1..] + b);
      FilterFileAppend(script, a[1..], b);
      assert FilterFile(script, a) == head + FilterFile(script, a[1..]);
    }
  }

  /** A single record is kept exactly when its file is the script. */
  lemma FilterFileOne(script: string, p: Proc)
    ensures FilterFile(script, [p]) == if p.file == Some(script) then [p] else []
  {
    assert [p][1..] == [];
  }

  /** `/(\d+)/.test(target)`: the target holds a decimal digit somewhere. */
  predicate HasDigit(target: string)
  {
    exists i :: 0 <= i < |target| && IsDigit(target[i])
  }

  /** The outcome of `stop`: the `stop` event with the records and the pids
      signalled, or the "Cannot find forever process" error. */
  datatype StopOutcome =
    | Stopped(procs: seq<Option<Proc>>, signalled: seq<int>)
    | CannotFind(target: string)
    | ListThrew(signalled: seq<int>)  // `forever.list(true, procs)` read a field of `undefined`

  /** The pids `process.kill` is called on for one record: the monitor first,
      then the child; a missing record or monitor pid throws before any
      signal and the exception is swallowed. */
  function Signals(p: Option<Proc>): seq<int>
  {
    if p.None? || p.value.foreverPid.None? then []
    else [p.value.foreverPid.value] + (if p.value.pid.Some? then [p.value.pid.value] else [])
  }

  function AllSignals(procs: seq<Option<Proc>>): (r: seq<int>)
    ensures forall x :: x in r <==> exists p :: (p in procs && p.Some? && p.value.foreverPid.Some? &&
              (x == p.value.foreverPid.value || (p.value.pid.Some? && x == p.value.pid.value)))
  {
    if |procs| == 0 then [] else Signals(procs[0]) + AllSignals(procs[1..])
  }

  function Wrap(ps: seq<Proc>): (r: seq<Option<Proc>>)
    ensures |r| == |ps|
    ensures forall i :: 0 <= i < |ps| ==> r[i] == Some(ps[i])
  {
    if |ps| == 0 then [] else [Some(ps[0])] + Wrap(ps[1..])
  }

  /** The lookup `stop` performs on its target. */
  function Lookup(target: string, processes: Option<seq<Proc>>): Option<seq<Option<Proc>>>
  {
    if HasDigit(target) then FindByIndex(target, processes)
    else match FindByScript(target, processes)
         case None => None
         case Some(ps) => Some(Wrap(ps))
  }

  /** Whether `forever.list(true, procs)` throws: `formatProcess` reads
      `proc.file.grey`, which fails for a missing record and for a record
      without a `file` (a `.pid`-only record, or one saved from an argument
      vector with no script). */
  predicate ListThrows(procs: seq<Option<Proc>>)
  {
    exists i :: 0 <= i < |procs| && (procs[i].None? || procs[i].value.file.None?)
  }

  /** `forever.stop(target, format)` as written: any non-empty lookup counts
      as found, so an out-of-range index goes on with `[undefined]`. With
      `format` set, the `stop` event carries `forever.list(true, procs)`,
      which throws on a record it cannot format, after the signals are
      sent. */
  function StopAsWritten(target: string, processes: Option<seq<Proc>>, format: bool): (r: StopOutcome)
    ensures r.CannotFind? <==> Lookup(target, processes).None? || |Lookup(target, processes).value| == 0
    ensures r.ListThrew? <==> format && !r.CannotFind? && ListThrows(Lookup(target, processes).value)
    ensures format && !r.CannotFind? && None in Lookup(target, processes).value ==> r.ListThrew?
    ensures r.Stopped? ==> r.procs == Lookup(target, processes).value
    ensures r.Stopped? && format ==> forall p :: p in r.procs ==> p.Some? && p.value.file.Some?
    ensures !r.CannotFind? ==> r.signalled == AllSignals(Lookup(target, processes).value)
  {
    var procs := Lookup(target, processes);
    if procs.Some? && |procs.value| > 0 then
      if format && ListThrows(procs.value) then ListThrew(AllSignals(procs.value))
      else Stopped(procs.value, AllSignals(procs.value))
    else CannotFind(target)
  }

  /** A stop by index of a record with no `file`, formatted as the command
      line asks, signals the monitor and the child and then throws. */
  lemma StopFilelessThrows()
    ensures StopAsWritten("0", Some([Proc(Some("u"), Some(5), Some(6), None, None, None, [], false)]), true) == ListThrew([6, 5])
    ensures StopAsWritten("0", Some([Proc(Some("u"), Some(5), Some(6), None, None, None, [], false)]), false).Stopped?
  {
    var p := Proc(Some("u"), Some(5), Some(6), None, None, None, [], false);
    assert IsDigit("0"[0]);
    assert ParseInt("0") == Some(0) by { ParseIntNatToString(0); assert NatToString(0) == "0"; }
    assert ListThrows([Some(p)]) by { assert [Some(p)][0].value.file.None?; }
  }

  /** A stop of index 7 in a one-process table claims success and signals
      nothing; asked to format its answer, as the command line does, it
      throws instead. */
  lemma StopMissingIndexClaimsSuccess(p: Proc)
    ensures StopAsWritten("7", Some([p]), false) == Stopped([None], [])
    ensures StopAsWritten("7", Some([p]), true) == ListThrew([])
    ensures Stop("7", Some([p])) == CannotFind("7")
  {
    assert IsDigit("7"[0]);
    assert ParseInt("7") == Some(7) by { ParseIntNatToString(7); assert NatToString(7) == "7"; }
  }

  /** Whether the target names an existing record: an index in range when it
      holds a digit, otherwise a record whose `file` is the target. */
  predicate Found(target: string, ps: seq<Proc>)
  {
    if HasDigit(target) then
      var n := ParseInt(target); n.Some? && 0 <= n.value < |ps|
    else exists q :: q in ps && q.file == Some(target)
  }

  /** `forever.stop` with the intended check: an undefined lookup result
      reports "Cannot find forever process". */
  function Stop(target: string, processes: Option<seq<Proc>>): (r: StopOutcome)
    ensures r.CannotFind? <==> processes.None? || !Found(target, processes.value)
    ensures r.Stopped? ==> processes.Some? && |r.procs| >= 1 && forall p :: p in r.procs ==> p.Some? && p.value in processes.value
    ensures r.Stopped? && !HasDigit(target) ==> forall p :: p in r.procs ==> p.value.file == Some(target)
    ensures r.Stopped? && HasDigit(target) ==> r.procs == [Some(processes.value[ParseInt(target).value])]
    ensures r.Stopped? && !HasDigit(target) ==>
              forall q :: q in processes.value && q.file == Some(target) ==> Some(q) in r.procs
    ensures r.Stopped? ==> forall x :: x in r.signalled <==> exists p :: (p in r.procs && p.value.foreverPid.Some? &&
              (x == p.value.foreverPid.value || (p.value.pid.Some? && x == p.value.pid.value)))
  {
    var procs := Lookup(target, processes);
    LookupMeaning(target, processes);
    if procs.Some? && |procs.value| > 0 && forall p :: p in procs.value ==> p.Some? then
      Stopped(procs.value, AllSignals(procs.value))
    else CannotFind(target)
  }

  /** What the lookup of `stop` gives: for an index, the one record at that
      index; for a script, every record of that file and no other. */
  lemma LookupMeaning(target: string, processes: Option<seq<Proc>>)
    ensures var l := Lookup(target, processes);
            (l.Some? <==> processes.Some?) &&
            (l.Some? && |l.value| > 0 && (forall p :: p in l.value ==> p.Some?) <==> processes.Some? && Found(target, processes.value)) &&
            (l.Some? ==> forall p :: p in l.value && p.Some? ==> p.value in processes.value) &&
            (l.Some? && !HasDigit(target) ==> forall p :: p in l.value ==> p.Some? && p.value.file == Some(target)) &&
            (l.Some? && HasDigit(target) && Found(target, processes.value) ==>
               l.value == [Some(processes.value[ParseInt(target).value])]) &&
            (l.Some? && !HasDigit(target) ==>
               forall q :: q in processes.value && q.file == Some(target) ==> Some(q) in l.value)
  {
    if processes.Some? && !HasDigit(target) {
      var ps := FilterFile(target, processes.value);
      var w := Wrap(ps);
      assert Lookup(target, processes) == Some(w);
      forall p | p in w ensures p.Some? && p.value.file == Some(target) && p.value in processes.value {
        var i :| 0 <= i < |w| && w[i] == p;
        assert ps[i] in ps;
      }
      forall q | q in processes.value && q.file == Some(target) ensures Some(q) in w {
        var i :| 0 <= i < |ps| && ps[i] == q;
        assert w[i] == Some(q);
      }
      if Found(target, processes.value) {
        var q :| q in processes.value && q.file == Some(target);
        assert q in ps;
      }
    }
  }

  /* ----- paths and the pre-start check ----- */

  /** `logFilePath(logFile, uid)`: an absolute path is kept, anything else is
      resolved under `root`, defaulting to `<uid>.log` and `forever.log`. */
  function LogFilePath(root: string, logFile: Option<string>, uid: Option<string>): (r: string)
    ensures Truthy(logFile) && logFile.value[0] == '/' ==> r == logFile.value
    ensures !(Truthy(logFile) && logFile.value[0] == '/') ==>
              r == Join(root, if Truthy(logFile) then logFile.value else Or(uid, "forever") + ".log")
  {
    if Truthy(logFile) && logFile.value[0] == '/' then logFile.value
    else Join(root, Or(logFile, Or(uid, "forever") + ".log"))
  }

  /** `pidFilePath(pidFile)`, the same rule under `pidPath` with no default name. */
  function PidFilePath(pidPath: string, pidFile: Option<string>): (r: string)
    ensures Truthy(pidFile) && pidFile.value[0] == '/' ==> r == pidFile.value
    ensures !(Truthy(pidFile) && pidFile.value[0] == '/') ==> r == Join(pidPath, Or(pidFile, ""))
  {
    if Truthy(pidFile) && pidFile.value[0] == '/' then pidFile.value
    else Join(pidPath, Or(pidFile, ""))
  }

  predicate Absolute(s: string) { |s| > 0 && s[0] == '/' }

  /** Under an absolute root, resolving an already resolved log path changes
      nothing: the result is absolute. */
  lemma LogFilePathIdempotent(root: string, logFile: Option<string>, uid: Option<string>, uid2: Option<string>)
    requires Absolute(root)
    ensures Absolute(LogFilePath(root, logFile, uid))
    ensures LogFilePath(root, Some(LogFilePath(root, logFile, uid)), uid2) == LogFilePath(root, logFile, uid)
  {
  }

  lemma PidFilePathIdempotent(pidPath: string, pidFile: Option<string>)
    requires Absolute(pidPath)
    ensures Absolute(PidFilePath(pidPath, pidFile))
    ensures PidFilePath(pidPath, Some(PidFilePath(pidPath, pidFile))) == PidFilePath(pidPath, pidFile)
  {
  }

  datatype StatError = ScriptMissing(script: string) | LogExists(logFile: string)

  /** `forever.stat`: the script must exist; unless appending, the log file
      must not. `appendLog` is the truthiness of the optional third argument. */
  function Stat(logFile: string, script: string, appendLog: bool, scriptExists: bool, logExists: bool): (r: Option<StatError>)
    ensures r.None? <==> scriptExists && (appendLog || !logExists)
    ensures !scriptExists ==> r == Some(ScriptMissing(script))
    ensures r.Some? && r.value.LogExists? ==> scriptExists && !appendLog && logExists && r.value.logFile == logFile
  {
    if !scriptExists then Some(ScriptMissing(script))
    else if appendLog then None
    else if logExists then Some(LogExists(logFile))
    else None
  }

  /* ----- clean-up ----- */

  /** `checkProcess`: a falsy pid is never running; otherwise the probe decides. */
  function CheckProcess(pid: Option<int>, alive: int -> bool): bool
  {
    Set(pid) && alive(pid.value)
  }

  /** The removal test of `cleanUp` as written. */
  predicate ShouldRemove(child: bool, manager: bool, allowManager: bool, dead: bool)
  {
    (!child && !manager) || (!child && manager && allowManager) || dead
  }

  /** The removal test in plain words: a dead record goes; otherwise the
      child must be gone and either the monitor is gone too or monitors may
      be removed. */
  lemma ShouldRemoveMeaning(child: bool, manager: bool, allowManager: bool, dead: bool)
    ensures ShouldRemove(child, manager, allowManager, dead) <==>
            dead || (!child && (!manager || allowManager))
    ensures child && !dead ==> !ShouldRemove(child, manager, allowManager, dead)
  {
  }

  function UidText(p: Proc): string
  {
    match p.uid case Some(u) => u case None => "undefined"
  }

  function FvrPath(pidPath: string, p: Proc): string { Join(pidPath, UidText(p) + ".fvr") }
  function PidPath(pidPath: string, p: Proc): string { Join(pidPath, UidText(p) + ".pid") }

  predicate Removed(p: Proc, alive: int -> bool, allowManager: bool)
  {
    ShouldRemove(CheckProcess(p.pid, alive), CheckProcess(p.foreverPid, alive), allowManager, p.dead)
  }

  /** `f` is one of the files the clean-up of record `p` unlinks. */
  predicate Unlinked(f: string, p: Proc, pidPath: string, alive: int -> bool, allowManager: bool, cleanLogs: bool)
  {
    Removed(p, alive, allowManager) &&
    (f == FvrPath(pidPath, p) || f == PidPath(pidPath, p) || (cleanLogs && Truthy(p.logFile) && f == p.logFile.value))
  }

  /** The files one record's clean-up unlinks. */
  function Unlinks(p: Proc, pidPath: string, alive: int -> bool, allowManager: bool, cleanLogs: bool): (r: seq<string>)
    ensures forall f :: f in r <==> Unlinked(f, p, pidPath, alive, allowManager, cleanLogs)
  {
    if Removed(p, alive, allowManager) then
      [FvrPath(pidPath, p), PidPath(pidPath, p)] + (if cleanLogs && Truthy(p.logFile) then [p.logFile.value] else [])
    else []
  }

  /** What `cleanUp` deletes: the files of the root directory that
      `cleanLogsSync` removes first (by name, under `root`), then the files
      unlinked record by record. */
  datatype Cleaned = Cleaned(logs: seq<string>, unlinked: seq<string>)

  /** `cleanUp(cleanLogs, allowManager)` over the records of
      `getAllProcesses(true)`, with `rootFiles` the listing of the root
      directory. */
  function CleanUp(processes: Option<seq<Proc>>, rootFiles: seq<string>, pidPath: string, alive: int -> bool,
                   allowManager: bool, cleanLogs: bool): (r: Cleaned)
    ensures forall f :: f in r.logs <==> cleanLogs && f in rootFiles && Stale(f, processes)
    ensures processes.Some? ==> forall p :: p in processes.value && Removed(p, alive, allowManager) ==>
              FvrPath(pidPath, p) in r.unlinked && PidPath(pidPath, p) in r.unlinked
    ensures processes.Some? && cleanLogs ==> forall p :: p in processes.value && Removed(p, alive, allowManager) && Truthy(p.logFile) ==>
              p.logFile.value in r.unlinked
    ensures forall f :: f in r.unlinked ==> processes.Some? && exists p :: p in processes.value && Unlinked(f, p, pidPath, alive, allowManager, cleanLogs)
  {
    var logs := if cleanLogs then CleanLogs(rootFiles, processes) else [];
    match processes
    case None => Cleaned(logs, [])
    case Some(ps) =>
      UnlinkAllComplete(ps, pidPath, alive, allowManager, cleanLogs);
      Cleaned(logs, UnlinkAll(ps, pidPath, alive, allowManager, cleanLogs))
  }

  /** Every removable record has its files in the unlink list. */
  lemma {:induction false} UnlinkAllComplete(ps: seq<Proc>, pidPath: string, alive: int -> bool, allowManager: bool, cleanLogs: bool)
    ensures forall p :: p in ps && Removed(p, alive, allowManager) ==>
              var r := UnlinkAll(ps, pidPath, alive, allowManager, cleanLogs);
              FvrPath(pidPath, p) in r && PidPath(pidPath, p) in r && (cleanLogs && Truthy(p.logFile) ==> p.logFile.value in r)
    decreases |ps|
  {
    if |ps| > 0 {
      UnlinkAllComplete(ps[1..], pidPath, alive, allowManager, cleanLogs);
      assert forall p :: p in ps ==> p == ps[0] || p in ps[1..];
    }
  }

  function UnlinkAll(ps: seq<Proc>, pidPath: string, alive: int -> bool, allowManager: bool, cleanLogs: bool): (r: seq<string>)
    ensures forall f :: f in r ==> exists p :: p in ps && Unlinked(f, p, pidPath, alive, allowManager, cleanLogs)
  {
    if |ps| == 0 then []
    else
      var here := Unlinks(ps[0], pidPath, alive, allowManager, cleanLogs);
      var rest := UnlinkAll(ps[1..], pidPath, alive, allowManager, cleanLogs);
      assert forall f :: f in here ==> ps[0] in ps && Unlinked(f, ps[0], pidPath, alive, allowManager, cleanLogs);
      assert forall f :: f in rest ==> exists p :: p in ps && Unlinked(f, p, pidPath, alive, allowManager, cleanLogs) by {
        forall f | f in rest
          ensures exists p :: p in ps && Unlinked(f, p, pidPath, alive, allowManager, cleanLogs)
        {
          var p :| p in ps[1..] && Unlinked(f, p, pidPath, alive, allowManager, cleanLogs);
          assert p in ps;
        }
      }
      here + rest
  }

  /** The basenames of the log files the listed records use. */
  function RunningLogs(ps: seq<Proc>): (r: seq<string>)
    ensures forall p :: p in ps && Truthy(p.logFile) ==> Basename(p.logFile.value) in r
    ensures forall b :: b in r ==> exists p :: p in ps && Truthy(p.logFile) && b == Basename(p.logFile.value)
  {
    if |ps| == 0 then []
    else
      var rest := RunningLogs(ps[1..]);
      assert forall p :: p in ps[1..] ==> p in ps;
      if Truthy(ps[0].logFile) then [Basename(ps[0].logFile.value)] + rest else rest
  }

  /** Whether `cleanLogsSync` deletes a file of the root directory. */
  predicate Stale(file: string, processes: Option<seq<Proc>>)
  {
    EndsWith(file, ".log") && (processes.None? || file !in RunningLogs(processes.value))
  }

  /** `cleanLogsSync(processes)`: the files of the root directory it deletes,
      in listing order. */
  function CleanLogs(files: seq<string>, processes: Option<seq<Proc>>): (r: seq<string>)
    ensures forall f :: f in r <==> f in files && Stale(f, processes)
    ensures |r| <= |files|
  {
    if |files| == 0 then []
    else if Stale(files[0], processes) then [files[0]] + CleanLogs(files[1..], processes)
    else CleanLogs(files[1..], processes)
  }

  /** A log file in use by a listed record is never deleted. */
  lemma CleanLogsKeepsRunning(files: seq<string>, ps: seq<Proc>, p: Proc)
    requires p in ps && Truthy(p.logFile)
    ensures Basename(p.logFile.value) !in CleanLogs(files, Some(ps))
  {
  }

  /* ----- padding of the formatted list ----- */

  /** The text whose length decides the padding: command, file and options
      joined by spaces (`undefined` joins as the empty string). */
  function RowText(p: Proc): string
  {
    JoinWith([Or(p.command, "node"), match p.file case Some(f) => f case None => ""] + p.options, ' ')
  }

  predicate Spaces(s: string)
  {
    forall i :: 0 <= i < |s| ==> s[i] == ' '
  }

  function SpaceString(n: nat): (s: string)
    ensures |s| == n && Spaces(s)
  {
    if n == 0 then "" else " " + SpaceString(n - 1)
  }

  /** The padding strings of `list(true)`: every row is padded with spaces to
      the length of the longest row, so that one row needs none. */
  method Paddings(procs: seq<Proc>) returns (pads: seq<string>)
    ensures |pads| == |procs|
    ensures forall i :: 0 <= i < |pads| ==> Spaces(pads[i])
    ensures forall i, j :: 0 <= i < |procs| && 0 <= j < |procs| ==>
              |RowText(procs[i])| + |pads[i]| == |RowText(procs[j])| + |pads[j]|
    ensures |procs| > 0 ==> exists i :: 0 <= i < |procs| && pads[i] == ""
  {
    var maxLen := 0;
    var longest := 0;
    var k := 0;
    while k < |procs|
      invariant 0 <= k <= |procs|
      invariant forall i :: 0 <= i < k ==> |RowText(procs[i])| <= maxLen
      invariant k > 0 ==> longest < k && |RowText(procs[longest])| == maxLen
    {
      var len := |RowText(procs[k])|;
      if len > maxLen || k == 0 {
        maxLen := len;
        longest := k;
      }
      k := k + 1;
    }
    pads := [];
    while |pads| < |procs|
      invariant |pads| <= |procs|
      invariant forall i :: 0 <= i < |pads| ==> Spaces(pads[i]) && |pads[i]| == maxLen - |RowText(procs[i])|
    {
      pads := pads + [SpaceString(maxLen - |RowText(procs[|pads|])|)];
    }
    if |procs| > 0 {
      assert pads[longest] == "";
    }
  }
}

=== FILE: host.dfy ===
/** `request_check_hostname` of request.c: the check of a Host header value
    against the `hostport` grammar of section 3.2.2 of RFC 2396. The host part
    is scanned from the right, one character at a time, as the C code does;
    `HostnameOk` states the same rule label by label, and `ScanAgrees` proves
    the two equal. The value is a character sequence; where the C code stops
    at the terminating NUL, the model stops at the first `'\0'`. */
module Host {

  import opened Wrappers
  import opened Strings

  /** The C string a buffer holds: everything before its first NUL. */
  function UpToNul(s: string): (r: string)
    ensures '\0' !in r
    ensures r == s[..FirstIndexOf(s, '\0')]
  {
    s[..FirstIndexOf(s, '\0')]
  }

  /* ----- the grammar, label by label ----- */

  predicate LabelChar(c: char) { IsAlnum(c) || c == '-' }

  predicate LabelChars(l: string) { forall k :: 0 <= k < |l| ==> LabelChar(l[k]) }

  /** A `toplabel`: starts with a letter. The code does not check its last
      character, so a trailing '-' is accepted. */
  predicate TopLabelOk(l: string) { |l| > 0 && IsAlpha(l[0]) && LabelChars(l) }

  /** A `domainlabel`: starts with a letter or digit; again the last character
      is not checked. */
  predicate DomainLabelOk(l: string) { |l| > 0 && IsAlnum(l[0]) && LabelChars(l) }

  /** One part of an `IPv4address`. */
  predicate DigitLabel(l: string) { |l| > 0 && AllDigits(l) }

  /** The labels of a host name without its optional final dot: an IPv4
      address when the top label is all digits and there are several labels,
      otherwise domain labels under a top label. */
  predicate LabelsOk(t: string)
  {
    var labels := Split(t, '.');
    var top := labels[|labels| - 1];
    if |labels| > 1 && DigitLabel(top) then
      |labels| == 4 && forall j :: 0 <= j < |labels| ==> DigitLabel(labels[j])
    else
      TopLabelOk(top) && forall j :: 0 <= j < |labels| - 1 ==> DomainLabelOk(labels[j])
  }

  /** `hostname = *( domainlabel "." ) toplabel [ "." ]` or an IPv4 address. */
  predicate HostnameOk(h: string)
  {
    var t := if |h| > 1 && h[|h| - 1] == '.' then h[..|h| - 1] else h;
    LabelsOk(t)
  }

  /* ----- the right-to-left scan ----- */

  datatype Stage = TopLabel | DomainLabel

  /** `is_ip`: -1, 0 or 1 in the C code. */
  datatype IpGuess = Unknown | NotIp | Ip

  datatype ScanState = ScanState(stage: Stage, labelLen: nat, isIp: IpGuess, level: nat)

  const ScanStart := ScanState(TopLabel, 0, Unknown, 0)

  /** The loop `for (i = host_len - 1; i + 1 > 0; i--)` and the checks after
      it: `i` is the index about to be read, -1 once the loop has ended. */
  function Scan(h: string, i: int, st: ScanState): bool
    requires -1 <= i < |h|
    requires st.stage.DomainLabel? ==> i < |h| - 1
    decreases i + 1
  {
    if i < 0 then !(st.isIp == Ip && st.level != 3) && st.labelLen != 0
    else
      var c := h[i];
      match st.stage
      case TopLabel =>
        if c == '.' then
          if i != |h| - 1 then
            if st.labelLen == 0 then false
            else
              var next := h[i + 1];
              var down := ScanState(DomainLabel, 0, NotIp, st.level + 1);
              if st.isIp == NotIp then
                if !IsAlpha(next) then false else Scan(h, i - 1, down)
              else if !IsDigit(next) then Scan(h, i - 1, down)
              else if next == '-' then false
              else Scan(h, i - 1, down.(isIp := Ip))
          else if i == 0 then false
          else Scan(h, i - 1, st)
        else if i == 0 then
          if !IsAlpha(c) then false else Scan(h, i - 1, st.(labelLen := st.labelLen + 1))
        else if c != '-' && !IsAlnum(c) then false
        else
          var guess := if st.isIp == Unknown && !IsDigit(c) then NotIp else st.isIp;
          Scan(h, i - 1, st.(labelLen := st.labelLen + 1, isIp := guess))
      case DomainLabel =>
        if st.isIp == Ip then
          if c == '.' then
            if st.labelLen == 0 then false else Scan(h, i - 1, st.(labelLen := 0, level := st.level + 1))
          else if !IsDigit(c) then false
          else Scan(h, i - 1, st.(labelLen := st.labelLen + 1))
        else if c == '.' then
          if st.labelLen == 0 then false
          else if h[i + 1] == '-' then false
          else Scan(h, i - 1, st.(labelLen := 0, level := st.level + 1))
        else if i == 0 then
          if !IsAlnum(c) then false else Scan(h, i - 1, st.(labelLen := st.labelLen + 1))
        else if c != '-' && !IsAlnum(c) then false
        else Scan(h, i - 1, st.(labelLen := st.labelLen + 1))
  }

  /* ----- splitting lemmas ----- */

  lemma SplitNoSep(s: string, sep: char)
    requires sep !in s
    ensures Split(s, sep) == [s]
  {
    assert FirstIndexOf(s, sep) == |s|;
  }

  /** One step of `Split` at the first separator. */
  lemma SplitAt(s: string, sep: char)
    requires FirstIndexOf(s, sep) < |s|
    ensures var k := FirstIndexOf(s, sep); Split(s, sep) == [s[..k]] + Split(s[k + 1..], sep)
  {
  }

  /** A separator and a separator-free tail add one last part. */
  lemma {:induction false} SplitSnoc(a: string, b: string, sep: char)
    requires sep !in b
    ensures Split(a + [sep] + b, sep) == Split(a, sep) + [b]
    decreases |a|
  {
    var s := a + [sep] + b;
    assert s == a + ([sep] + b);
    var k := FirstIndexOf(a, sep);
    if k == |a| {
      FirstIndexSkips(a, [sep] + b, sep);
      SplitAt(s, sep);
      assert s[..k] == a && s[k + 1..] == b;
      SplitNoSep(b, sep);
      SplitNoSep(a, sep);
    } else {
      FirstIndexPrefix(a, [sep] + b, sep);
      var head, tail := a[..k], a[k + 1..];
      assert s[..k] == head;
      assert s[k + 1..] == tail + [sep] + b;
      SplitAt(s, sep);
      SplitAt(a, sep);
      SplitSnoc(tail, b, sep);
      calc {
        Split(s, sep);
        [head] + Split(tail + [sep] + b, sep);
        [head] + (Split(tail, sep) + [b]);
        ([head] + Split(tail, sep)) + [b];
        Split(a, sep) + [b];
      }
    }
  }

  /** A separator inside `a` is found there, whatever follows. */
  lemma {:induction false} FirstIndexPrefix(a: string, b: string, c: char)
    requires c in a
    ensures FirstIndexOf(a + b, c) == FirstIndexOf(a, c)
    decreases |a|
  {
    if a[0] != c {
      assert (a + b)[1..] == a[1..] + b;
      FirstIndexPrefix(a[1..], b, c);
    }
  }

  /** Separator-free text appended to a string lengthens its last part. */
  lemma {:induction false} SplitExtend(a: string, s: string, sep: char)
    requires sep !in s
    ensures var p := Split(a, sep);
            Split(a + s, sep) == p[..|p| - 1] + [p[|p| - 1] + s]
    decreases |a|
  {
    var k := FirstIndexOf(a, sep);
    if k == |a| {
      SplitNoSep(a, sep);
      SplitNoSep(a + s, sep);
    } else {
      FirstIndexPrefix(a, s, sep);
      SplitExtend(a[k + 1..], s, sep);
      assert (a + s)[..k] == a[..k];
      assert (a + s)[k + 1..] == a[k + 1..] + s;
      var q := Split(a[k + 1..], sep);
      assert Split(a, sep) == [a[..k]] + q;
    }
  }

  /* ----- the scan agrees with the grammar ----- */

  predicate LabelOk(l: string, ip: IpGuess)
  {
    if ip == Ip then DigitLabel(l) else DomainLabelOk(l)
  }

  predicate PartChar(c: char, ip: IpGuess)
  {
    if ip == Ip then IsDigit(c) else LabelChar(c)
  }

  /** What the domain-label stage still has to accept: every label of the
      text left of the current position, including the label being read,
      and for an address the total number of parts. */
  predicate DomainsOk(p: string, ip: IpGuess, level: nat)
  {
    var labels := Split(p, '.');
    (forall j :: 0 <= j < |labels| ==> LabelOk(labels[j], ip)) && (ip == Ip ==> level + |labels| == 4)
  }

  /** The labels of text that holds no dot: the text itself. */
  lemma DomainsOne(p: string, ip: IpGuess, level: nat)
    requires '.' !in p
    ensures DomainsOk(p, ip, level) == (LabelOk(p, ip) && (ip == Ip ==> level == 3))
  {
    SplitNoSep(p, '.');
    var labels := Split(p, '.');
    assert |labels| == 1 && labels[0] == p;
  }

  /** A dot splits off the last label; the rest is one level further down. */
  lemma DomainsDot(a: string, part: string, ip: IpGuess, level: nat)
    requires '.' !in part
    ensures DomainsOk(a + ['.'] + part, ip, level) == (LabelOk(part, ip) && DomainsOk(a, ip, level + 1))
  {
    SplitSnoc(a, part, '.');
    var q := Split(a, '.');
    var labels := Split(a + ['.'] + part, '.');
    assert labels == q + [part];
    assert forall j :: 0 <= j < |q| ==> labels[j] == q[j];
    assert labels[|q|] == part;
  }

  /** A label holding a character that may not appear in it is refused. */
  lemma BadCharInLastLabel(a: string, c: char, rest: string, ip: IpGuess, level: nat)
    requires c != '.' && !PartChar(c, ip) && '.' !in rest
    ensures !DomainsOk(a + [c] + rest, ip, level)
  {
    var p := Split(a, '.');
    SplitExtend(a, [c] + rest, '.');
    assert a + [c] + rest == a + ([c] + rest);
    var labels := Split(a + [c] + rest, '.');
    var last := labels[|labels| - 1];
    assert last == p[|p| - 1] + [c] + rest;
    assert last[|p[|p| - 1]|] == c;
    assert !LabelOk(last, ip);
  }

  /** The characters of the label being read are all acceptable. */
  predicate PartOk(part: string, ip: IpGuess)
  {
    forall k :: 0 <= k < |part| ==> PartChar(part[k], ip)
  }

  lemma PartNoDot(part: string, ip: IpGuess)
    requires PartOk(part, ip)
    ensures '.' !in part
  {
    forall k | 0 <= k < |part| ensures part[k] != '.' { assert PartChar(part[k], ip); }
  }

  /** A label of acceptable characters is a label exactly when it is not
      empty and, outside an address, does not start with '-'. */
  lemma PartLabel(part: string, ip: IpGuess)
    requires ip != Unknown && PartOk(part, ip)
    ensures LabelOk(part, ip) == (|part| > 0 && (ip == NotIp ==> part[0] != '-'))
  {
    if ip == NotIp && |part| > 0 {
      assert PartChar(part[0], ip);
    }
  }

  /** The scan leaves the host with the last label it was reading. */
  lemma DomainEnd(h: string, i: int, len: nat, ip: IpGuess, level: nat)
    requires ip != Unknown && i == -1 && i + 1 + len < |h|
    requires PartOk(h[i + 1..i + 1 + len], ip)
    requires len > 0 && ip == NotIp ==> h[0] != '-'
    ensures Scan(h, i, ScanState(DomainLabel, len, ip, level)) == DomainsOk(h[..i + 1 + len], ip, level)
  {
    var p := h[..i + 1 + len];
    assert p == h[i + 1..i + 1 + len];
    PartNoDot(p, ip);
    PartLabel(p, ip);
    DomainsOne(p, ip, level);
    assert len == 0 || p[0] == h[0];
  }

  /** The domain-label stage at position `i`, with the label read so far
      ending at `i + 1 + len`. */
  lemma {:induction false} DomainScan(h: string, i: int, len: nat, ip: IpGuess, level: nat)
    requires ip != Unknown
    requires -1 <= i && i + 1 + len < |h|
    requires PartOk(h[i + 1..i + 1 + len], ip)
    requires i == -1 && len > 0 && ip == NotIp ==> h[0] != '-'
    ensures Scan(h, i, ScanState(DomainLabel, len, ip, level)) == DomainsOk(h[..i + 1 + len], ip, level)
    decreases i + 1, 1
  {
    var st := ScanState(DomainLabel, len, ip, level);
    var part := h[i + 1..i + 1 + len];
    if i < 0 {
      DomainEnd(h, i, len, ip, level);
    } else if h[i] == '.' {
      DomainDot(h, i, len, ip, level);
    } else if !PartChar(h[i], ip) || (i == 0 && ip == NotIp && !IsAlnum(h[i])) {
      DomainBad(h, i, len, ip, level);
    } else {
      var c := h[i];
      assert Scan(h, i, st) == Scan(h, i - 1, ScanState(DomainLabel, len + 1, ip, level));
      assert h[i..i + 1 + len] == [c] + part;
      DomainScan(h, i - 1, len + 1, ip, level);
    }
  }

  /** A dot closes the label being read and moves one level down. */
  lemma {:induction false} DomainDot(h: string, i: int, len: nat, ip: IpGuess, level: nat)
    requires ip != Unknown
    requires 0 <= i && i + 1 + len < |h| && h[i] == '.'
    requires PartOk(h[i + 1..i + 1 + len], ip)
    ensures Scan(h, i, ScanState(DomainLabel, len, ip, level)) == DomainsOk(h[..i + 1 + len], ip, level)
    decreases i + 1, 0
  {
    var st := ScanState(DomainLabel, len, ip, level);
    var part := h[i + 1..i + 1 + len];
    PartNoDot(part, ip);
    PartLabel(part, ip);
    assert h[..i + 1 + len] == h[..i] + ['.'] + part;
    DomainsDot(h[..i], part, ip, level);
    if len > 0 && (ip == Ip || h[i + 1] != '-') {
      assert Scan(h, i, st) == Scan(h, i - 1, ScanState(DomainLabel, 0, ip, level + 1));
      assert h[..i] == h[..i - 1 + 1 + 0];
      DomainScan(h, i - 1, 0, ip, level + 1);
    } else {
      assert !Scan(h, i, st);
      assert len == 0 || part[0] == h[i + 1];
    }
  }

  /** A character the label may not hold, or a '-' opening the first label,
      is refused. */
  lemma DomainBad(h: string, i: int, len: nat, ip: IpGuess, level: nat)
    requires ip != Unknown
    requires 0 <= i && i + 1 + len < |h| && h[i] != '.'
    requires PartOk(h[i + 1..i + 1 + len], ip)
    requires !PartChar(h[i], ip) || (i == 0 && ip == NotIp && !IsAlnum(h[i]))
    ensures !Scan(h, i, ScanState(DomainLabel, len, ip, level))
    ensures !DomainsOk(h[..i + 1 + len], ip, level)
  {
    var c := h[i];
    var part := h[i + 1..i + 1 + len];
    PartNoDot(part, ip);
    var p := h[..i + 1 + len];
    assert p == h[..i] + [c] + part;
    if !PartChar(c, ip) {
      BadCharInLastLabel(h[..i], c, part, ip, level);
    } else {
      assert p == [c] + part;
      assert c == '-';
      assert PartOk(p, ip) by {
        assert p[1..] == part;
      }
      PartNoDot(p, ip);
      DomainsOne(p, ip, level);
      assert p[0] == '-';
    }
  }

  /** The characters of a partial top label: label characters, all digits
      exactly while the guess is still unknown. */
  predicate TopPart(part: string, guess: IpGuess)
  {
    guess != Ip && LabelChars(part) && (guess == Unknown <==> AllDigits(part))
  }

  lemma AllDigitsCons(c: char, s: string)
    ensures AllDigits([c] + s) <==> IsDigit(c) && AllDigits(s)
  {
    var t := [c] + s;
    if AllDigits(t) {
      assert IsDigit(t[0]);
      forall k | 0 <= k < |s| ensures IsDigit(s[k]) { assert t[k + 1] == s[k]; }
    }
    if IsDigit(c) && AllDigits(s) {
      forall k | 0 <= k < |t| ensures IsDigit(t[k]) { if k > 0 { assert t[k] == s[k - 1]; } }
    }
  }

  lemma NoDotInPart(part: string, guess: IpGuess)
    requires TopPart(part, guess)
    ensures '.' !in part
  {
    forall k | 0 <= k < |part| ensures part[k] != '.' { assert LabelChar(part[k]); }
  }

  /** A dot before the top label: an address when the top label is all
      digits, domain labels otherwise. */
  lemma LabelsDot(low: string, part: string)
    requires '.' !in part
    ensures LabelsOk(low + ['.'] + part) ==
              if DigitLabel(part) then DomainsOk(low, Ip, 1)
              else TopLabelOk(part) && DomainsOk(low, NotIp, 1)
  {
    SplitSnoc(low, part, '.');
    var q := Split(low, '.');
    var labels := Split(low + ['.'] + part, '.');
    assert labels == q + [part];
    assert forall j :: 0 <= j < |q| ==> labels[j] == q[j];
    assert labels[|q|] == part;
  }

  /** A character no label may hold, met in the top label, is refused. */
  lemma TopBadChar(h: string, i: int, e: nat)
    requires 0 < i < e <= |h|
    requires h[i] != '.' && h[i] != '-' && !IsAlnum(h[i])
    requires '.' !in h[i + 1..e]
    ensures !LabelsOk(h[..e])
  {
    var c, part := h[i], h[i + 1..e];
    assert h[..e] == h[..i] + ([c] + part);
    SplitExtend(h[..i], [c] + part, '.');
    var q := Split(h[..i], '.');
    var labels := Split(h[..e], '.');
    assert labels[|labels| - 1] == q[|q| - 1] + [c] + part;
    assert labels[|labels| - 1][|q[|q| - 1]|] == c;
    assert !LabelChars(labels[|labels| - 1]);
  }

  /** The dot that ends the top label hands over to the domain-label stage. */
  lemma TopDot(h: string, i: int, e: nat, guess: IpGuess)
    requires 0 <= i < e <= |h| && h[i] == '.'
    requires e < |h| ==> e == |h| - 1
    requires e == |h| && |h| > 1 ==> h[|h| - 1] != '.'
    requires TopPart(h[i + 1..e], guess)
    ensures Scan(h, i, ScanState(TopLabel, e - (i + 1), guess, 0)) == LabelsOk(h[..e])
  {
    var st := ScanState(TopLabel, e - (i + 1), guess, 0);
    var part := h[i + 1..e];
    var low := h[..i];
    NoDotInPart(part, guess);
    assert h[..e] == low + ['.'] + part;
    LabelsDot(low, part);
    if i == |h| - 1 {
      assert h == ['.'];
      assert !Scan(h, i, st);
      assert part == [] && low == [];
    } else if |part| == 0 {
      assert !Scan(h, i, st);
    } else {
      TopDotLabel(h, i, e, guess);
    }
  }

  /** A nonempty top label after the dot: the stage moves on to the domain
      labels below it, as an address or not as the top label says. */
  lemma TopDotLabel(h: string, i: int, e: nat, guess: IpGuess)
    requires 0 <= i < e - 1 && e <= |h| && h[i] == '.'
    requires e < |h| ==> e == |h| - 1
    requires TopPart(h[i + 1..e], guess)
    ensures Scan(h, i, ScanState(TopLabel, e - (i + 1), guess, 0)) ==
              if DigitLabel(h[i + 1..e]) then DomainsOk(h[..i], Ip, 1)
              else TopLabelOk(h[i + 1..e]) && DomainsOk(h[..i], NotIp, 1)
  {
    var st := ScanState(TopLabel, e - (i + 1), guess, 0);
    var part := h[i + 1..e];
    assert h[..i] == h[..i - 1 + 1 + 0];
    assert h[i + 1] == part[0];
    if guess == NotIp {
      assert !DigitLabel(part);
      if IsAlpha(h[i + 1]) {
        assert Scan(h, i, st) == Scan(h, i - 1, ScanState(DomainLabel, 0, NotIp, 1));
        DomainScan(h, i - 1, 0, NotIp, 1);
      } else {
        assert !Scan(h, i, st);
      }
    } else {
      assert DigitLabel(part);
      assert Scan(h, i, st) == Scan(h, i - 1, ScanState(DomainLabel, 0, Ip, 1));
      DomainScan(h, i - 1, 0, Ip, 1);
    }
  }

  /** The top-label stage at position `i`, with the top label read so far
      ending at `e`, decides `LabelsOk(h[..e])`. */
  lemma {:induction false} TopScan(h: string, i: int, e: nat, guess: IpGuess)
    requires 0 <= i < e <= |h|
    requires e < |h| ==> e == |h| - 1
    requires e == |h| && |h| > 1 ==> h[|h| - 1] != '.'
    requires TopPart(h[i + 1..e], guess)
    ensures Scan(h, i, ScanState(TopLabel, e - (i + 1), guess, 0)) == LabelsOk(h[..e])
    decreases i
  {
    var st := ScanState(TopLabel, e - (i + 1), guess, 0);
    var part := h[i + 1..e];
    var c := h[i];
    NoDotInPart(part, guess);
    if c == '.' {
      TopDot(h, i, e, guess);
    } else if i == 0 {
      var t := [c] + part;
      assert h[..e] == t;
      SplitNoSep(t, '.');
      assert t[1..] == part;
      if IsAlpha(c) {
        assert Scan(h, i, st) == Scan(h, -1, st.(labelLen := st.labelLen + 1));
      } else {
        assert !Scan(h, i, st);
      }
    } else if c != '-' && !IsAlnum(c) {
      assert !Scan(h, i, st);
      TopBadChar(h, i, e);
    } else {
      var guess' := if guess == Unknown && !IsDigit(c) then NotIp else guess;
      assert Scan(h, i, st) == Scan(h, i - 1, ScanState(TopLabel, e - i, guess', 0));
      assert h[i..e] == [c] + part;
      AllDigitsCons(c, part);
      assert LabelChars([c] + part) by {
        assert ([c] + part)[1..] == part;
      }
      TopScan(h, i - 1, e, guess');
    }
  }

  /** The scan from the last character accepts exactly the host names of
      the grammar. */
  lemma ScanAgrees(h: string)
    requires |h| > 0
    ensures Scan(h, |h| - 1, ScanStart) == HostnameOk(h)
  {
    assert h[|h|..|h|] == [] && h[|h| - 1..|h| - 1] == [];
    if |h| > 1 && h[|h| - 1] == '.' {
      assert Scan(h, |h| - 1, ScanStart) == Scan(h, |h| - 2, ScanStart);
      TopScan(h, |h| - 2, |h| - 1, Unknown);
    } else {
      assert h[..|h|] == h;
      TopScan(h, |h| - 1, |h|, Unknown);
    }
  }

  /* ----- IPv6 literals and the port ----- */

  /** The loop over `[...]`: the index of the closing bracket or -1 for a
      refusal (a ninth colon, a character that is not a hex digit, or no
      bracket before the end). */
  function Ipv6Scan(z: string, c: nat, colons: nat): (r: int)
    requires 1 <= c <= |z|
    decreases |z| - c
  {
    if c == |z| then -1
    else if z[c] == ']' then c
    else if z[c] == ':' then
      if colons + 1 > 7 then -1 else Ipv6Scan(z, c + 1, colons + 1)
    else if !IsXDigit(z[c]) then -1
    else Ipv6Scan(z, c + 1, colons)
  }

  predicate Ipv6Char(c: char) { IsXDigit(c) || c == ':' }

  /** The scan finds the first ']' when everything before it is hex digits
      and colons, at most seven of them. */
  lemma {:induction false} Ipv6ScanMeaning(z: string, c: nat, colons: nat)
    requires 1 <= c <= |z| && colons <= 7
    ensures var close := c + FirstIndexOf(z[c..], ']');
            var inner := z[c..close];
            Ipv6Scan(z, c, colons) ==
              if close < |z| && colons + Count(inner, ':') <= 7 &&
                 (forall k :: 0 <= k < |inner| ==> Ipv6Char(inner[k]))
              then close else -1
    decreases |z| - c
  {
    var close := c + FirstIndexOf(z[c..], ']');
    if c < |z| && z[c] == ':' && colons + 1 > 7 {
      var inner := z[c..close];
      assert z[c..][0] != ']';
      if close < |z| {
        assert inner[0] == ':';
        assert Count(inner, ':') >= 1;
      }
    } else if c < |z| && z[c] != ']' {
      assert z[c..][1..] == z[c + 1..];
      Ipv6ScanMeaning(z, c + 1, if z[c] == ':' then colons + 1 else colons);
      var inner := z[c..close];
      assert inner == [z[c]] + z[c + 1..close];
      assert inner[1..] == z[c + 1..close];
    } else if c < |z| {
      assert z[c..][0] == ']';
      assert close == c;
      assert z[c..close] == [];
    }
  }

  /** `request_check_hostname(host)`: `None` is a missing or unallocated
      buffer; `Some(s)` holds `s` followed by its terminating NUL. */
  function CheckHostname(host: Option<string>): (ok: bool)
  {
    match host
    case None => true
    case Some(s) =>
      if |s| > 0 && s[0] == '[' then
        var z := UpToNul(s);
        var close := Ipv6Scan(z, 1, 0);
        if close < 0 then false
        else if close + 1 < |z| && z[close + 1] == ':' then AllDigits(z[close + 2..])
        else true
      else
        var colon := FirstIndexOf(s, ':');
        if colon < |s| && !AllDigits(UpToNul(s[colon + 1..])) then false
        else colon != 0 && Scan(s[..colon], colon - 1, ScanStart)
  }

  /** The value with any port removed, and whether the port is acceptable. */
  function HostPart(s: string): string { s[..FirstIndexOf(s, ':')] }

  predicate PortOk(s: string)
  {
    var colon := FirstIndexOf(s, ':');
    colon == |s| || AllDigits(UpToNul(s[colon + 1..]))
  }

  /** An IPv6 reference `[...]`, with an optional all-digit port after it;
      anything else after the bracket is not examined. */
  predicate Ipv6Ok(s: string)
  {
    var z := UpToNul(s);
    |z| > 0 && var close := 1 + FirstIndexOf(z[1..], ']');
    var inner := z[1..close];
    close < |z| && Count(inner, ':') <= 7 && (forall k :: 0 <= k < |inner| ==> Ipv6Char(inner[k])) &&
    (close + 1 < |z| && z[close + 1] == ':' ==> AllDigits(z[close + 2..]))
  }

  /** The host check in the grammar's terms: a missing Host is accepted; a
      value starting with '[' must be an IPv6 reference; any other value
      must have an all-digit port, if any, and a host part that is a host
      name or IPv4 address. */
  lemma CheckHostnameMeaning(host: Option<string>)
    ensures host.None? ==> CheckHostname(host)
    ensures host.Some? && |host.value| > 0 && host.value[0] == '[' ==>
              (CheckHostname(host) <==> Ipv6Ok(host.value))
    ensures host.Some? && !(|host.value| > 0 && host.value[0] == '[') ==>
              (CheckHostname(host) <==>
                 PortOk(host.value) && HostPart(host.value) != "" && HostnameOk(HostPart(host.value)))
  {
    if host.Some? {
      var s := host.value;
      if |s| > 0 && s[0] == '[' {
        var z := UpToNul(s);
        assert FirstIndexOf(s, '\0') > 0;
        Ipv6ScanMeaning(z, 1, 0);
      } else {
        var colon := FirstIndexOf(s, ':');
        if colon > 0 {
          ScanAgrees(s[..colon]);
        }
      }
    }
  }

  /** Examples the grammar settles. */
  lemma HostExamples()
    ensures CheckHostname(None)
    ensures !CheckHostname(Some(""))
    ensures !CheckHostname(Some(":80"))
  {
  }
}

=== FILE: monitor.dfy ===
/** The supervision policy of `forever.Monitor` (lib/forever/monitor.js): one
    supervised script, its restart counter and the decision taken each time the
    child exits. Each asynchronous event of the original (a start request, the
    child's `exit`, the spin-sleep timer, the next tick, a kill request) is one
    step function over an immutable monitor record. Clock readings, the answer
    of the file-system `stat` and the pid handed out by the OS are inputs. */
module Monitor {

  import opened Wrappers
  import opened Strings
  import opened Paths

  /** The script argument of the constructor: a path, or a full argv whose
      first element is the command. */
  datatype Script = ScriptPath(path: string) | ScriptArgv(command: string, args: seq<string>)

  /** The options object passed to the constructor; `None` stands for a missing
      or non-number property. */
  datatype MonitorOptions = MonitorOptions(
    forever: bool,
    command: Option<string>,
    sourceDir: Option<string>,
    minUptime: Option<int>,
    spinSleepTime: Option<int>,
    options: seq<string>,
    uid: Option<string>,
    max: Option<int>,
    logFile: Option<string>,
    pidFile: Option<string>)

  /** What is pending after a child exited and a restart was decided. */
  datatype Pending =
    | NothingPending
    | SpinWait(delay: int)  // `setTimeout(restartChild, spinSleepTime)` armed
    | NextTick              // `start(true)` queued with `process.nextTick`

  /** The record `save()` builds (`childData`) and writes to the `.fvr` file. */
  datatype Snapshot = Snapshot(
    uid: string,
    ctime: int,
    command: string,
    pid: int,
    foreverPid: int,
    logFile: string,
    options: seq<string>,
    file: Option<string>,
    pidFile: string,
    sourceDir: Option<string>)

  datatype MonitorError =
    | AlreadyRunning             // 'Cannot start process that is already running.'
    | TargetMissing(target: Option<string>)  // 'Target script does not exist: ...'
    | NotRunning                 // 'Cannot stop process that is not running.'

  /** The events the monitor emits, in the order it emits them. */
  datatype Event =
    | Started(snapshot: Snapshot)
    | Restarted(snapshot: Snapshot)
    | Exited(spinning: bool)
    | Stopped(data: Option<Snapshot>)
    | Error(error: MonitorError)

  datatype Monitor = Monitor(
    forever: bool,
    command: string,
    sourceDir: Option<string>,
    minUptime: int,
    spinSleepTime: Option<int>,
    options: seq<string>,
    uid: string,
    max: Option<int>,
    logFile: string,
    pidFile: string,
    fvrFile: string,
    checkFile: bool,
    childExists: bool,
    running: bool,
    times: nat,
    ctime: int,
    forceStop: bool,
    child: Option<int>,
    childData: Option<Snapshot>,
    pending: Pending)

  /** The default command when none is configured. */
  const DefaultCommand := "node"

  /** The default `minUptime`, in milliseconds. */
  const DefaultMinUptime := 2000

  /** The argument vector before `sourceDir` is applied. */
  function ArgvOf(script: Script, opts: MonitorOptions): seq<string>
  {
    match script
    case ScriptArgv(_, args) => args
    case ScriptPath(path) => [path] + opts.options
  }

  /** `options[0] = path.join(sourceDir, options[0])` when `sourceDir` is
      set. With no argument, `options[0]` is `undefined`, which `path.join`
      drops, so the directory itself becomes the first argument. */
  function WithSourceDir(argv: seq<string>, sourceDir: Option<string>): (r: seq<string>)
    ensures !Truthy(sourceDir) ==> r == argv
    ensures Truthy(sourceDir) && |argv| > 0 ==>
      |r| == |argv| && r[0] == Join(sourceDir.value, argv[0]) && r[1..] == argv[1..]
    ensures Truthy(sourceDir) && |argv| == 0 ==> r == [Join(sourceDir.value, "")]
  {
    if !Truthy(sourceDir) then argv
    else if |argv| > 0 then argv[0 := Join(sourceDir.value, argv[0])]
    else [Join(sourceDir.value, "")]
  }

  /** The log, pid and `.fvr` files of a monitor with uid `uid`: the
      configured ones, or `<uid>.log` under `root` and `<uid>.pid`,
      `<uid>.fvr` under `pidPath`. */
  function FileNames(opts: MonitorOptions, root: string, pidPath: string, uid: string): (string, string, string)
  {
    (Or(opts.logFile, Join(root, uid + ".log")), Or(opts.pidFile, Join(pidPath, uid + ".pid")), Join(pidPath, uid + ".fvr"))
  }

  /** The constructor `new Monitor(script, options)`. `root` and `pidPath` are
      the configured directories; `freshUid` is the value `randomString(24)`
      would produce. */
  function New(script: Script, opts: MonitorOptions, root: string, pidPath: string, freshUid: string): (m: Monitor)
    ensures m.times == 0 && !m.running && !m.forceStop && !m.childExists && m.child.None?
    ensures script.ScriptArgv? ==> m.command == script.command
    ensures script.ScriptPath? ==> m.command == (if Truthy(opts.command) then opts.command.value else "node")
    ensures !Truthy(opts.sourceDir) ==> m.options == ArgvOf(script, opts)
    ensures script.ScriptPath? && !Truthy(opts.sourceDir) ==> m.options == [script.path] + opts.options
    ensures Truthy(opts.sourceDir) && |ArgvOf(script, opts)| > 0 ==>
      |m.options| == |ArgvOf(script, opts)| &&
      m.options[0] == Join(opts.sourceDir.value, ArgvOf(script, opts)[0]) &&
      m.options[1..] == ArgvOf(script, opts)[1..]
    ensures Truthy(opts.sourceDir) && |ArgvOf(script, opts)| == 0 ==> m.options == [Join(opts.sourceDir.value, "")]
    ensures opts.minUptime.None? ==> m.minUptime == 2000
    ensures opts.minUptime.Some? ==> m.minUptime == opts.minUptime.value
    ensures m.spinSleepTime.Some? <==> opts.spinSleepTime.Some? && opts.spinSleepTime.value != 0
    ensures m.uid == (if Truthy(opts.uid) then opts.uid.value else freshUid)
  {
    var argv := ArgvOf(script, opts);
    var options := WithSourceDir(argv, opts.sourceDir);
    var uid := Or(opts.uid, freshUid);
    var files := FileNames(opts, root, pidPath, uid);
    Monitor(
      forever := opts.forever,
      command := if script.ScriptArgv? then script.command else Or(opts.command, DefaultCommand),
      sourceDir := opts.sourceDir,
      minUptime := if opts.minUptime.Some? then opts.minUptime.value else DefaultMinUptime,
      spinSleepTime := if opts.spinSleepTime.Some? && opts.spinSleepTime.value != 0 then opts.spinSleepTime else None,
      options := options,
      uid := uid,
      max := opts.max,
      logFile := files.0,
      pidFile := files.1,
      fvrFile := files.2,
      checkFile := false,
      childExists := false,
      running := false,
      times := 0,
      ctime := 0,
      forceStop := false,
      child := None,
      childData := None,
      pending := NothingPending)
  }

  /* ----- spawning and saving ----- */

  /** Whether `trySpawn` stats the target before spawning. */
  predicate StatsTarget(m: Monitor)
  {
    m.command == DefaultCommand || (m.checkFile && !m.childExists)
  }

  /** `trySpawn()`: `targetExists` is the answer of `fs.statSync(options[0])`
      and `pid` the pid of the spawned child. Returns the updated monitor and
      the child's pid, or `None` when nothing was spawned. */
  function TrySpawn(m: Monitor, targetExists: bool, pid: int): (r: (Monitor, Option<int>))
    ensures r.1.None? <==> StatsTarget(m) && !(|m.options| > 0 && targetExists)
    ensures r.1.Some? ==> r.1.value == pid
    ensures r.1.None? ==> r.0 == m
    ensures r.0 == m.(childExists := r.0.childExists)
    ensures r.0.childExists <==> m.childExists || (StatsTarget(m) && r.1.Some?)
  {
    if StatsTarget(m) then
      if |m.options| > 0 && targetExists then (m.(childExists := true), Some(pid))
      else (m, None)
    else (m, Some(pid))
  }

  /** The `.fvr` record `save()` builds for a monitor with a live child;
      `hostPid` is `process.pid`. */
  function Save(m: Monitor, hostPid: int): (s: Snapshot)
    requires m.child.Some?
    ensures s.pid == m.child.value && s.foreverPid == hostPid && s.uid == m.uid
    ensures s.options == (if |m.options| == 0 then [] else m.options[1..])
    ensures |m.options| == 0 <==> s.file.None?
    ensures |m.options| > 0 && !Truthy(m.sourceDir) ==> s.file == Some(m.options[0])
  {
    var file := if |m.options| == 0 then None else Some(m.options[0]);
    var file' :=
      if Truthy(m.sourceDir) && file.Some? then Some(ReplaceFirst(file.value, m.sourceDir.value + "/", ""))
      else file;
    Snapshot(
      uid := m.uid,
      ctime := m.ctime,
      command := m.command,
      pid := m.child.value,
      foreverPid := hostPid,
      logFile := m.logFile,
      options := if |m.options| == 0 then [] else m.options[1..],
      file := file',
      pidFile := m.pidFile,
      sourceDir := m.sourceDir)
  }

  /** The snapshot of a freshly constructed monitor names the script it was
      given, when the script is a plain relative path and `sourceDir` a
      normal directory: `save` strips exactly the `sourceDir + '/'` that
      the constructor's `path.join` put in front. */
  lemma SaveRestoresScript(script: string, opts: MonitorOptions, root: string, pidPath: string,
                           freshUid: string, pid: int, hostPid: int)
    requires Plain(script)
    requires Truthy(opts.sourceDir) ==> NormalDir(opts.sourceDir.value)
    ensures var m := New(ScriptPath(script), opts, root, pidPath, freshUid);
            var s := Save(m.(child := Some(pid)), hostPid);
            s.file == Some(script) && s.options == opts.options
  {
    var m := New(ScriptPath(script), opts, root, pidPath, freshUid);
    if Truthy(opts.sourceDir) {
      var sd := opts.sourceDir.value;
      JoinPlain(sd, script);
      assert m.options[0] == sd + "/" + script;
      ReplacePrefix(sd + "/", script);
    }
  }

  /** With `sourceDir` `dir/`, `path.join` gives `dir/app.js`, which does
      not contain the `dir//` that `save` looks for: the snapshot keeps the
      directory in its file name. */
  lemma SaveKeepsTrailingSlashDir(opts: MonitorOptions, root: string, pidPath: string,
                                  freshUid: string, pid: int, hostPid: int)
    requires opts.sourceDir == Some("dir/")
    ensures var m := New(ScriptPath("app.js"), opts, root, pidPath, freshUid);
            var s := Save(m.(child := Some(pid)), hostPid);
            m.options[0] == "dir/app.js" && s.file == Some("dir/app.js")
  {
    JoinDirApp();
    NoDoubleSlash();
    assert "dir/" + "/" == "dir//";
  }

  lemma JoinDirApp()
    ensures Join("dir/", "app.js") == "dir/app.js"
  {
    var d, f := "dir", "app.js";
    assert Segment(d) && Segment(f);
    SegmentPlain(d);
    SegmentPlain(f);
    JoinTrailingSlash(d, f);
    assert d + "/" == "dir/" && d + "/" + f == "dir/app.js";
  }

  lemma NoDoubleSlash()
    ensures IndexOfFrom("dir/app.js", "dir//", 0).None?
  {
    var f, pat := "dir/app.js", "dir//";
    assert !MatchAt(f, pat, 0) by { assert f[4] != pat[4]; }
    forall j | 1 <= j ensures !MatchAt(f, pat, j) {
      if j + |pat| <= |f| { assert f[j..j + |pat|][0] == f[j] && f[j] != 'd'; }
    }
  }

  /* ----- start ----- */

  /** The result of a step: the new monitor, the events emitted, and the pid
      signalled by a kill, if any. */
  datatype StepResult = StepResult(m: Monitor, events: seq<Event>, signalled: Option<int>)

  /** The spawn part of `start` after the already-running guard. */
  function Launch(m: Monitor, restart: bool, now: int, targetExists: bool, pid: int, hostPid: int): (r: StepResult)
  {
    var (m1, child) := TrySpawn(m, targetExists, pid);
    if child.None? then
      StepResult(m1, [Error(TargetMissing(if |m.options| == 0 then None else Some(m.options[0])))], None)
    else
      var m2 := m1.(ctime := now, child := child, running := true, pending := NothingPending);
      var snap := Save(m2, hostPid);
      StepResult(m2.(childData := Some(snap)), [if restart then Restarted(snap) else Started(snap)], None)
  }

  /** `start(restart)` exactly as written: the already-running error is queued,
      but the function does not return and spawns a second child anyway. */
  function StartAsWritten(m: Monitor, restart: bool, now: int, targetExists: bool, pid: int, hostPid: int): (r: StepResult)
    ensures m.running && !restart ==> |r.events| >= 1 && r.events[0] == Error(AlreadyRunning)
  {
    var guard := if m.running && !restart then [Error(AlreadyRunning)] else [];
    var l := Launch(m, restart, now, targetExists, pid, hostPid);
    l.(events := guard + l.events)
  }

  /** `start(restart)` with the already-running guard returning, as its error
      message and the at-most-one-child design evidently intend. */
  function Start(m: Monitor, restart: bool, now: int, targetExists: bool, pid: int, hostPid: int): (r: StepResult)
    ensures m.running && !restart ==> r == StepResult(m, [Error(AlreadyRunning)], None)
    ensures !(m.running && !restart) && StatsTarget(m) && !(|m.options| > 0 && targetExists) ==>
      r.m == m && |r.events| == 1 && r.events[0].Error? && r.events[0].error.TargetMissing?
    ensures !(m.running && !restart) && !(StatsTarget(m) && !(|m.options| > 0 && targetExists)) ==>
      r.m.running && r.m.ctime == now && r.m.child == Some(pid) && r.m.times == m.times &&
      r.m.pending == NothingPending && r.m.forceStop == m.forceStop &&
      r.m.childData == Some(Save(r.m, hostPid)) &&
      r.events == [if restart then Restarted(r.m.childData.value) else Started(r.m.childData.value)]
    ensures r.signalled.None?
  {
    if m.running && !restart then StepResult(m, [Error(AlreadyRunning)], None)
    else Launch(m, restart, now, targetExists, pid, hostPid)
  }

  /** A start on a missing `node` script spawns nothing and reports the
      missing target without marking the monitor running. */
  lemma MissingScriptNotStarted(m: Monitor, now: int, pid: int, hostPid: int)
    requires !m.running && m.command == "node" && |m.options| > 0
    ensures var r := Start(m, false, now, false, pid, hostPid);
            !r.m.running && r.events == [Error(TargetMissing(Some(m.options[0])))]
  {
  }

  /** The finding: as written, a second `start()` on a running monitor both
      reports the error and replaces the live child by a new one. */
  lemma StartWhileRunningSpawnsTwice(root: string, pidPath: string)
    ensures var m := New(ScriptPath("app.js"), MonitorOptions(false, None, None, None, None, [], Some("u"), None, None, None), root, pidPath, "x");
            var first := Start(m, false, 0, true, 100, 1).m;
            var second := StartAsWritten(first, false, 5, true, 200, 1);
            first.running && first.child == Some(100) &&
            second.events[0] == Error(AlreadyRunning) &&
            second.m.child == Some(200) && |second.events| == 2 && second.events[1].Started?
  {
  }

  /* ----- the exit handler ----- */

  /** The branch the exit handler takes. */
  datatype ExitDecision = Die | RestartAfter(delay: int) | RestartNow

  /** `!self.forever && self.times >= self.max`; an absent `max` never limits. */
  predicate MaxReached(forever: bool, times: nat, max: Option<int>)
  {
    !forever && max.Some? && times >= max.value
  }

  /** The priority-ordered decision table of the exit handler. */
  function Decide(forceStop: bool, spinning: bool, spinSleepTime: Option<int>, forever: bool,
                  times: nat, max: Option<int>): (d: ExitDecision)
    ensures d.Die? <==> forceStop || (spinning && spinSleepTime.None?) || MaxReached(forever, times, max)
    ensures d.RestartAfter? <==> !d.Die? && spinning
    ensures d.RestartAfter? ==> spinSleepTime.Some? && d.delay == spinSleepTime.value
    ensures d.RestartNow? <==> !d.Die? && !spinning
  {
    if forceStop then Die
    else if spinning && spinSleepTime.None? then Die
    else if MaxReached(forever, times, max) then Die
    else if spinning then RestartAfter(spinSleepTime.value)
    else RestartNow
  }

  /** Spinning is checked before the restart limit: a spinning exit without a
      spin-sleep time dies even when restarts are left, and with one it still
      dies once the limit is reached. */
  lemma SpinBeforeMax(times: nat, max: int, sleep: int)
    requires times < max
    ensures Decide(false, true, None, false, times, Some(max)) == Die
    ensures Decide(false, true, Some(sleep), false, max, Some(max)) == Die
    ensures Decide(false, true, Some(sleep), false, times, Some(max)) == RestartAfter(sleep)
  {
  }

  /** `now - ctime < minUptime`. */
  predicate Spinning(m: Monitor, now: int)
  {
    now - m.ctime < m.minUptime
  }

  /** The live child exited at time `now`. */
  function Exit(m: Monitor, now: int): (r: StepResult)
    requires m.running && m.child.Some? && m.pending.NothingPending?
    ensures var d := Decide(m.forceStop, Spinning(m, now), m.spinSleepTime, m.forever, m.times, m.max);
            (d.Die? ==> !r.m.running && r.events == [Exited(Spinning(m, now))] && r.m.times == m.times) &&
            (d.RestartAfter? ==> r.m.running && r.events == [] && r.m.times == m.times && r.m.pending == SpinWait(d.delay)) &&
            (d.RestartNow? ==> r.m.running && r.events == [] && r.m.times == m.times + 1 && r.m.pending == NextTick)
    ensures r.m.forceStop == m.forceStop && r.m.ctime == m.ctime && r.signalled.None?
  {
    var spinning := Spinning(m, now);
    match Decide(m.forceStop, spinning, m.spinSleepTime, m.forever, m.times, m.max)
    case Die => StepResult(m.(running := false), [Exited(spinning)], None)
    case RestartAfter(d) => StepResult(m.(pending := SpinWait(d)), [], None)
    case RestartNow => StepResult(m.(times := m.times + 1, pending := NextTick), [], None)
  }

  /** A script that crashes on start under the default options is given up
      after its first exit, whatever its restart limit. */
  lemma CrashOnStartGivesUp(script: string, opts: MonitorOptions, root: string, pidPath: string,
                            freshUid: string, now: int, pid: int, hostPid: int, exitAt: int)
    requires opts.minUptime.None? && opts.spinSleepTime.None? && script != ""
    requires now <= exitAt < now + 2000
    ensures var m := New(ScriptPath(script), opts, root, pidPath, freshUid);
            var s := Start(m, false, now, true, pid, hostPid);
            s.m.running &&
            var e := Exit(s.m, exitAt);
            !e.m.running && e.events == [Exited(true)] && e.m.times == 0
  {
  }

  /** `restartChild` runs when the spin-sleep timer fires. */
  function SpinTimerFired(m: Monitor): (r: Monitor)
    requires m.pending.SpinWait?
    ensures r.times == m.times + 1 && r.pending == NextTick && r.running == m.running
  {
    m.(times := m.times + 1, pending := NextTick)
  }

  /** The queued `start(true)` runs on the next tick. */
  function Tick(m: Monitor, now: int, targetExists: bool, pid: int, hostPid: int): (r: StepResult)
    requires m.pending.NextTick?
    ensures r.m.times == m.times
  {
    Start(m.(pending := NothingPending), true, now, targetExists, pid, hostPid)
  }

  /* ----- kill, stop, restart ----- */

  /** `kill(forceStop)`: signals the child and emits `stop` with the saved
      data, or reports an error and changes nothing when not running. */
  function Kill(m: Monitor, forceStop: bool): (r: StepResult)
    ensures m.child.None? || !m.running ==> r == StepResult(m, [Error(NotRunning)], None)
    ensures m.child.Some? && m.running ==>
      r.m == m.(forceStop := m.forceStop || forceStop) &&
      r.events == [Stopped(m.childData)] && r.signalled == m.child
  {
    if m.child.None? || !m.running then StepResult(m, [Error(NotRunning)], None)
    else StepResult(m.(forceStop := m.forceStop || forceStop), [Stopped(m.childData)], m.child)
  }

  /** `stop()` is `kill(true)`. */
  function Stop(m: Monitor): (r: StepResult)
    ensures m.child.Some? && m.running ==> r.m.forceStop
  {
    Kill(m, true)
  }

  /** `restart()` is `kill(false)`: it leaves `forceStop` as it was. */
  function Restart(m: Monitor): (r: StepResult)
    ensures r.m.forceStop == m.forceStop
  {
    Kill(m, false)
  }

  /** A stopped monitor's child is never restarted: the next exit dies. */
  lemma StopThenExitDies(m: Monitor, now: int)
    requires m.running && m.child.Some? && m.pending.NothingPending?
    ensures var s := Stop(m).m;
            var e := Exit(s, now);
            !e.m.running && e.events == [Exited(Spinning(m, now))] && e.m.times == m.times
  {
  }

  /** Stopping a monitor that is not running changes nothing and emits no exit. */
  lemma StopWhenStoppedIsError(m: Monitor)
    requires !m.running
    ensures Stop(m) == StepResult(m, [Error(NotRunning)], None)
  {
  }

  /* ----- the restart counter over a crash loop ----- */

  /** The monitor has a live child and nothing pending. */
  predicate Live(m: Monitor)
  {
    m.running && m.child.Some? && m.pending.NothingPending?
  }

  /** One exit after `uptime` milliseconds, followed, when a restart was
      queued for the next tick, by that restart finding its target. */
  datatype Cycle = Cycle(m: Monitor, events: seq<Event>, restarted: bool)

  function RunCycle(m: Monitor, uptime: nat, pid: int, hostPid: int): Cycle
    requires Live(m)
  {
    var now := m.ctime + uptime;
    var e := Exit(m, now);
    if e.m.pending.NextTick? then
      var t := Tick(e.m, now, true, pid, hostPid);
      Cycle(t.m, e.events + t.events, true)
    else Cycle(e.m, e.events, false)
  }

  /** Runs exit / restart cycles for at most `fuel` exits, returning the final
      monitor and every event emitted. */
  function CrashLoop(m: Monitor, uptime: nat, pid: int, hostPid: int, fuel: nat): (r: (Monitor, seq<Event>))
    decreases fuel
  {
    if fuel == 0 || !Live(m) then (m, [])
    else
      var c := RunCycle(m, uptime, pid, hostPid);
      if c.restarted then
        var rest := CrashLoop(c.m, uptime, pid, hostPid, fuel - 1);
        (rest.0, c.events + rest.1)
      else (c.m, c.events)
  }

  /** The hypotheses under which a crash loop never spins nor is forced to
      stop, and every respawn finds its script: the child lives at least
      `minUptime` and there is a script argument. */
  predicate Steady(m: Monitor, uptime: nat)
  {
    !m.forceStop && uptime >= m.minUptime && |m.options| > 0
  }

  /** A cycle below the restart limit restarts the child once: one `restart`
      event, one more on the counter, and the child live again. */
  lemma RestartCycle(m: Monitor, uptime: nat, pid: int, hostPid: int) returns (next: Monitor, e: Event)
    requires Live(m) && Steady(m, uptime) && !MaxReached(m.forever, m.times, m.max)
    ensures RunCycle(m, uptime, pid, hostPid) == Cycle(next, [e], true)
    ensures Live(next) && Steady(next, uptime) && next.times == m.times + 1
    ensures next.forever == m.forever && next.max == m.max && e.Restarted?
  {
    var now := m.ctime + uptime;
    assert !Spinning(m, now);
    var c := RunCycle(m, uptime, pid, hostPid);
    next, e := c.m, c.events[0];
    assert c.events == [e];
  }

  /** A cycle at the restart limit lets the child die without restarting. */
  lemma LastCycle(m: Monitor, uptime: nat, pid: int, hostPid: int) returns (last: Monitor)
    requires Live(m) && Steady(m, uptime) && MaxReached(m.forever, m.times, m.max)
    ensures RunCycle(m, uptime, pid, hostPid) == Cycle(last, [Exited(false)], false)
    ensures !last.running && last.times == m.times
  {
    var now := m.ctime + uptime;
    assert !Spinning(m, now);
    last := RunCycle(m, uptime, pid, hostPid).m;
  }

  /** Every event of `evs` is a `restart`. */
  predicate AllRestarted(evs: seq<Event>)
  {
    forall i :: 0 <= i < |evs| ==> evs[i].Restarted?
  }

  lemma AllRestartedCons(e: Event, evs: seq<Event>)
    requires e.Restarted? && AllRestarted(evs)
    ensures AllRestarted([e] + evs)
  {
    forall i | 0 <= i < |[e] + evs| ensures ([e] + evs)[i].Restarted? {
      if i > 0 { assert ([e] + evs)[i] == evs[i - 1]; }
    }
  }

  /** The outcome of a crash loop that gave up: stopped at `times` restarts,
      after `count` restarts and one final `exit`. */
  predicate GaveUp(r: (Monitor, seq<Event>), times: nat, count: nat)
  {
    !r.0.running && r.0.times == times && |r.1| == count + 1 &&
    r.1[count] == Exited(false) && AllRestarted(r.1[..count])
  }

  /** The outcome of a crash loop still running after `count` restarts. */
  predicate KeptRestarting(r: (Monitor, seq<Event>), times: nat, count: nat)
  {
    r.0.running && r.0.times == times && |r.1| == count && AllRestarted(r.1)
  }

  lemma GaveUpCons(r: (Monitor, seq<Event>), e: Event, times: nat, count: nat)
    requires GaveUp(r, times, count) && e.Restarted?
    ensures GaveUp((r.0, [e] + r.1), times, count + 1)
  {
    AllRestartedCons(e, r.1[..count]);
    assert ([e] + r.1)[..count + 1] == [e] + r.1[..count];
  }

  lemma GaveUpLast(last: Monitor)
    requires !last.running
    ensures GaveUp((last, [Exited(false)]), last.times, 0)
  {
    assert [Exited(false)][..0] == [];
  }

  lemma KeptRestartingCons(r: (Monitor, seq<Event>), e: Event, times: nat, count: nat)
    requires KeptRestarting(r, times, count) && e.Restarted?
    ensures KeptRestarting((r.0, [e] + r.1), times, count + 1)
  {
    AllRestartedCons(e, r.1);
  }

  /** With `max = N`, no spinning and no forced stop, the monitor restarts
      exactly until `times == N` and then emits a single `exit`. */
  lemma {:induction false} RestartsUntilMax(m: Monitor, n: nat, uptime: nat, pid: int, hostPid: int, fuel: nat)
    requires Live(m) && Steady(m, uptime)
    requires !m.forever && m.max == Some(n) && m.times <= n
    requires fuel > n - m.times
    ensures GaveUp(CrashLoop(m, uptime, pid, hostPid, fuel), n, n - m.times)
    decreases n - m.times
  {
    if m.times >= n {
      var last := LastCycle(m, uptime, pid, hostPid);
      GaveUpLast(last);
    } else {
      var next, e := RestartCycle(m, uptime, pid, hostPid);
      RestartsUntilMax(next, n, uptime, pid, hostPid, fuel - 1);
      var rest := CrashLoop(next, uptime, pid, hostPid, fuel - 1);
      GaveUpCons(rest, e, n, n - next.times);
      assert n - m.times == n - next.times + 1;
    }
  }

  /** Without a restart limit a non-spinning crash loop keeps restarting:
      each cycle adds exactly one to `times` and emits only `restart`. */
  lemma {:induction false} NoMaxNeverGivesUp(m: Monitor, uptime: nat, pid: int, hostPid: int, fuel: nat)
    requires Live(m) && Steady(m, uptime) && m.max.None?
    ensures KeptRestarting(CrashLoop(m, uptime, pid, hostPid, fuel), m.times + fuel, fuel)
    decreases fuel
  {
    if fuel > 0 {
      var next, e := RestartCycle(m, uptime, pid, hostPid);
      NoMaxNeverGivesUp(next, uptime, pid, hostPid, fuel - 1);
      KeptRestartingCons(CrashLoop(next, uptime, pid, hostPid, fuel - 1), e, m.times + fuel, fuel - 1);
    }
  }
}

=== FILE: paths.dfy ===
/** Node's POSIX `path.normalize` and `path.join`, as the modelled code uses
    them to build script, log, pid and socket paths. */
module Paths {

  import opened Strings

  /** A segment `normalize` keeps as it stands: not empty, not `.` or `..`,
      and free of `/`. */
  predicate Segment(s: string)
  {
    s != "" && s != "." && s != ".." && '/' !in s
  }

  /** A segment that may appear in a normalised result: a kept segment or
      a `..` that climbs above a relative start. */
  predicate Kept(s: string)
  {
    s != "" && s != "." && '/' !in s
  }

  /** One segment of `normalizeArray`: empty segments and `.` vanish, `..`
      removes the last real segment, or stays when the path may climb above
      its start. */
  function Push(stack: seq<string>, seg: string, aboveRoot: bool): seq<string>
  {
    if seg == "" || seg == "." then stack
    else if seg == ".." then
      if |stack| > 0 && stack[|stack| - 1] != ".." then stack[..|stack| - 1]
      else if aboveRoot then stack + [".."]
      else stack
    else stack + [seg]
  }

  /** The segments left once `segs` have been pushed, in order, onto `stack`. */
  function ResolveFrom(stack: seq<string>, segs: seq<string>, aboveRoot: bool): (r: seq<string>)
    requires forall i :: 0 <= i < |stack| ==> Kept(stack[i])
    requires forall i :: 0 <= i < |segs| ==> '/' !in segs[i]
    ensures forall i :: 0 <= i < |r| ==> Kept(r[i])
    ensures !aboveRoot && (forall i :: 0 <= i < |stack| ==> stack[i] != "..") ==>
              forall i :: 0 <= i < |r| ==> r[i] != ".."
    decreases |segs|
  {
    if |segs| == 0 then stack
    else ResolveFrom(Push(stack, segs[0], aboveRoot), segs[1..], aboveRoot)
  }

  /** `path.normalize(p)`: `..` and `.` resolved, repeated `/` collapsed, a
      leading and a trailing `/` kept, and `.` for an empty relative result. */
  function Normalize(p: string): (r: string)
    ensures r != ""
    ensures (|p| > 0 && p[0] == '/') <==> r[0] == '/'
  {
    var absolute := |p| > 0 && p[0] == '/';
    var trailing := |p| > 0 && p[|p| - 1] == '/';
    var segs := ResolveFrom([], Split(p, '/'), !absolute);
    var body := JoinWith(segs, '/');
    assert |segs| > 0 ==> body != "" && body[0] == segs[0][0] by {
      if |segs| > 0 { JoinWithFirst(segs); }
    }
    var body1 := if body == "" && !absolute then "." else body;
    (if absolute then "/" else "") + (if body1 != "" && trailing then body1 + "/" else body1)
  }

  /** `path.join(a, b)`: the non-empty arguments joined with `/`, then
      normalised (`.` when both are empty). */
  function Join(a: string, b: string): (r: string)
    ensures r != ""
    ensures |a| > 0 && a[0] == '/' ==> r[0] == '/'
  {
    Normalize(if a == "" then b else if b == "" then a else a + "/" + b)
  }

  /* ----- joined segment lists ----- */

  /** A joined list starts with its first part's first character. */
  lemma JoinWithFirst(parts: seq<string>)
    requires |parts| > 0 && parts[0] != ""
    ensures JoinWith(parts, '/') != "" && JoinWith(parts, '/')[0] == parts[0][0]
  {
  }

  /** A joined list ends with its last part's last character. */
  lemma {:induction false} JoinWithLast(parts: seq<string>)
    requires |parts| > 0 && parts[|parts| - 1] != ""
    ensures var j := JoinWith(parts, '/');
            j != "" && j[|j| - 1] == parts[|parts| - 1][|parts[|parts| - 1]| - 1]
    decreases |parts|
  {
    if |parts| > 1 {
      JoinWithLast(parts[1..]);
    }
  }

  /** Joining two non-empty lists puts one separator between their joins. */
  lemma {:induction false} JoinWithAppend(xs: seq<string>, ys: seq<string>)
    requires |xs| > 0 && |ys| > 0
    ensures JoinWith(xs + ys, '/') == JoinWith(xs, '/') + "/" + JoinWith(ys, '/')
    decreases |xs|
  {
    if |xs| == 1 {
      assert (xs + ys)[1..] == ys;
    } else {
      assert (xs + ys)[1..] == xs[1..] + ys;
      JoinWithAppend(xs[1..], ys);
    }
  }

  /* ----- paths that normalising leaves alone ----- */

  /** A relative path made of kept segments only: no empty, `.` or `..`
      component, so no leading, trailing or doubled `/`. */
  predicate Plain(p: string)
  {
    var parts := Split(p, '/');
    forall i :: 0 <= i < |parts| ==> Segment(parts[i])
  }

  /** A directory `normalize` leaves as it is: plain, or `/` and plain. */
  predicate NormalDir(d: string)
  {
    Plain(d) || (|d| > 1 && d[0] == '/' && Plain(d[1..]))
  }

  /** Pushing kept segments only appends them. */
  lemma {:induction false} ResolveSegments(stack: seq<string>, segs: seq<string>, aboveRoot: bool)
    requires forall i :: 0 <= i < |stack| ==> Kept(stack[i])
    requires forall i :: 0 <= i < |segs| ==> '/' !in segs[i] && Segment(segs[i])
    ensures ResolveFrom(stack, segs, aboveRoot) == stack + segs
    decreases |segs|
  {
    if |segs| > 0 {
      assert Push(stack, segs[0], aboveRoot) == stack + [segs[0]];
      ResolveSegments(stack + [segs[0]], segs[1..], aboveRoot);
      assert stack + [segs[0]] + segs[1..] == stack + segs;
    }
  }

  /** Pushing a list is pushing its two halves one after the other. */
  lemma {:induction false} ResolveAppend(stack: seq<string>, xs: seq<string>, ys: seq<string>, aboveRoot: bool)
    requires forall i :: 0 <= i < |stack| ==> Kept(stack[i])
    requires forall i :: 0 <= i < |xs| ==> '/' !in xs[i]
    requires forall i :: 0 <= i < |ys| ==> '/' !in ys[i]
    ensures ResolveFrom(stack, xs + ys, aboveRoot) == ResolveFrom(ResolveFrom(stack, xs, aboveRoot), ys, aboveRoot)
    decreases |xs|
  {
    if |xs| > 0 {
      assert (xs + ys)[0] == xs[0] && (xs + ys)[1..] == xs[1..] + ys;
      ResolveAppend(Push(stack, xs[0], aboveRoot), xs[1..], ys, aboveRoot);
    } else {
      assert xs + ys == ys;
    }
  }

  /** The parts of a plain path, and the path itself, are non-empty. */
  lemma PlainParts(p: string)
    requires Plain(p)
    ensures p != "" && p[0] != '/' && p[|p| - 1] != '/'
    ensures JoinWith(Split(p, '/'), '/') == p
  {
    var parts := Split(p, '/');
    JoinSplit(p, '/');
    JoinWithFirst(parts);
    JoinWithLast(parts);
  }

  /** Splitting a path after a leading `/` yields an empty first part. */
  lemma SplitRooted(p: string)
    ensures Split("/" + p, '/') == [""] + Split(p, '/')
  {
    var s := "/" + p;
    assert FirstIndexOf(s, '/') == 0;
    assert s[..0] == "" && s[1..] == p;
  }

  /** `normalize` leaves a plain path, and a plain path after `/`, alone. */
  lemma NormalizePlain(p: string)
    requires Plain(p)
    ensures Normalize(p) == p
    ensures Normalize("/" + p) == "/" + p
  {
    var parts := Split(p, '/');
    PlainParts(p);
    ResolveSegments([], parts, true);
    ResolveSegments([], parts, false);
    assert [] + parts == parts;
    SplitRooted(p);
    var s := "/" + p;
    assert s[|s| - 1] == p[|p| - 1];
    assert ([""] + parts)[0] == "" && ([""] + parts)[1..] == parts;
    assert ResolveFrom([], [""] + parts, false) == ResolveFrom([], parts, false);
  }

  /** A single segment is a plain path. */
  lemma SegmentPlain(s: string)
    requires Segment(s)
    ensures Plain(s)
  {
    NoSlash(s);
  }

  /** Two plain paths joined with `/` make a plain path. */
  lemma PlainAppend(a: string, b: string)
    requires Plain(a) && Plain(b)
    ensures Plain(a + "/" + b)
  {
    var xs, ys := Split(a, '/'), Split(b, '/');
    JoinSplit(a, '/');
    JoinSplit(b, '/');
    JoinWithAppend(xs, ys);
    SplitJoin(xs + ys, '/');
    assert Split(a + "/" + b, '/') == xs + ys;
  }

  /** `path.join` of a normal directory and a plain relative path is their
      plain concatenation with one `/`. */
  lemma JoinPlain(d: string, s: string)
    requires NormalDir(d) && Plain(s)
    ensures Join(d, s) == d + "/" + s
  {
    PlainParts(s);
    if Plain(d) {
      JoinRelative(d, s);
    } else {
      JoinRooted(d[1..], s);
      assert d == "/" + d[1..];
    }
  }

  lemma JoinRelative(d: string, s: string)
    requires Plain(d) && Plain(s)
    ensures Join(d, s) == d + "/" + s
  {
    PlainParts(d);
    PlainParts(s);
    var p := d + "/" + s;
    PlainAppend(d, s);
    NormalizePlain(p);
    assert Join(d, s) == Normalize(p);
  }

  lemma JoinRooted(q: string, s: string)
    requires Plain(q) && Plain(s)
    ensures Join("/" + q, s) == "/" + q + "/" + s
  {
    var p := q + "/" + s;
    var a := "/" + q;
    assert s != "" by { PlainParts(s); }
    assert Plain(p) by { PlainAppend(q, s); }
    assert Normalize("/" + p) == "/" + p by { NormalizePlain(p); }
    assert a + "/" + s == "/" + p;
    JoinBoth(a, s);
  }

  /** Both arguments present: `join` normalises `a/b`. */
  lemma JoinBoth(a: string, b: string)
    requires a != "" && b != ""
    ensures Join(a, b) == Normalize(a + "/" + b)
  {
  }

  /** Splitting `a/b` gives the parts of `a` then those of `b`. */
  lemma SplitCat(a: string, b: string)
    ensures Split(a + "/" + b, '/') == Split(a, '/') + Split(b, '/')
  {
    var xs, ys := Split(a, '/'), Split(b, '/');
    JoinSplit(a, '/');
    JoinSplit(b, '/');
    JoinWithAppend(xs, ys);
    SplitJoin(xs + ys, '/');
  }

  /** The normal form of a path with no trailing `/` whose segments resolve
      to a non-empty list: the list joined, after a `/` for a rooted path. */
  lemma NormalizeResolved(p: string, segs: seq<string>)
    requires |p| > 0 && p[|p| - 1] != '/'
    requires ResolveFrom([], Split(p, '/'), p[0] != '/') == segs && |segs| > 0
    ensures Normalize(p) == (if p[0] == '/' then "/" else "") + JoinWith(segs, '/')
  {
    JoinWithFirst(segs);
  }

  /** A path ends in `/` exactly when its last part is empty. */
  lemma LastPart(p: string, xs: seq<string>, s: string)
    requires Split(p, '/') == xs + [s] && s != ""
    ensures |p| > 0 && p[|p| - 1] != '/'
  {
    JoinSplit(p, '/');
    JoinWithLast(xs + [s]);
  }

  /** `path.join(a, s)` for a single segment `s` ends in that segment: the
      base name of the joined path is `s`. */
  lemma JoinBasename(a: string, s: string)
    requires Segment(s)
    ensures Basename(Join(a, s)) == s
  {
    var p := if a == "" then s else a + "/" + s;
    NoSlash(s);
    if a == "" {
      assert Split(p, '/') == [] + [s];
      NormalizeLast(p, [], s);
    } else {
      SplitCat(a, s);
      NormalizeLast(p, Split(a, '/'), s);
    }
  }

  /** A path whose last component is a kept segment normalises to a path
      with that base name. */
  lemma NormalizeLast(p: string, xs: seq<string>, s: string)
    requires Segment(s) && Split(p, '/') == xs + [s]
    ensures Basename(Normalize(p)) == s
  {
    LastPart(p, xs, s);
    var rooted := p[0] == '/';
    assert forall i :: 0 <= i < |xs| ==> '/' !in xs[i] by {
      forall i | 0 <= i < |xs| ensures '/' !in xs[i] { assert xs[i] == (xs + [s])[i]; }
    }
    ResolveAppend([], xs, [s], !rooted);
    var ys := ResolveFrom([], xs, !rooted);
    assert ResolveFrom(ys, [s], !rooted) == ys + [s];
    NormalizeResolved(p, ys + [s]);
    BasenameOf(if rooted then "/" else "", ys, s);
  }

  /** Joining segments after an optional `/` ends in the last segment. */
  lemma BasenameOf(pre: string, ys: seq<string>, s: string)
    requires pre == "" || pre == "/"
    requires Segment(s)
    ensures Basename(pre + JoinWith(ys + [s], '/')) == s
  {
    if |ys| == 0 {
      assert ys + [s] == [s];
      BasenameAlone(pre, s);
    } else {
      JoinWithAppend(ys, [s]);
      BasenameAfter(pre + JoinWith(ys, '/'), s);
      assert pre + JoinWith(ys, '/') + "/" + s == pre + JoinWith(ys + [s], '/');
    }
  }

  /** A segment alone, or after the root, is its own base name. */
  lemma BasenameAlone(pre: string, s: string)
    requires pre == "" || pre == "/"
    requires Segment(s)
    ensures Basename(pre + s) == s
  {
    if pre == "/" {
      AfterLastAppend("", "/" + s, '/');
      assert "" + ("/" + s) == pre + s;
    } else {
      assert pre + s == s;
      AfterLastNone(s);
    }
  }

  /** A segment after a `/` is the base name. */
  lemma BasenameAfter(q: string, s: string)
    requires Segment(s)
    ensures Basename(q + "/" + s) == s
  {
    AfterLastAppend(q, "/" + s, '/');
    assert q + ("/" + s) == q + "/" + s;
    assert (q + "/" + s)[|q| + 1..] == s;
  }

  /** A text without `/` is its own base name. */
  lemma AfterLastNone(s: string)
    requires '/' !in s
    ensures Basename(s) == s
  {
    var k := AfterLast(s, '/');
    if k > 0 {
      assert false;
    }
  }

  /* ----- what `path.join` does to paths that are not normal ----- */

  /** Segments that leave a stack of kept segments as it is. */
  predicate Vanishing(seg: string)
  {
    seg == "" || seg == "."
  }

  /** A plain path, vanishing segments, then a plain path, normalise to
      the two plain paths joined with one `/`. */
  lemma NormalizeThrough(p: string, d: string, mid: seq<string>, s: string)
    requires Plain(d) && Plain(s)
    requires forall i :: 0 <= i < |mid| ==> Vanishing(mid[i]) && '/' !in mid[i]
    requires Split(p, '/') == Split(d, '/') + mid + Split(s, '/')
    ensures Normalize(p) == d + "/" + s
  {
    var xs, ys := Split(d, '/'), Split(s, '/');
    assert d == JoinWith(xs, '/') && d[0] != '/' by { PlainParts(d); }
    assert s == JoinWith(ys, '/') by { PlainParts(s); }
    assert |p| > 0 && p[0] != '/' && p[|p| - 1] != '/' by {
      PlainParts(d);
      PlainParts(s);
      Ends(p, xs + mid + ys);
    }
    assert ResolveFrom([], Split(p, '/'), true) == xs + ys by { ResolveThrough(xs, mid, ys); }
    NormalizeResolved(p, xs + ys);
    JoinWithAppend(xs, ys);
  }

  /** A path's first and last characters are those of its first and last
      parts. */
  lemma Ends(p: string, parts: seq<string>)
    requires Split(p, '/') == parts && parts[0] != "" && parts[|parts| - 1] != ""
    ensures |p| > 0 && p[0] == parts[0][0] && p[|p| - 1] == parts[|parts| - 1][|parts[|parts| - 1]| - 1]
  {
    JoinSplit(p, '/');
    JoinWithFirst(parts);
    JoinWithLast(parts);
  }

  /** Kept segments around vanishing ones resolve to the kept ones. */
  lemma ResolveThrough(xs: seq<string>, mid: seq<string>, ys: seq<string>)
    requires forall i :: 0 <= i < |xs| ==> '/' !in xs[i] && Segment(xs[i])
    requires forall i :: 0 <= i < |mid| ==> Vanishing(mid[i]) && '/' !in mid[i]
    requires forall i :: 0 <= i < |ys| ==> '/' !in ys[i] && Segment(ys[i])
    ensures ResolveFrom([], xs + mid + ys, true) == xs + ys
  {
    ResolveAppend([], xs + mid, ys, true);
    ResolveAppend([], xs, mid, true);
    ResolveSegments([], xs, true);
    assert [] + xs == xs;
    Vanish(xs, mid);
    ResolveSegments(xs, ys, true);
  }

  /** Vanishing segments leave a stack as it is. */
  lemma {:induction false} Vanish(stack: seq<string>, mid: seq<string>)
    requires forall i :: 0 <= i < |stack| ==> Kept(stack[i])
    requires forall i :: 0 <= i < |mid| ==> Vanishing(mid[i]) && '/' !in mid[i]
    ensures ResolveFrom(stack, mid, true) == stack
    decreases |mid|
  {
    if |mid| > 0 {
      Vanish(stack, mid[1..]);
    }
  }

  /** A trailing `/` on the directory is dropped: `join('dir/', 'app.js')`
      is `dir/app.js`. */
  lemma JoinTrailingSlash(d: string, s: string)
    requires Plain(d) && Plain(s)
    ensures Join(d + "/", s) == d + "/" + s
  {
    PlainParts(s);
    var dir := d + "/";
    var p := dir + "/" + s;
    SplitCat(d, "");
    assert d + "/" + "" == dir;
    assert Split("", '/') == [""];
    SplitCat(dir, s);
    assert Split(p, '/') == Split(d, '/') + [""] + Split(s, '/');
    NormalizeThrough(p, d, [""], s);
    assert Join(dir, s) == Normalize(p);
  }

  /** A `./` before the file is dropped: `join('dir', './app.js')` is
      `dir/app.js`. */
  lemma JoinDotSlash(d: string, s: string)
    requires Plain(d) && Plain(s)
    ensures Join(d, "./" + s) == d + "/" + s
  {
    PlainParts(d);
    var file := "./" + s;
    var p := d + "/" + file;
    assert Split(".", '/') == ["."] by { NoSlash("."); }
    SplitCat(".", s);
    assert "." + "/" + s == file;
    SplitCat(d, file);
    assert Split(p, '/') == Split(d, '/') + ["."] + Split(s, '/');
    NormalizeThrough(p, d, ["."], s);
    assert Join(d, file) == Normalize(p);
  }

  /** Splitting at a `/` at position `k` with none before it. */
  lemma SplitStep(s: string, k: nat)
    requires k < |s| && s[k] == '/' && forall j :: 0 <= j < k ==> s[j] != '/'
    ensures Split(s, '/') == [s[..k]] + Split(s[k + 1..], '/')
  {
    FirstIndexSkips(s[..k], s[k..], '/');
    assert s[..k] + s[k..] == s;
  }

  /** A text without `/` splits into itself. */
  lemma NoSlash(s: string)
    requires '/' !in s
    ensures Split(s, '/') == [s]
  {
    assert FirstIndexOf(s, '/') == |s|;
  }
}

=== FILE: random.dfy ===
/** The two random-uid generators: `forever.randomString(bits)`
    (lib/forever.js), six bits per character, and `randomString(length)`
    (lib/util/utils.js), four bits per character. Both draw 32-bit words and
    cut them from bit 26 downwards into 6-bit alphabet indices. The random
    source is a parameter: `rand(k)` is the `k`-th value of
    `Math.floor(Math.random() * 0x100000000)`. */
module Random {

  import opened Wrappers
  import opened Strings
  import Forever

  /** The two 64-character alphabets: both run `A`-`Z`, `a`-`z`, `0`-`9`;
      `forever.randomString` ends with "-+" and `randomString` with "_-". */
  datatype Alphabet = ForeverChars | UtilsChars

  /** The characters an alphabet holds. */
  predicate InAlphabet(a: Alphabet, c: char)
  {
    IsAlnum(c) || (if a == ForeverChars then c == '-' || c == '+' else c == '_' || c == '-')
  }

  /** `chars[i]`. */
  function CharAt(a: Alphabet, i: nat): (c: char)
    requires i < 64
    ensures InAlphabet(a, c) && c != '.'
    ensures i < 62 <==> IsAlnum(c)
  {
    if i < 26 then ('A' as int + i) as char
    else if i < 52 then ('a' as int + (i - 26)) as char
    else if i < 62 then ('0' as int + (i - 52)) as char
    else if a == ForeverChars then (if i == 62 then '-' else '+')
    else if i == 62 then '_' else '-'
  }

  /** No two indices give the same character, so each index of the
      alphabet is told apart in the output. */
  lemma CharAtInjective(a: Alphabet, i: nat, j: nat)
    requires i < 64 && j < 64 && i != j
    ensures CharAt(a, i) != CharAt(a, j)
  {
  }

  /** The first shift of every word: the top 30 of the 32 bits are used. */
  const TopShift := 26

  function Pow2(n: nat): (r: nat)
    ensures r >= 1
  {
    if n == 0 then 1 else 2 * Pow2(n - 1)
  }

  /** JavaScript `ToUint32`, which `>>>` applies to its left operand. */
  function Uint32(x: int): (r: nat)
    ensures r < 0x1_0000_0000
  {
    x % 0x1_0000_0000
  }

  /** The number of times `x -= step` runs before `x > 0` fails; for positive
      `x` this is the ceiling of `x / step`. */
  function Steps(x: int, step: nat): nat
    requires step > 0
    decreases if x > 0 then x else 0
  {
    if x <= 0 then 0 else 1 + Steps(x - step, step)
  }

  /** The inner `for` loop over one word `w`: characters while `i > 0` and
      `bits > 0`, with the bits left over. */
  function Inner(chars: Alphabet, w: nat, i: int, bits: int, step: nat): (r: (string, int))
    requires step > 0
    ensures forall c :: c in r.0 ==> InAlphabet(chars, c)
    decreases if i > 0 then i else 0
  {
    if i <= 0 || bits <= 0 then ("", bits)
    else
      var rest := Inner(chars, w, i - step, bits - step, step);
      ([CharAt(chars, (w / Pow2(i)) % 64)] + rest.0, rest.1)
  }

  /** The inner loop yields one character per step while both `i` and
      `bits` stay positive, and takes `step` bits for each. */
  lemma {:induction false} InnerShape(chars: Alphabet, w: nat, i: int, bits: int, step: nat)
    requires step > 0
    ensures var r := Inner(chars, w, i, bits, step);
            |r.0| == (if Steps(i, step) < Steps(bits, step) then Steps(i, step) else Steps(bits, step)) &&
            r.1 == bits - step * |r.0| &&
            (i > 0 && bits > 0 ==> r.1 <= bits - step)
    decreases if i > 0 then i else 0
  {
    if i > 0 && bits > 0 {
      InnerShape(chars, w, i - step, bits - step, step);
      var rest := Inner(chars, w, i - step, bits - step, step);
      assert |Inner(chars, w, i, bits, step).0| == 1 + |rest.0|;
      assert bits - step * (1 + |rest.0|) == bits - step - step * |rest.0|;
    }
  }

  /** The outer `while (bits > 0)` loop, drawing word `word` of the random
      source each time round; the string and the number of words drawn. */
  function Slice(chars: Alphabet, step: nat, bits: int, rand: nat -> int, word: nat): (r: (string, nat))
    requires step > 0
    ensures forall c :: c in r.0 ==> InAlphabet(chars, c)
    decreases if bits > 0 then bits else 0
  {
    if bits <= 0 then ("", 0)
    else
      var piece := Inner(chars, Uint32(rand(word)), TopShift, bits, step);
      InnerShape(chars, Uint32(rand(word)), TopShift, bits, step);
      var rest := Slice(chars, step, piece.1, rand, word + 1);
      (piece.0 + rest.0, 1 + rest.1)
  }

  /** Subtracting `step` `c` times removes `c` steps. */
  lemma {:induction false} StepsSub(x: int, step: nat, c: nat)
    requires step > 0 && c <= Steps(x, step)
    ensures Steps(x - step * c, step) == Steps(x, step) - c
    decreases c
  {
    if c > 0 {
      assert x - step * c == (x - step) - step * (c - 1);
      StepsSub(x - step, step, c - 1);
    }
  }

  /** A multiple of `step` takes exactly that many steps. */
  lemma {:induction false} StepsMultiple(n: nat, step: nat)
    requires step > 0
    ensures Steps(n * step, step) == n
    decreases n
  {
    if n > 0 {
      assert n * step - step == (n - 1) * step;
      StepsMultiple(n - 1, step);
    }
  }

  /** Steps of `x + p * step` are `p` more than those of `x`, for positive `x`. */
  lemma {:induction false} StepsAdd(x: int, step: nat, p: nat)
    requires step > 0 && x > 0
    ensures Steps(x + step * p, step) == Steps(x, step) + p
    decreases p
  {
    if p > 0 {
      assert x + step * p - step == x + step * (p - 1);
      StepsAdd(x, step, p - 1);
    }
  }

  /** One more word: `c` characters cut from a word, then `restLen` from
      the words after it, where only the last word may be cut short. */
  lemma WordCount(c: nat, restLen: nat, perWord: nat)
    requires perWord > 0
    requires restLen > 0 ==> c == perWord
    requires restLen == 0 ==> 0 < c <= perWord
    ensures 1 + Steps(restLen, perWord) == Steps(c + restLen, perWord)
  {
    if restLen > 0 {
      StepsAdd(restLen, perWord, 1);
    } else {
      assert Steps(c - perWord, perWord) == 0;
    }
  }

  /** The slicer yields one character per `step` bits requested, and draws one
      word per `perWord` characters (the last word possibly only in part),
      where `perWord` is the number of shifts from bit 26 down to 1. */
  lemma {:induction false} SliceShape(chars: Alphabet, step: nat, bits: int, rand: nat -> int, word: nat)
    requires step > 0
    ensures |Slice(chars, step, bits, rand, word).0| == Steps(bits, step)
    ensures Slice(chars, step, bits, rand, word).1 == Steps(|Slice(chars, step, bits, rand, word).0|, Steps(TopShift, step))
    decreases if bits > 0 then bits else 0
  {
    if bits > 0 {
      var piece := Inner(chars, Uint32(rand(word)), TopShift, bits, step);
      var c := |piece.0|;
      InnerShape(chars, Uint32(rand(word)), TopShift, bits, step);
      SliceShape(chars, step, piece.1, rand, word + 1);
      StepsSub(bits, step, c);
      var rest := Slice(chars, step, piece.1, rand, word + 1);
      if piece.1 > 0 {
        assert c == Steps(TopShift, step);
        assert |rest.0| > 0;
      } else {
        assert c > 0 && c <= Steps(TopShift, step);
      }
      WordCount(c, |rest.0|, Steps(TopShift, step));
    }
  }

  /** `forever.randomString(bits)`: the string and the number of random words drawn. */
  function ForeverRandomString(bits: int, rand: nat -> int): (r: (string, nat))
    ensures forall c :: c in r.0 ==> InAlphabet(ForeverChars, c)
  {
    Slice(ForeverChars, 6, bits, rand, 0)
  }

  /** `randomString(length)` of lib/util/utils.js; `None` is a missing
      length. */
  function UtilsRandomString(length: Option<int>, rand: nat -> int): (r: (string, nat))
    ensures forall c :: c in r.0 ==> InAlphabet(UtilsChars, c)
  {
    Slice(UtilsChars, 4, UtilsBits(length), rand, 0)
  }

  /** `length * 4 || 64`: a zero or missing length asks for 64 bits. */
  function UtilsBits(length: Option<int>): int
  {
    if length.Some? && length.value != 0 then length.value * 4 else 64
  }

  lemma {:induction false} StepsSix(x: int)
    ensures Steps(x, 6) == if x <= 0 then 0 else (x + 5) / 6
    decreases if x > 0 then x else 0
  {
    if x > 0 {
      StepsSix(x - 6);
    }
  }

  lemma {:induction false} StepsFive(x: int)
    ensures Steps(x, 5) == if x <= 0 then 0 else (x + 4) / 5
    decreases if x > 0 then x else 0
  {
    if x > 0 {
      StepsFive(x - 5);
    }
  }

  lemma {:induction false} StepsSeven(x: int)
    ensures Steps(x, 7) == if x <= 0 then 0 else (x + 6) / 7
    decreases if x > 0 then x else 0
  {
    if x > 0 {
      StepsSeven(x - 7);
    }
  }

  /** With six bits per character a word gives five characters. */
  lemma SliceSixBits(chars: Alphabet, bits: int, rand: nat -> int)
    ensures |Slice(chars, 6, bits, rand, 0).0| == if bits <= 0 then 0 else (bits + 5) / 6
    ensures Slice(chars, 6, bits, rand, 0).1 == (|Slice(chars, 6, bits, rand, 0).0| + 4) / 5
  {
    SliceShape(chars, 6, bits, rand, 0);
    StepsSix(bits);
    assert Steps(TopShift, 6) == 5;
    StepsFive(|Slice(chars, 6, bits, rand, 0).0|);
  }

  /** With four bits per character a word gives seven characters. */
  lemma SliceFourBits(chars: Alphabet, bits: int, rand: nat -> int)
    ensures |Slice(chars, 4, bits, rand, 0).0| == Steps(bits, 4)
    ensures Slice(chars, 4, bits, rand, 0).1 == (|Slice(chars, 4, bits, rand, 0).0| + 6) / 7
  {
    SliceShape(chars, 4, bits, rand, 0);
    assert Steps(TopShift, 4) == 7;
    StepsSeven(|Slice(chars, 4, bits, rand, 0).0|);
  }

  /** `forever.randomString(bits)` has the ceiling of `bits / 6` characters
      (none for `bits <= 0`) and draws one word per five characters. */
  lemma ForeverRandomStringShape(bits: int, rand: nat -> int)
    ensures |ForeverRandomString(bits, rand).0| == (if bits <= 0 then 0 else (bits + 5) / 6)
    ensures ForeverRandomString(bits, rand).1 == (|ForeverRandomString(bits, rand).0| + 4) / 5
  {
    SliceSixBits(ForeverChars, bits, rand);
  }

  /** `randomString(n)` has exactly `n` characters for `n >= 1`, sixteen for
      a zero or missing length and none for a negative one, and draws one
      word per seven characters. */
  lemma UtilsRandomStringShape(length: Option<int>, rand: nat -> int)
    ensures |UtilsRandomString(length, rand).0| ==
              (if length.None? || length.value == 0 then 16 else if length.value < 0 then 0 else length.value)
    ensures UtilsRandomString(length, rand).1 == (|UtilsRandomString(length, rand).0| + 6) / 7
  {
    SliceFourBits(UtilsChars, UtilsBits(length), rand);
    UtilsBitsSteps(length);
  }

  /** Four bits per character give back the length asked for. */
  lemma UtilsBitsSteps(length: Option<int>)
    ensures Steps(UtilsBits(length), 4) ==
              (if length.None? || length.value == 0 then 16 else if length.value < 0 then 0 else length.value)
  {
    if length.None? || length.value == 0 {
      StepsMultiple(16, 4);
    } else if length.value > 0 {
      StepsMultiple(length.value, 4);
    }
  }

  /** The monitor's default uid, `randomString(24)`, has four characters and
      no dot, so its `<uid>.fvr` and `<uid>.pid` files map back to it. */
  lemma GeneratedUidRoundTrip(rand: nat -> int, ext: string)
    requires |ext| >= 1 && ext[0] == '.' && '.' !in ext[1..]
    ensures var uid := ForeverRandomString(24, rand).0;
            |uid| == 4 && Forever.UidOf(uid + ext) == uid
  {
    ForeverRandomStringShape(24, rand);
    var uid := ForeverRandomString(24, rand).0;
    Forever.UidOfFileName(uid, ext);
  }
}

=== FILE: request.dfy ===
/** `http_request_parse` of request.c: the request line, the header fields
    and the checks after them, over the request buffer as a character
    sequence. Logging, buffer allocation and the `array` of headers are
    replaced by values: the headers are a sequence in arrival order, and the
    fields the parser points into (`http_host`, the last header stored) are
    indices into it. */
module Request {

  import opened Wrappers
  import opened Strings
  import opened RequestLine
  import HeaderValues
  import UriChars
  import Host

  datatype Version = Http10 | Http11

  datatype Header = Header(key: string, value: string)

  /** `keep_alive_set`: what the last `Connection` header asked for. */
  datatype Token = NoToken | KeepAliveToken | CloseToken

  /** What the parser reads besides the request: the method table of
      `get_http_method_key`, `allow_http11`, the platform's `ULONG_MAX` and
      `SSIZE_MAX`, and the socket's `max_request_size` in kilobytes (0 for
      no limit). */
  datatype Config = Config(methods: set<string>, allowHttp11: bool, ulongMax: nat, ssizeMax: nat, maxRequestSize: nat)

  /** What a parsed request leaves in the connection. */
  datatype Request = Request(verb: string, version: Version, uri: string, headers: seq<Header>,
                             host: Option<string>, connection: Token, contentLength: Option<nat>,
                             headerLen: nat)

  /** The result of `http_request_parse`: a refusal with the status set and
      what became of `keep_alive` (`None` when it was left alone); a buffer
      whose request line never ends, which returns 0 with `keep_alive`
      cleared and nothing parsed; or an accepted request, with the return
      value 1 as `readBody`. */
  datatype Outcome =
    | Rejected(status: nat, keepAliveSet: Option<bool>)
    | Unterminated
    | Accepted(request: Request, keepAlive: bool, readBody: bool)

  /* ----- the request line ----- */

  /** The buffer parsed: on a connection that has already served a request,
      a leading CRLF left over from it is dropped. */
  function ParseBuffer(req: string, requestCount: nat): (buf: string)
    ensures Terminated(buf)
  {
    (if requestCount > 1 && |req| >= 2 && req[0] == '\r' && req[1] == '\n' then req[2..] else req) + ['\0']
  }

  /** `proto[7]`: the character after `HTTP/1.`, the NUL that replaced the
      CR when the protocol field is no longer. */
  function MinorVersion(proto: string): char
  {
    if |proto| > 7 then proto[7] else '\0'
  }

  /** An absolute `http://host/path` URI keeps only `/path`; the search for
      the '/' stops at a NUL, as `strchr` does. */
  function AbsPath(u: string): (r: string)
    ensures EndsWith(u, r)
  {
    if StartsWith(u, "http://") then
      var rest := u[7..];
      var k := FirstIndexOf(Host.UpToNul(rest), '/');
      if k < |Host.UpToNul(rest)| then rest[k..] else u
    else u
  }

  /** The absolute form loses its scheme and host; any other URI is kept. */
  lemma AbsPathStrips(host: string, path: string, u: string)
    requires '/' !in host && '\0' !in host && |path| > 0 && path[0] == '/'
    requires !StartsWith(u, "http://")
    ensures AbsPath("http://" + host + path) == path
    ensures AbsPath(u) == u
  {
    var s := "http://" + host + path;
    assert s[..7] == "http://";
    var rest := s[7..];
    assert rest == host + path;
    assert rest[|host|] == '/';
    var z := Host.UpToNul(rest);
    assert |z| > |host|;
    assert forall j :: 0 <= j < |host| ==> z[j] == host[j];
    assert z[|host|] == '/';
    assert rest[|host|..] == path;
  }

  /** The request-line fields once the line has its two spaces, or the
      status the line is refused with. */
  datatype LineFields = Fields(verb: string, version: Version, uri: string) | LineRefused(status: nat, keepAliveSet: Option<bool>)

  /** The checks of the request line, in the order the code makes them:
      the method, the protocol, its minor version, the URI characters.
      `LineFieldsMeaning` states the outcome in terms of the fields. */
  function LineFieldsOf(cfg: Config, buf: string, s1: nat, s2: nat, k: nat): (r: LineFields)
    requires s1 < s2 < k <= |buf|
    ensures r.LineRefused? ==> r.status in {400, 501, 505} && (r.status != 505 ==> r.keepAliveSet == Some(false))
    ensures r.Fields? ==> r.verb in cfg.methods && UriChars.UriValid(r.uri) && (r.version == Http11 ==> cfg.allowHttp11)
  {
    var verb := Host.UpToNul(buf[..s1]);
    var proto := buf[s2 + 1..k];
    var uri := AbsPath(buf[s1 + 1..s2]);
    if verb !in cfg.methods then LineRefused(501, Some(false))
    else if !StartsWith(proto, "HTTP/1.") then LineRefused(400, Some(false))
    else if MinorVersion(proto) != '0' && MinorVersion(proto) != '1' then LineRefused(505, None)
    else if !UriChars.UriValid(uri) then LineRefused(400, Some(false))
    else Fields(verb, if MinorVersion(proto) == '1' && cfg.allowHttp11 then Http11 else Http10, uri)
  }

  /** The line is refused with 501 exactly when its method is unknown, and
      with 505 exactly when its protocol is `HTTP/1.` with a minor version
      other than 0 and 1; a line that is not refused yields its method, the
      version it names (HTTP/1.1 only where allowed) and its URI, valid and
      a suffix of the URI field. */
  lemma LineFieldsMeaning(cfg: Config, buf: string, s1: nat, s2: nat, k: nat)
    requires s1 < s2 < k <= |buf|
    ensures LineFieldsOf(cfg, buf, s1, s2, k) == LineRefused(501, Some(false)) <==> Host.UpToNul(buf[..s1]) !in cfg.methods
    ensures LineFieldsOf(cfg, buf, s1, s2, k) == LineRefused(505, None) <==>
              Host.UpToNul(buf[..s1]) in cfg.methods && StartsWith(buf[s2 + 1..k], "HTTP/1.") &&
              MinorVersion(buf[s2 + 1..k]) !in {'0', '1'}
    ensures LineFieldsOf(cfg, buf, s1, s2, k).Fields? ==>
              LineFieldsOf(cfg, buf, s1, s2, k).verb == Host.UpToNul(buf[..s1]) &&
              StartsWith(buf[s2 + 1..k], "HTTP/1.") && MinorVersion(buf[s2 + 1..k]) in {'0', '1'} &&
              EndsWith(buf[s1 + 1..s2], LineFieldsOf(cfg, buf, s1, s2, k).uri) &&
              (LineFieldsOf(cfg, buf, s1, s2, k).version == Http11 <==> cfg.allowHttp11 && MinorVersion(buf[s2 + 1..k]) == '1')
  {
  }

  /* ----- header fields ----- */

  /** The separators of a field name. */
  predicate Separator(c: char)
  {
    c in {'(', ')', '<', '>', '@', ',', ';', '\\', '"', '/', '[', ']', '?', '=', '{', '}'}
  }

  /** The control characters; tab and CR are dealt with before this test. */
  predicate Ctl(c: char) { c as int < 32 || c as int == 127 }

  /** A character a field name may hold. */
  predicate TokenChar(c: char)
  {
    c != ':' && !Separator(c) && !HeaderValues.IsWs(c) && c != '\r' && !Ctl(c)
  }

  /** A stored field name: name characters, then the blanks that stood
      before the ':'. */
  predicate KeyOk(k: string)
  {
    forall j :: 0 <= j < HeaderValues.UntilTrailingWs(k) ==> TokenChar(k[j])
  }

  /** Every header an accepted request keeps has a well-formed name, and
      none is an `Expect` header. */
  predicate HeaderOk(h: Header)
  {
    KeyOk(h.key) && !CaselessEq(h.key, "Expect")
  }

  /** The state of the second loop: the start of the current line, whether
      a name is being read, whether the line continues the previous one,
      where the value starts, the name length, and what has been stored. */
  datatype Scan = Scan(first: nat, isKey: bool, inFolding: bool, value: nat, keyLen: nat,
                       headers: seq<Header>, last: Option<nat>, host: Option<nat>,
                       token: Token, length: Option<nat>)

  predicate IndicesOk(st: Scan)
  {
    (st.last.Some? ==> st.last.value < |st.headers|) &&
    (st.host.Some? ==> st.host.value < |st.headers|)
  }

  /** `http_host` points at a `Host` header. */
  predicate HostKeyOk(st: Scan)
    requires IndicesOk(st)
  {
    st.host.Some? ==> CaselessEq(st.headers[st.host.value].key, "Host")
  }

  predicate TokenRun(buf: string, a: nat, b: nat)
    requires a <= b <= |buf|
  {
    forall j :: a <= j < b ==> TokenChar(buf[j])
  }

  /** What holds of the scan state at index `i`: the line and the value
      start at or before `i`, the name lies before the value, and the
      indices of the last and the `Host` header are valid. */
  predicate ScanOk(buf: string, i: nat, st: Scan)
  {
    i <= |buf| && st.first <= i && IndicesOk(st) && HostKeyOk(st) &&
    (!st.isKey ==> st.first <= st.value <= i && st.first + st.keyLen <= st.value)
  }

  /** The names seen so far are well formed: those of the headers stored,
      the one being read (name characters up to `i`, or up to the ':' at
      `i`) and the one of the line being read. */
  predicate NamesOk(buf: string, i: nat, st: Scan)
    requires ScanOk(buf, i, st)
  {
    (forall j :: 0 <= j < |st.headers| ==> HeaderOk(st.headers[j])) &&
    (st.isKey ==> TokenRun(buf, st.first, i) || (i < |buf| && buf[i] == ':' && KeyOk(buf[st.first..i]))) &&
    (!st.isKey && !st.inFolding ==> KeyOk(buf[st.first..st.first + st.keyLen]))
  }

  /** The state at the start of a line. */
  function LineStart(st: Scan, first: nat): Scan
  {
    st.(first := first, isKey := true, inFolding := false, value := 0, keyLen := 0)
  }

  /** A `Connection` value the code acts on. */
  predicate Decisive(v: string)
  {
    CaselessEq(v, "keep-alive") || CaselessEq(v, "close")
  }

  /** The first value of a `Connection` header that is `keep-alive` or
      `close` decides; without one the previous decision stands. */
  function TokenOf(vals: seq<string>, prev: Token): (t: Token)
    ensures t == KeepAliveToken ==> prev == KeepAliveToken || exists j :: 0 <= j < |vals| && CaselessEq(vals[j], "keep-alive")
    ensures t == CloseToken ==> prev == CloseToken || exists j :: 0 <= j < |vals| && CaselessEq(vals[j], "close")
    ensures (forall j :: 0 <= j < |vals| ==> !CaselessEq(vals[j], "keep-alive") && !CaselessEq(vals[j], "close")) ==> t == prev
  {
    if |vals| == 0 then prev
    else if CaselessEq(vals[0], "keep-alive") then KeepAliveToken
    else if CaselessEq(vals[0], "close") then CloseToken
    else TokenOf(vals[1..], prev)
  }

  /** The first decisive value decides, whatever follows it. */
  lemma {:induction false} TokenOfFirstDecides(vals: seq<string>, prev: Token, j: nat)
    requires j < |vals| && Decisive(vals[j])
    requires forall m :: 0 <= m < j ==> !Decisive(vals[m])
    ensures TokenOf(vals, prev) == if CaselessEq(vals[j], "keep-alive") then KeepAliveToken else CloseToken
  {
    if j > 0 {
      assert !Decisive(vals[0]);
      TokenOfFirstDecides(vals[1..], prev, j - 1);
    }
  }

  /** `strtoul` on a string of digits: the value, or `ULONG_MAX` when it
      does not fit. */
  function StrToUl(cfg: Config, s: string): nat
    requires AllDigits(s)
  {
    if DigitsValue(s) > cfg.ulongMax then cfg.ulongMax else DigitsValue(s)
  }

  /** Storing a non-empty header line and acting on the names the code
      knows: `Connection`, `Content-Length`, `Expect` and `Host`. The chain
      of `buffer_caseless_compare` calls over the sorted names selects the
      name equal to the key, ignoring case. An error is the status to
      refuse with; every such refusal clears `keep_alive`. */
  function Store(cfg: Config, st: Scan, key: string, value: string): (r: Result<Scan, nat>)
    requires IndicesOk(st)
    ensures r.Ok? ==> IndicesOk(r.value) && r.value.headers == st.headers + [Header(key, value)]
    ensures r.Ok? ==> r.value.last == Some(|st.headers|)
    ensures r.Err? ==> r.error == 417 || r.error == 400
  {
    var n := |st.headers|;
    var stored := st.(headers := st.headers + [Header(key, value)], last := Some(n));
    CaselessNames(key);
    if CaselessEq(key, "Connection") then Ok(stored.(token := TokenOf(HeaderValues.Values(value), st.token)))
    else if CaselessEq(key, "Content-Length") then
      if !AllDigits(value) then Err(400) else Ok(stored.(length := Some(StrToUl(cfg, value))))
    else if CaselessEq(key, "Expect") then Err(417)
    else if CaselessEq(key, "Host") then Ok(stored.(host := Some(n)))
    else Ok(stored)
  }

  /** Which names are refused, with which status, and which of the
      request's `Host`, `Content-Length` and `Connection` records a stored
      line sets; every other record is kept. */
  lemma StoreMeaning(cfg: Config, st: Scan, key: string, value: string)
    requires IndicesOk(st)
    ensures var r := Store(cfg, st, key, value);
            (r.Err? <==> CaselessEq(key, "Expect") || (CaselessEq(key, "Content-Length") && !AllDigits(value))) &&
            (r.Err? ==> (r.error == 417 <==> CaselessEq(key, "Expect"))) &&
            (r.Ok? && CaselessEq(key, "Host") ==> r.value.host == Some(|st.headers|)) &&
            (r.Ok? && CaselessEq(key, "Content-Length") ==> r.value.length == Some(StrToUl(cfg, value))) &&
            (r.Ok? && !CaselessEq(key, "Host") ==> r.value.host == st.host) &&
            (r.Ok? && !CaselessEq(key, "Content-Length") ==> r.value.length == st.length) &&
            (r.Ok? && !CaselessEq(key, "Connection") ==> r.value.token == st.token)
  {
    CaselessNames(key);
  }

  /** The names the code acts on are pairwise different, ignoring case. */
  lemma CaselessNames(key: string)
    ensures !(CaselessEq(key, "Content-Length") && CaselessEq(key, "Connection"))
    ensures !(CaselessEq(key, "Expect") && (CaselessEq(key, "Connection") || CaselessEq(key, "Content-Length")))
    ensures !(CaselessEq(key, "Host") && (CaselessEq(key, "Connection") || CaselessEq(key, "Content-Length") || CaselessEq(key, "Expect")))
  {
  }

  /** A folded line is appended to the value of the last header stored. */
  function Fold(st: Scan, idx: nat, text: string): (r: Scan)
    requires idx < |st.headers|
    ensures |r.headers| == |st.headers| && r.headers[idx].key == st.headers[idx].key
    ensures r.headers[idx].value == st.headers[idx].value + text
    ensures forall j :: 0 <= j < |st.headers| && j != idx ==> r.headers[j] == st.headers[j]
    ensures r.last == st.last && r.host == st.host && r.token == st.token && r.length == st.length
    ensures r.first == st.first && r.isKey == st.isKey && r.inFolding == st.inFolding &&
            r.value == st.value && r.keyLen == st.keyLen
  {
    var h := st.headers[idx];
    st.(headers := st.headers[idx := Header(h.key, h.value + text)])
  }

  /** The first index at or after `j` that is not a space or tab; the
      terminating NUL bounds the search. */
  function SkipWs(buf: string, j: nat): (k: nat)
    requires Terminated(buf) && j < |buf|
    ensures j <= k < |buf| && !HeaderValues.IsWs(buf[k])
    ensures forall m :: j <= m < k ==> HeaderValues.IsWs(buf[m])
    decreases |buf| - j
  {
    if HeaderValues.IsWs(buf[j]) then SkipWs(buf, j + 1) else j
  }

  /** The name characters up to `i`, with blanks before the ':' at `j`, make
      a well-formed name. */
  lemma KeyWithBlanks(buf: string, a: nat, i: nat, j: nat)
    requires a <= i <= j <= |buf|
    requires TokenRun(buf, a, i)
    requires forall m :: i <= m < j ==> HeaderValues.IsWs(buf[m])
    ensures KeyOk(buf[a..j])
  {
    var k := buf[a..j];
    HeaderValues.UntilTrailingWsUnique(k, i - a);
  }

  /** The end of the second loop: a refusal, or the index it stopped at
      (past the empty line, or the end of the buffer) and the state. */
  datatype HeaderEnd = HeaderRefused(status: nat) | HeadersDone(end: nat, st: Scan)

  /** What the loop guarantees when it ends: `http_host` points at a
      `Host` header; a refusal is a 400 or, for an `Expect` header, a 417. */
  predicate EndOk(buf: string, r: HeaderEnd)
  {
    (r.HeadersDone? ==> IndicesOk(r.st) && HostKeyOk(r.st) && r.end <= |buf|) &&
    (r.HeaderRefused? ==> r.status == 400 || r.status == 417)
  }

  /** The second loop, from index `i` to the empty line or the end. The
      loop's body is `HeaderStep` with its two branches `KeyStep` and
      `LineEnd`; each goes on with the loop from the next index. */
  function ScanHeaders(cfg: Config, buf: string, i: nat, st: Scan): (r: HeaderEnd)
    requires Terminated(buf) && ScanOk(buf, i, st)
    ensures EndOk(buf, r)
    decreases |buf| - i, 3
  {
    if i == |buf| then HeadersDone(i, st) else HeaderStep(cfg, buf, i, st)
  }

  /** The second loop's body at index `i`. */
  function HeaderStep(cfg: Config, buf: string, i: nat, st: Scan): (r: HeaderEnd)
    requires Terminated(buf) && i < |buf| && ScanOk(buf, i, st)
    ensures EndOk(buf, r)
    decreases |buf| - i, 2
  {
    if st.isKey then KeyStep(cfg, buf, i, st)
    else if buf[i] == '\r' then LineEnd(cfg, buf, i, st)
    else if HeaderValues.IsWs(buf[i]) && st.value == i then ScanHeaders(cfg, buf, i + 1, st.(value := i + 1))
    else ScanHeaders(cfg, buf, i + 1, st)
  }

  /** A character of a field name: the ':' ends the name, a blank must be
      followed by more blanks and the ':' (or, first on the line, starts a
      continuation line), and a CR first on the line ends the headers. */
  function KeyStep(cfg: Config, buf: string, i: nat, st: Scan): (r: HeaderEnd)
    requires Terminated(buf) && i < |buf| && ScanOk(buf, i, st) && st.isKey
    ensures EndOk(buf, r)
    decreases |buf| - i, 0
  {
    var c := buf[i];
    if c == ':' then
      ScanHeaders(cfg, buf, i + 1, st.(isKey := false, value := i + 1, keyLen := i - st.first))
    else if Separator(c) then HeaderRefused(400)
    else if HeaderValues.IsWs(c) then
      if i == st.first then ScanHeaders(cfg, buf, i + 1, st.(isKey := false, inFolding := true, value := i, keyLen := 0))
      else
        var j := SkipWs(buf, i + 1);
        if buf[j] == ':' then ScanHeaders(cfg, buf, j, st)
        else HeaderRefused(400)
    else if c == '\r' then
      if buf[i + 1] == '\n' && i == st.first then HeadersDone(i + 2, st) else HeaderRefused(400)
    else if Ctl(c) then HeaderRefused(400)
    else ScanHeaders(cfg, buf, i + 1, st)
  }

  /** A CR in a value: with its LF it ends the line, which is appended to
      the previous header when it continues one and stored otherwise, unless
      its value is empty. */
  function LineEnd(cfg: Config, buf: string, i: nat, st: Scan): (r: HeaderEnd)
    requires Terminated(buf) && i < |buf| && ScanOk(buf, i, st) && !st.isKey && buf[i] == '\r'
    ensures EndOk(buf, r)
    decreases |buf| - i, 1
  {
    if buf[i + 1] != '\n' then HeaderRefused(400)
    else if st.inFolding then
      if st.last.None? then HeaderRefused(400)
      else
        var text := Host.UpToNul(buf[st.value..i]);
        FoldedOk(buf, i + 2, st, text);
        ScanHeaders(cfg, buf, i + 2, LineStart(Fold(st, st.last.value, text), i + 2))
    else if i - st.value > 0 then StoreEnd(cfg, buf, i, st)
    else ScanHeaders(cfg, buf, i + 2, LineStart(st, i + 2))
  }

  /** The end of a line that starts a header and has a value: the header is
      stored, or the request refused with the status `Store` gives. */
  function StoreEnd(cfg: Config, buf: string, i: nat, st: Scan): (r: HeaderEnd)
    requires Terminated(buf) && i + 1 < |buf| && ScanOk(buf, i, st) && !st.isKey && !st.inFolding && st.value < i
    ensures EndOk(buf, r)
    decreases |buf| - i, 0
  {
    var key := buf[st.first..st.first + st.keyLen];
    var value := buf[st.value..i];
    match Store(cfg, st, key, value)
    case Err(status) => HeaderRefused(status)
    case Ok(stored) =>
      StoredOk(cfg, buf, i + 2, st, key, value);
      ScanHeaders(cfg, buf, i + 2, LineStart(stored, i + 2))
  }

  /** Folding a line into the last header keeps the indices and the
      `Host` header. */
  lemma FoldedOk(buf: string, next: nat, st: Scan, text: string)
    requires next <= |buf| && IndicesOk(st) && HostKeyOk(st) && st.last.Some?
    ensures ScanOk(buf, next, LineStart(Fold(st, st.last.value, text), next))
  {
    var r := Fold(st, st.last.value, text);
    if r.host.Some? && r.host.value != st.last.value {
      assert r.headers[r.host.value] == st.headers[r.host.value];
    }
  }

  /** Storing a line keeps the indices, and `http_host` on a `Host` header. */
  lemma StoredOk(cfg: Config, buf: string, next: nat, st: Scan, key: string, value: string)
    requires next <= |buf| && IndicesOk(st) && HostKeyOk(st)
    requires Store(cfg, st, key, value).Ok?
    ensures ScanOk(buf, next, LineStart(Store(cfg, st, key, value).value, next))
  {
    var r := Store(cfg, st, key, value).value;
    StoreMeaning(cfg, st, key, value);
    if r.host.Some? && r.host != st.host {
      assert r.headers[r.host.value].key == key;
    } else if r.host.Some? {
      assert r.headers[r.host.value] == st.headers[r.host.value];
    }
  }

  /** Storing the line ends the scan with `Store`'s refusal, or goes on
      from the next line with the header stored. */
  predicate StoreEnds(cfg: Config, buf: string, q: nat, st: Scan, stored: Result<Scan, nat>)
    requires Terminated(buf) && q + 1 < |buf| && ScanOk(buf, q, st) && !st.isKey && !st.inFolding && st.value < q
  {
    (stored.Err? ==> StoreEnd(cfg, buf, q, st) == HeaderRefused(stored.error)) &&
    (stored.Ok? ==> ScanOk(buf, q + 2, LineStart(stored.value, q + 2)) &&
                    StoreEnd(cfg, buf, q, st) == ScanHeaders(cfg, buf, q + 2, LineStart(stored.value, q + 2)))
  }

  lemma StoreEndIs(cfg: Config, buf: string, q: nat, st: Scan)
    requires Terminated(buf) && q + 1 < |buf| && ScanOk(buf, q, st) && !st.isKey && !st.inFolding && st.value < q
    ensures StoreEnds(cfg, buf, q, st, Store(cfg, st, buf[st.first..st.first + st.keyLen], buf[st.value..q]))
  {
    var key := buf[st.first..st.first + st.keyLen];
    var value := buf[st.value..q];
    if Store(cfg, st, key, value).Ok? {
      StoredOk(cfg, buf, q + 2, st, key, value);
    }
  }

  /** What the loop stored, when it ended without a refusal: every header
      has a well-formed name and none is an `Expect` header. */
  predicate StoredNamesOk(r: HeaderEnd)
  {
    r.HeadersDone? ==> forall j :: 0 <= j < |r.st.headers| ==> HeaderOk(r.st.headers[j])
  }

  /** The loop keeps the names well formed: `ScanNames` and the four lemmas
      below follow `ScanHeaders` and its steps call by call. */
  lemma {:induction false} ScanNames(cfg: Config, buf: string, i: nat, st: Scan)
    requires Terminated(buf) && ScanOk(buf, i, st) && NamesOk(buf, i, st)
    ensures StoredNamesOk(ScanHeaders(cfg, buf, i, st))
    decreases |buf| - i, 3
  {
    if i < |buf| {
      HeaderStepNames(cfg, buf, i, st);
    }
  }

  lemma {:induction false} HeaderStepNames(cfg: Config, buf: string, i: nat, st: Scan)
    requires Terminated(buf) && i < |buf| && ScanOk(buf, i, st) && NamesOk(buf, i, st)
    ensures StoredNamesOk(HeaderStep(cfg, buf, i, st))
    decreases |buf| - i, 2
  {
    if st.isKey {
      KeyStepNames(cfg, buf, i, st);
    } else if buf[i] == '\r' {
      LineEndNames(cfg, buf, i, st);
    } else if HeaderValues.IsWs(buf[i]) && st.value == i {
      ScanNames(cfg, buf, i + 1, st.(value := i + 1));
    } else {
      ScanNames(cfg, buf, i + 1, st);
    }
  }

  lemma {:induction false} KeyStepNames(cfg: Config, buf: string, i: nat, st: Scan)
    requires Terminated(buf) && i < |buf| && ScanOk(buf, i, st) && NamesOk(buf, i, st) && st.isKey
    ensures StoredNamesOk(KeyStep(cfg, buf, i, st))
    decreases |buf| - i, 0
  {
    var c := buf[i];
    if c == ':' {
      if TokenRun(buf, st.first, i) { KeyWithBlanks(buf, st.first, i, i); }
      ScanNames(cfg, buf, i + 1, st.(isKey := false, value := i + 1, keyLen := i - st.first));
    } else if Separator(c) {
    } else if HeaderValues.IsWs(c) {
      if i == st.first {
        ScanNames(cfg, buf, i + 1, st.(isKey := false, inFolding := true, value := i, keyLen := 0));
      } else {
        var j := SkipWs(buf, i + 1);
        if buf[j] == ':' {
          KeyWithBlanks(buf, st.first, i, j);
          ScanNames(cfg, buf, j, st);
        }
      }
    } else if c == '\r' {
    } else if Ctl(c) {
    } else {
      ScanNames(cfg, buf, i + 1, st);
    }
  }

  lemma {:induction false} LineEndNames(cfg: Config, buf: string, i: nat, st: Scan)
    requires Terminated(buf) && i < |buf| && ScanOk(buf, i, st) && NamesOk(buf, i, st) && !st.isKey && buf[i] == '\r'
    ensures StoredNamesOk(LineEnd(cfg, buf, i, st))
    decreases |buf| - i, 1
  {
    if buf[i + 1] != '\n' {
    } else if st.inFolding {
      if st.last.Some? {
        var text := Host.UpToNul(buf[st.value..i]);
        FoldedNames(st, st.last.value, text);
        FoldedOk(buf, i + 2, st, text);
        ScanNames(cfg, buf, i + 2, LineStart(Fold(st, st.last.value, text), i + 2));
      }
    } else if i - st.value > 0 {
      StoreEndNames(cfg, buf, i, st);
    } else {
      ScanNames(cfg, buf, i + 2, LineStart(st, i + 2));
    }
  }

  lemma {:induction false} StoreEndNames(cfg: Config, buf: string, i: nat, st: Scan)
    requires Terminated(buf) && i + 1 < |buf| && ScanOk(buf, i, st) && NamesOk(buf, i, st)
    requires !st.isKey && !st.inFolding && st.value < i
    ensures StoredNamesOk(StoreEnd(cfg, buf, i, st))
    decreases |buf| - i, 0
  {
    var key := buf[st.first..st.first + st.keyLen];
    var value := buf[st.value..i];
    StoreEndIs(cfg, buf, i, st);
    if Store(cfg, st, key, value).Ok? {
      StoredNames(cfg, st, key, value);
      ScanNames(cfg, buf, i + 2, LineStart(Store(cfg, st, key, value).value, i + 2));
    }
  }

  /** Folding a line into a header keeps its name. */
  lemma FoldedNames(st: Scan, idx: nat, text: string)
    requires idx < |st.headers| && forall j :: 0 <= j < |st.headers| ==> HeaderOk(st.headers[j])
    ensures forall j :: 0 <= j < |Fold(st, idx, text).headers| ==> HeaderOk(Fold(st, idx, text).headers[j])
  {
    var r := Fold(st, idx, text);
    forall j | 0 <= j < |r.headers| ensures HeaderOk(r.headers[j]) {
      if j != idx { assert r.headers[j] == st.headers[j]; }
    }
  }

  /** A stored line with a well-formed name keeps the names well formed. */
  lemma StoredNames(cfg: Config, st: Scan, key: string, value: string)
    requires IndicesOk(st) && KeyOk(key) && forall j :: 0 <= j < |st.headers| ==> HeaderOk(st.headers[j])
    requires Store(cfg, st, key, value).Ok?
    ensures forall j :: 0 <= j < |Store(cfg, st, key, value).value.headers| ==> HeaderOk(Store(cfg, st, key, value).value.headers[j])
  {
    var r := Store(cfg, st, key, value).value;
    StoreMeaning(cfg, st, key, value);
    forall j | 0 <= j < |r.headers| ensures HeaderOk(r.headers[j]) {
      if j < |st.headers| { assert r.headers[j] == st.headers[j]; }
    }
  }

  function InitialScan(first: nat): Scan
  {
    Scan(first, true, false, 0, 0, [], None, None, NoToken, None)
  }

  /* ----- after the headers ----- */

  /** The value `http_host` points at, if a `Host` header was stored. */
  function HostValue(st: Scan): (r: Option<string>)
    requires IndicesOk(st) && HostKeyOk(st)
    ensures r.Some? <==> st.host.Some?
    ensures r.Some? ==> exists j :: 0 <= j < |st.headers| && CaselessEq(st.headers[j].key, "Host") && st.headers[j].value == r.value
  {
    if st.host.Some? then Some(st.headers[st.host.value].value) else None
  }

  /** The checks after the header loop, in the order the code makes them:
      the `Host` header, the body length of a POST. */
  function Finish(cfg: Config, verb: string, version: Version, uri: string, end: nat, st: Scan): Outcome
    requires IndicesOk(st) && HostKeyOk(st)
  {
    var keep := if version == Http11 then st.token != CloseToken else st.token == KeepAliveToken;
    var host := HostValue(st);
    if version == Http11 && (host.None? || host.value == "") then Rejected(400, Some(false))
    else if !Host.CheckHostname(host) then Rejected(400, Some(false))
    else if verb == "POST" && st.length.None? then Rejected(411, Some(keep))
    else if verb == "POST" && st.length.value > cfg.ssizeMax then Rejected(413, Some(keep))
    else if verb == "POST" && cfg.maxRequestSize != 0 && st.length.value / 1024 > cfg.maxRequestSize then
      Rejected(413, Some(keep))
    else
      Accepted(Request(verb, version, uri, st.headers, host, st.token, st.length, end), keep,
               verb == "POST" && st.length.value != 0)
  }

  /** What the checks after the header loop promise of their outcome `r`:
      an accepted request holds what the scan stored; HTTP/1.1 needs a
      non-empty `Host`, every `Host` must pass the hostname check, and a POST
      needs a length within the configured limits, or is refused with 411 or
      413; the connection is kept alive as the version and the `Connection`
      token say. */
  predicate FinishOk(cfg: Config, verb: string, version: Version, uri: string, end: nat, st: Scan, r: Outcome)
    requires IndicesOk(st) && HostKeyOk(st)
  {
    var keep := if version == Http11 then st.token != CloseToken else st.token == KeepAliveToken;
    (r.Accepted? || r.Rejected?) &&
    (r.Accepted? ==> r.request == Request(verb, version, uri, st.headers, HostValue(st), st.token, st.length, end)) &&
    (r.Rejected? ==> r.status in {400, 411, 413}) &&
    (r.Rejected? && r.status == 400 ==> r.keepAliveSet == Some(false)) &&
    (r.Accepted? ==> r.keepAlive == keep) &&
    (r.Rejected? && r.status != 400 ==> r.keepAliveSet == Some(keep)) &&
    (version == Http11 && (HostValue(st).None? || HostValue(st).value == "") ==> r == Rejected(400, Some(false))) &&
    (!Host.CheckHostname(HostValue(st)) ==> r == Rejected(400, Some(false))) &&
    (r.Accepted? ==> (r.readBody <==> verb == "POST" && st.length.Some? && st.length.value > 0)) &&
    (r.Accepted? && verb == "POST" ==>
       st.length.Some? && st.length.value <= cfg.ssizeMax &&
       (cfg.maxRequestSize != 0 ==> st.length.value / 1024 <= cfg.maxRequestSize)) &&
    (verb == "POST" && st.length.None? && r.Rejected? ==> r.status == 400 || r.status == 411)
  }

  lemma FinishMeaning(cfg: Config, verb: string, version: Version, uri: string, end: nat, st: Scan)
    requires IndicesOk(st) && HostKeyOk(st)
    ensures FinishOk(cfg, verb, version, uri, end, st, Finish(cfg, verb, version, uri, end, st))
  {
  }

  /* ----- the whole parse ----- */

  /** What every accepted request satisfies. */
  predicate AcceptedOk(cfg: Config, r: Outcome)
    requires r.Accepted?
  {
    var q := r.request;
    var length := q.contentLength;
    q.verb in cfg.methods && UriChars.UriValid(q.uri) &&
    (q.version == Http11 ==> cfg.allowHttp11 && q.host.Some? && q.host.value != "") &&
    Host.CheckHostname(q.host) &&
    (q.host.Some? ==> exists j :: 0 <= j < |q.headers| && CaselessEq(q.headers[j].key, "Host") && q.headers[j].value == q.host.value) &&
    (forall j :: 0 <= j < |q.headers| ==> HeaderOk(q.headers[j])) &&
    r.keepAlive == (if q.version == Http11 then q.connection != CloseToken else q.connection == KeepAliveToken) &&
    (r.readBody <==> q.verb == "POST" && length.Some? && length.value > 0) &&
    (q.verb == "POST" ==> length.Some? && length.value <= cfg.ssizeMax &&
                          (cfg.maxRequestSize != 0 ==> length.value / 1024 <= cfg.maxRequestSize))
  }

  /** What every outcome of the parse satisfies: the statuses it refuses
      with, when it tells the connection to close, and `AcceptedOk` for an
      accepted request. */
  predicate OutcomeOk(cfg: Config, r: Outcome)
  {
    (r.Rejected? ==> r.status in {400, 411, 413, 417, 501, 505}) &&
    (r.Rejected? && r.status in {400, 417, 501} ==> r.keepAliveSet == Some(false)) &&
    (r.Rejected? && r.status == 505 ==> r.keepAliveSet == None) &&
    (r.Accepted? ==> AcceptedOk(cfg, r))
  }

  /** `http_request_parse` on a request buffer `req` of a connection that
      has served `requestCount` requests. */
  function Parse(cfg: Config, req: string, requestCount: nat): Outcome
  {
    ParseBuf(cfg, ParseBuffer(req, requestCount))
  }

  /** The parse waits for more input exactly when no CRLF ends the request
      line and it has at most two spaces; a line with other than two spaces
      is a 400 and an unknown method a 501; every outcome is `OutcomeOk`. */
  lemma ParseMeaning(cfg: Config, req: string, requestCount: nat)
    ensures var buf := ParseBuffer(req, requestCount);
            var k := FindCrlf(buf, 0);
            (Parse(cfg, req, requestCount) == Unterminated <==> k == |buf| && Count(buf, ' ') <= 2) &&
            (k < |buf| && Count(buf[..k], ' ') != 2 ==> Parse(cfg, req, requestCount) == Rejected(400, Some(false))) &&
            (k == |buf| && Count(buf, ' ') > 2 ==> Parse(cfg, req, requestCount) == Rejected(400, Some(false))) &&
            (k < |buf| && Count(buf[..k], ' ') == 2 && Host.UpToNul(buf[..FirstIndexOf(buf, ' ')]) !in cfg.methods ==>
               Parse(cfg, req, requestCount) == Rejected(501, Some(false)))
    ensures OutcomeOk(cfg, Parse(cfg, req, requestCount))
  {
    var buf := ParseBuffer(req, requestCount);
    RequestLine.RequestLineMeaning(buf);
    match RequestLine.RequestLine(buf)
    case NoCrlf =>
    case BadLine =>
    case Line(s1, s2, k) =>
      AfterLineMeaning(cfg, buf, s1, s2, k);
  }

  /** The parse of the buffer once a leftover CRLF is dropped. */
  function ParseBuf(cfg: Config, buf: string): Outcome
    requires Terminated(buf)
  {
    RequestLine.RequestLineMeaning(buf);
    match RequestLine.RequestLine(buf)
    case NoCrlf => Unterminated
    case BadLine => Rejected(400, Some(false))
    case Line(s1, s2, k) => AfterLine(cfg, buf, s1, s2, k)
  }

  /** Everything after the request line was found with its spaces at `s1`
      and `s2` and its CRLF at `k`. */
  function AfterLine(cfg: Config, buf: string, s1: nat, s2: nat, k: nat): Outcome
    requires Terminated(buf) && s1 < s2 < k && k + 2 <= |buf|
  {
    match LineFieldsOf(cfg, buf, s1, s2, k)
    case LineRefused(status, keepAlive) => Rejected(status, keepAlive)
    case Fields(verb, version, uri) => AfterFields(cfg, buf, k, verb, version, uri)
  }

  /** The header loop from the line after the CRLF at `k`, then the checks
      after it, for a request line with the given fields. */
  function AfterFields(cfg: Config, buf: string, k: nat, verb: string, version: Version, uri: string): Outcome
    requires Terminated(buf) && k + 2 <= |buf|
  {
    match ScanHeaders(cfg, buf, k + 2, InitialScan(k + 2))
    case HeaderRefused(status) => Rejected(status, Some(false))
    case HeadersDone(end, st) => Finish(cfg, verb, version, uri, end, st)
  }

  /** After a request line, an unknown method is a 501, the parse never
      waits for more input, and the outcome is `OutcomeOk`. */
  lemma AfterLineMeaning(cfg: Config, buf: string, s1: nat, s2: nat, k: nat)
    requires Terminated(buf) && s1 < s2 < k && k + 2 <= |buf|
    ensures Host.UpToNul(buf[..s1]) !in cfg.methods ==> AfterLine(cfg, buf, s1, s2, k) == Rejected(501, Some(false))
    ensures !AfterLine(cfg, buf, s1, s2, k).Unterminated?
    ensures OutcomeOk(cfg, AfterLine(cfg, buf, s1, s2, k))
  {
    LineFieldsMeaning(cfg, buf, s1, s2, k);
    match LineFieldsOf(cfg, buf, s1, s2, k)
    case LineRefused(status, keepAlive) =>
    case Fields(verb, version, uri) => AfterFieldsMeaning(cfg, buf, k, verb, version, uri);
  }

  /** Once the request line has given its fields, every outcome is
      `OutcomeOk`. */
  lemma AfterFieldsMeaning(cfg: Config, buf: string, k: nat, verb: string, version: Version, uri: string)
    requires Terminated(buf) && k + 2 <= |buf|
    requires verb in cfg.methods && UriChars.UriValid(uri) && (version == Http11 ==> cfg.allowHttp11)
    ensures OutcomeOk(cfg, AfterFields(cfg, buf, k, verb, version, uri))
  {
    match ScanHeaders(cfg, buf, k + 2, InitialScan(k + 2))
    case HeaderRefused(status) =>
    case HeadersDone(end, st) =>
      ScanNames(cfg, buf, k + 2, InitialScan(k + 2));
      FinishMeaning(cfg, verb, version, uri, end, st);
  }
}

=== FILE: requestline.dfy ===
/** The first loop of `http_request_parse` (request.c): the scan of the
    request line `<method> <uri> <protocol>\r\n` for its two spaces and its
    CRLF. The buffer is the request text followed by its terminating NUL, as
    the loop runs up to `used`. `RequestLine` states the outcome in terms of
    the first CRLF and the number of spaces before it. */
module RequestLine {

  import opened Strings

  /** A buffer as lighttpd holds it: the text and its terminating NUL. */
  predicate Terminated(buf: string) { |buf| > 0 && buf[|buf| - 1] == '\0' }

  predicate CrlfAt(buf: string, k: nat) { k + 1 < |buf| && buf[k] == '\r' && buf[k + 1] == '\n' }

  /** The first CRLF at or after `i`, or `|buf|`. */
  function FindCrlf(buf: string, i: nat): (k: nat)
    requires i <= |buf|
    ensures i <= k <= |buf|
    ensures k < |buf| ==> CrlfAt(buf, k)
    ensures forall j :: i <= j < k ==> !CrlfAt(buf, j)
    decreases |buf| - i
  {
    if i == |buf| || CrlfAt(buf, i) then i else FindCrlf(buf, i + 1)
  }

  predicate NoSpace(buf: string, a: nat, b: nat)
    requires a <= b <= |buf|
  {
    forall j :: a <= j < b ==> buf[j] != ' '
  }

  /** The outcome of the loop: no CRLF met, a 400 for a line with other
      than two spaces, or the positions of the two spaces and of the CRLF. */
  datatype LineScan = NoCrlf | BadLine | Line(methodEnd: nat, uriEnd: nat, crlf: nat)

  /** The loop from index `i`: `stage` is `request_line_stage` and `s1`, `s2`
      the spaces met so far. A CR not followed by LF is an ordinary
      character here. */
  function ScanLine(buf: string, i: nat, stage: nat, s1: nat, s2: nat): LineScan
    requires Terminated(buf) && i <= |buf| && stage <= 2
    decreases |buf| - i
  {
    if i == |buf| then NoCrlf
    else if buf[i] == '\r' && buf[i + 1] == '\n' then
      if stage != 2 then BadLine else Line(s1, s2, i)
    else if buf[i] == ' ' then
      if stage == 0 then ScanLine(buf, i + 1, 1, i, s2)
      else if stage == 1 then ScanLine(buf, i + 1, 2, s1, i)
      else BadLine
    else ScanLine(buf, i + 1, stage, s1, s2)
  }

  /** The two spaces of a request line ending at `k`, and no others. */
  predicate SpacesAt(buf: string, s1: nat, s2: nat, k: nat)
    requires k <= |buf|
  {
    s1 < s2 < k && buf[s1] == ' ' && buf[s2] == ' ' &&
    NoSpace(buf, 0, s1) && NoSpace(buf, s1 + 1, s2) && NoSpace(buf, s2 + 1, k)
  }

  lemma CountSnoc(buf: string, i: nat)
    requires i < |buf|
    ensures Count(buf[..i + 1], ' ') == Count(buf[..i], ' ') + (if buf[i] == ' ' then 1 else 0)
  {
    assert buf[..i + 1] == buf[..i] + [buf[i]];
    CountAppend(buf[..i], [buf[i]], ' ');
    assert [buf[i]][1..] == [];
  }

  /** Counting over a longer prefix never counts fewer. */
  lemma {:induction false} CountMono(buf: string, i: nat, k: nat)
    requires i <= k <= |buf|
    ensures Count(buf[..i], ' ') <= Count(buf[..k], ' ')
    decreases k - i
  {
    if i < k {
      CountSnoc(buf, i);
      CountMono(buf, i + 1, k);
    }
  }

  /** The loop from `i`, with the spaces before `i` as recorded, ends as
      the first CRLF and the space count say. */
  lemma {:induction false} ScanLineMeaning(buf: string, i: nat, stage: nat, s1: nat, s2: nat)
    requires Terminated(buf) && i <= FindCrlf(buf, 0) && stage <= 2
    requires stage == Count(buf[..i], ' ')
    requires stage == 0 ==> NoSpace(buf, 0, i)
    requires stage == 1 ==> s1 < i && buf[s1] == ' ' && NoSpace(buf, 0, s1) && NoSpace(buf, s1 + 1, i)
    requires stage == 2 ==> s1 < s2 < i && buf[s1] == ' ' && buf[s2] == ' ' &&
                            NoSpace(buf, 0, s1) && NoSpace(buf, s1 + 1, s2) && NoSpace(buf, s2 + 1, i)
    ensures var r := ScanLine(buf, i, stage, s1, s2);
            var k := FindCrlf(buf, 0);
            (r.Line? <==> k < |buf| && Count(buf[..k], ' ') == 2) &&
            (r.NoCrlf? <==> k == |buf| && Count(buf, ' ') <= 2) &&
            (r.Line? ==> r.crlf == k && SpacesAt(buf, r.methodEnd, r.uriEnd, k))
    decreases |buf| - i
  {
    var k := FindCrlf(buf, 0);
    if i == |buf| {
      assert buf[..i] == buf;
    } else if buf[i] == '\r' && buf[i + 1] == '\n' {
      assert CrlfAt(buf, i);
      assert i == k;
    } else {
      assert i < k;
      CountSnoc(buf, i);
      if buf[i] == ' ' && stage == 2 {
        CountMono(buf, i + 1, k);
        assert k == |buf| ==> buf[..k] == buf;
      } else {
        var stage' := if buf[i] == ' ' then stage + 1 else stage;
        var s1' := if buf[i] == ' ' && stage == 0 then i else s1;
        var s2' := if buf[i] == ' ' && stage == 1 then i else s2;
        ScanLineMeaning(buf, i + 1, stage', s1', s2');
      }
    }
  }

  /** The request line of `buf`: the loop from the start of the buffer
      with no space met. */
  function RequestLine(buf: string): LineScan
    requires Terminated(buf)
  {
    ScanLine(buf, 0, 0, 0, 0)
  }

  /** The request line is well formed exactly when a CRLF ends it and
      exactly two spaces lie before that CRLF; without a CRLF the loop runs
      off the end unless a third space is met first. */
  lemma RequestLineMeaning(buf: string)
    requires Terminated(buf)
    ensures var r := RequestLine(buf);
            var k := FindCrlf(buf, 0);
            (r.Line? <==> k < |buf| && Count(buf[..k], ' ') == 2) &&
            (r.NoCrlf? <==> k == |buf| && Count(buf, ' ') <= 2) &&
            (r.Line? ==> r.crlf == k && SpacesAt(buf, r.methodEnd, r.uriEnd, k))
  {
    assert buf[..0] == [];
    ScanLineMeaning(buf, 0, 0, 0, 0);
  }
}

=== FILE: requestprops.dfy ===
/** Properties of `http_request_parse` that relate several steps: the scan
    of one header line, and whole requests built from their parts, which
    the parser takes apart again into the method, URI, version and headers
    they were built from. */
module RequestProps {

  import opened Wrappers
  import opened Strings
  import opened RequestLine
  import opened Request
  import HeaderValues
  import UriChars
  import Host

  /* ----- the request line ----- */

  /** `FindCrlf` is pinned down by the first CRLF. */
  lemma {:induction false} FindCrlfIs(buf: string, i: nat, k: nat)
    requires i <= k && CrlfAt(buf, k)
    requires forall j :: i <= j < k ==> !CrlfAt(buf, j)
    ensures FindCrlf(buf, i) == k
    decreases k - i
  {
    if i < k {
      FindCrlfIs(buf, i + 1, k);
    }
  }

  lemma NoNul(s: string)
    requires '\0' !in s
    ensures Host.UpToNul(s) == s
  {
    assert forall j :: 0 <= j < |s| ==> s[j] != '\0';
  }

  /** The request line `m u proto`, its fields free of spaces and CRs. */
  function LineText(m: string, u: string, proto: string): string
  {
    m + " " + u + " " + proto
  }

  /** The protocol field naming a version. */
  function Protocol(v: Version): string
  {
    if v == Http11 then "HTTP/1.1" else "HTTP/1.0"
  }

  /** A request: its line, then the rest of the text. */
  function RequestText(m: string, u: string, proto: string, rest: string): string
  {
    LineText(m, u, proto) + "\r\n" + rest
  }

  /** A line of three fields separated by single spaces and ended by CRLF is
      found with its spaces after the first and second field. */
  lemma LineOf(m: string, u: string, proto: string, rest: string)
    requires ' ' !in m && ' ' !in u && ' ' !in proto
    requires '\r' !in m && '\r' !in u && '\r' !in proto
    ensures RequestLine.RequestLine(RequestText(m, u, proto, rest) + ['\0']) == Line(|m|, |m| + 1 + |u|, |m| + |u| + 2 + |proto|)
  {
    var line := LineText(m, u, proto);
    var req := RequestText(m, u, proto, rest);
    var buf := req + ['\0'];
    var k := |m| + |u| + 2 + |proto|;
    assert |line| == k;
    assert forall j :: 0 <= j < k ==> buf[j] == line[j];
    assert line[..|m|] == m && line[|m|] == ' ';
    assert line[|m| + 1..|m| + 1 + |u|] == u && line[|m| + 1 + |u|] == ' ';
    assert line[|m| + |u| + 2..] == proto;
    assert forall j :: 0 <= j < k ==> line[j] != '\r' by {
      forall j | 0 <= j < k ensures line[j] != '\r' {
        if j < |m| { assert line[j] == m[j]; }
        else if |m| < j < |m| + 1 + |u| { assert line[j] == u[j - |m| - 1]; }
        else if |m| + 1 + |u| < j { assert line[j] == proto[j - |m| - |u| - 2]; }
      }
    }
    assert buf[k] == '\r' && buf[k + 1] == '\n';
    FindCrlfIs(buf, 0, k);
    assert buf[..k] == line;
    LineSpaces(m, u, proto);
    RequestLine.RequestLineMeaning(buf);
    var r := RequestLine.RequestLine(buf);
    assert r.Line? && r.crlf == k;
    assert buf[|m|] == ' ' && buf[|m| + 1 + |u|] == ' ';
    assert forall j :: 0 <= j < |m| ==> buf[j] != ' ' by {
      forall j | 0 <= j < |m| ensures buf[j] != ' ' { assert buf[j] == m[j]; }
    }
    assert forall j :: |m| < j < |m| + 1 + |u| ==> buf[j] != ' ' by {
      forall j | |m| < j < |m| + 1 + |u| ensures buf[j] != ' ' { assert buf[j] == u[j - |m| - 1]; }
    }
  }

  /** A request that does not start with CR is parsed as it stands, with
      the NUL after it. */
  lemma BufferOf(m: string, u: string, proto: string, rest: string, n: nat)
    requires '\r' !in m
    ensures ParseBuffer(RequestText(m, u, proto, rest), n) == RequestText(m, u, proto, rest) + ['\0']
  {
    var req := RequestText(m, u, proto, rest);
    if |m| > 0 { assert req[0] == m[0]; } else { assert req[0] == ' '; }
  }

  /** The line holds exactly its two separating spaces. */
  lemma LineSpaces(m: string, u: string, proto: string)
    requires ' ' !in m && ' ' !in u && ' ' !in proto
    ensures Count(LineText(m, u, proto), ' ') == 2
  {
    NoneCounted(m, ' ');
    NoneCounted(u, ' ');
    NoneCounted(proto, ' ');
    CountAppend(m, " ", ' ');
    CountAppend(m + " ", u, ' ');
    CountAppend(m + " " + u, " ", ' ');
    CountAppend(m + " " + u + " ", proto, ' ');
  }

  /* ----- header lines ----- */

  /** Name characters leave the scan state alone. */
  lemma {:induction false} KeyRun(cfg: Config, buf: string, i: nat, j: nat, st: Scan)
    requires Terminated(buf) && i <= j < |buf| && ScanOk(buf, i, st) && st.isKey
    requires forall m :: i <= m < j ==> TokenChar(buf[m])
    ensures ScanOk(buf, j, st) && ScanHeaders(cfg, buf, i, st) == ScanHeaders(cfg, buf, j, st)
    decreases j - i
  {
    if i < j {
      TokenStep(cfg, buf, i, st);
      KeyRun(cfg, buf, i + 1, j, st);
    }
  }

  lemma TokenStep(cfg: Config, buf: string, i: nat, st: Scan)
    requires Terminated(buf) && i < |buf| && ScanOk(buf, i, st) && st.isKey && TokenChar(buf[i])
    ensures ScanHeaders(cfg, buf, i, st) == ScanHeaders(cfg, buf, i + 1, st)
  {
    assert ScanHeaders(cfg, buf, i, st) == KeyStep(cfg, buf, i, st);
  }

  /** Value characters that are neither blanks nor CRs leave it alone too. */
  lemma {:induction false} ValueRun(cfg: Config, buf: string, i: nat, j: nat, st: Scan)
    requires Terminated(buf) && i <= j < |buf| && ScanOk(buf, i, st) && !st.isKey
    requires forall m :: i <= m < j ==> buf[m] != '\r' && !HeaderValues.IsWs(buf[m])
    ensures ScanOk(buf, j, st) && ScanHeaders(cfg, buf, i, st) == ScanHeaders(cfg, buf, j, st)
    decreases j - i
  {
    if i < j {
      assert ScanHeaders(cfg, buf, i, st) == HeaderStep(cfg, buf, i, st);
      ValueRun(cfg, buf, i + 1, j, st);
    }
  }

  /** A value of one word: no blanks, no CR. */
  predicate Word(v: string)
  {
    |v| > 0 && forall j :: 0 <= j < |v| ==> v[j] != '\r' && !HeaderValues.IsWs(v[j])
  }

  /** A field name: name characters only. */
  predicate Name(key: string)
  {
    |key| > 0 && forall j :: 0 <= j < |key| ==> TokenChar(key[j])
  }

  /** The text of the header line `key: value`. */
  function HeaderText(key: string, value: string): string
  {
    key + ": " + value + "\r\n"
  }

  /** The scan from `i` with state `st` ends as storing a line ends: with
      the refusal `stored` holds, or by going on at `e` from the state with
      the header stored. */
  predicate LineEnds(cfg: Config, buf: string, i: nat, st: Scan, e: nat, stored: Result<Scan, nat>)
    requires Terminated(buf) && ScanOk(buf, i, st) && e <= |buf|
  {
    (stored.Err? ==> ScanHeaders(cfg, buf, i, st) == HeaderRefused(stored.error)) &&
    (stored.Ok? ==> ScanOk(buf, e, LineStart(stored.value, e)) &&
                    ScanHeaders(cfg, buf, i, st) == ScanHeaders(cfg, buf, e, LineStart(stored.value, e)))
  }

  /** A header line `key: value` at the start of a line is stored as the
      header (key, value), or refused as `Store` refuses it, and the scan goes
      on at the next line. */
  lemma HeaderLine(cfg: Config, buf: string, i: nat, st: Scan, key: string, value: string)
    requires Terminated(buf) && ScanOk(buf, i, st) && st.isKey && !st.inFolding && st.first == i
    requires Name(key) && Word(value)
    requires i + |HeaderText(key, value)| < |buf| && buf[i..i + |HeaderText(key, value)|] == HeaderText(key, value)
    ensures LineEnds(cfg, buf, i, st, i + |HeaderText(key, value)|, Store(cfg, st, key, value))
  {
    var p := i + |key|;
    var q := p + 2 + |value|;
    var st2 := st.(isKey := false, value := p + 2, keyLen := p - i);
    HeaderLineToCr(cfg, buf, i, st, key, value);
    HeaderChars(buf, i, key, value);
    StoreStep(cfg, buf, q, st2, st, key, value);
    assert i + |HeaderText(key, value)| == q + 2;
  }

  /** The scan of a header line up to its CR: the name is read, and the
      value starts after the blank that follows the ':'. */
  lemma HeaderLineToCr(cfg: Config, buf: string, i: nat, st: Scan, key: string, value: string)
    requires Terminated(buf) && ScanOk(buf, i, st) && st.isKey && !st.inFolding && st.first == i
    requires Name(key) && Word(value)
    requires i + |HeaderText(key, value)| < |buf| && buf[i..i + |HeaderText(key, value)|] == HeaderText(key, value)
    ensures var p := i + |key|;
            var q := p + 2 + |value|;
            var st2 := st.(isKey := false, value := p + 2, keyLen := p - i);
            ScanOk(buf, q, st2) && ScanHeaders(cfg, buf, i, st) == ScanHeaders(cfg, buf, q, st2)
  {
    var p := i + |key|;
    var q := p + 2 + |value|;
    HeaderChars(buf, i, key, value);
    assert forall m :: i <= m < p ==> TokenChar(buf[m]) by {
      forall m | i <= m < p ensures TokenChar(buf[m]) { assert buf[m] == buf[i..p][m - i] == key[m - i]; }
    }
    assert forall m :: p + 2 <= m < q ==> buf[m] != '\r' && !HeaderValues.IsWs(buf[m]) by {
      forall m | p + 2 <= m < q ensures buf[m] != '\r' && !HeaderValues.IsWs(buf[m]) {
        assert buf[m] == buf[p + 2..q][m - p - 2] == value[m - p - 2];
      }
    }
    KeyRun(cfg, buf, i, p, st);
    ColonSteps(cfg, buf, p, st);
    var st2 := st.(isKey := false, value := p + 2, keyLen := p - i);
    ValueRun(cfg, buf, p + 2, q, st2);
  }

  /** Where the parts of a header line lie in the buffer. */
  lemma HeaderChars(buf: string, i: nat, key: string, value: string)
    requires i + |HeaderText(key, value)| <= |buf| && buf[i..i + |HeaderText(key, value)|] == HeaderText(key, value)
    ensures var p := i + |key|;
            var q := p + 2 + |value|;
            buf[i..p] == key && buf[p + 2..q] == value &&
            buf[p] == ':' && buf[p + 1] == ' ' && buf[q] == '\r' && buf[q + 1] == '\n'
  {
    var line := HeaderText(key, value);
    var p := i + |key|;
    var q := p + 2 + |value|;
    assert forall m :: 0 <= m < |line| ==> buf[i + m] == line[m];
    assert line[..|key|] == key;
    assert line[|key| + 2..|key| + 2 + |value|] == value;
    assert buf[i..p] == line[..|key|];
    assert buf[p + 2..q] == line[|key| + 2..|key| + 2 + |value|];
    assert buf[p] == line[|key|] && buf[p + 1] == line[|key| + 1];
    assert buf[q] == line[|key| + 2 + |value|] && buf[q + 1] == line[|key| + 3 + |value|];
  }

  /** The ':' and the blank after it start the value after the blank. */
  lemma ColonSteps(cfg: Config, buf: string, p: nat, st: Scan)
    requires Terminated(buf) && p + 1 < |buf| && ScanOk(buf, p, st) && st.isKey
    requires buf[p] == ':' && buf[p + 1] == ' '
    ensures var st2 := st.(isKey := false, value := p + 2, keyLen := p - st.first);
            ScanOk(buf, p + 2, st2) && ScanHeaders(cfg, buf, p, st) == ScanHeaders(cfg, buf, p + 2, st2)
  {
    var st1 := st.(isKey := false, value := p + 1, keyLen := p - st.first);
    assert ScanHeaders(cfg, buf, p, st) == KeyStep(cfg, buf, p, st);
    assert KeyStep(cfg, buf, p, st) == ScanHeaders(cfg, buf, p + 1, st1);
    assert ScanHeaders(cfg, buf, p + 1, st1) == HeaderStep(cfg, buf, p + 1, st1);
  }

  /** The CRLF after a non-empty value stores the header. */
  lemma StoreStep(cfg: Config, buf: string, q: nat, st: Scan, st0: Scan, key: string, value: string)
    requires Terminated(buf) && q + 1 < |buf| && ScanOk(buf, q, st) && !st.isKey && !st.inFolding
    requires buf[q] == '\r' && buf[q + 1] == '\n' && q > st.value
    requires buf[st.first..st.first + st.keyLen] == key && buf[st.value..q] == value
    requires IndicesOk(st0) && st.headers == st0.headers && st.last == st0.last && st.host == st0.host
    requires st.token == st0.token && st.length == st0.length
    ensures LineEnds(cfg, buf, q, st, q + 2, Store(cfg, st0, key, value))
  {
    CrStores(cfg, buf, q, st);
    StoreEndIs(cfg, buf, q, st);
    StoreLineStart(cfg, st0, st, key, value, q + 2);
  }

  /** A CR with its LF after a value of a line that starts a header. */
  lemma CrStores(cfg: Config, buf: string, q: nat, st: Scan)
    requires Terminated(buf) && q + 1 < |buf| && ScanOk(buf, q, st) && !st.isKey && !st.inFolding
    requires buf[q] == '\r' && buf[q + 1] == '\n' && q > st.value
    ensures ScanHeaders(cfg, buf, q, st) == StoreEnd(cfg, buf, q, st)
  {
    assert ScanHeaders(cfg, buf, q, st) == HeaderStep(cfg, buf, q, st);
    assert HeaderStep(cfg, buf, q, st) == LineEnd(cfg, buf, q, st);
  }

  /** Storing from the state at the end of the value or from the state at
      the start of the line ends the same way once the next line starts. */
  lemma StoreLineStart(cfg: Config, st: Scan, st2: Scan, key: string, value: string, e: nat)
    requires IndicesOk(st) && st2.headers == st.headers && st2.last == st.last && st2.host == st.host
    requires st2.token == st.token && st2.length == st.length
    ensures Store(cfg, st, key, value).Err? == Store(cfg, st2, key, value).Err?
    ensures Store(cfg, st, key, value).Err? ==> Store(cfg, st, key, value).error == Store(cfg, st2, key, value).error
    ensures Store(cfg, st, key, value).Ok? ==>
              LineStart(Store(cfg, st, key, value).value, e) == LineStart(Store(cfg, st2, key, value).value, e)
  {
  }

  /** An empty line at the start of a line ends the headers after its LF. */
  lemma EmptyLine(cfg: Config, buf: string, i: nat, st: Scan)
    requires Terminated(buf) && ScanOk(buf, i, st) && st.isKey && st.first == i
    requires i + 1 < |buf| && buf[i] == '\r' && buf[i + 1] == '\n'
    ensures ScanHeaders(cfg, buf, i, st) == HeadersDone(i + 2, st)
  {
    assert ScanHeaders(cfg, buf, i, st) == KeyStep(cfg, buf, i, st);
  }

  /** A request whose header block is the empty line alone: the scan ends
      after its LF with nothing stored. */
  lemma NoHeaderLines(cfg: Config, buf: string, i: nat)
    requires Terminated(buf) && i + 1 < |buf| && buf[i] == '\r' && buf[i + 1] == '\n'
    ensures ScanHeaders(cfg, buf, i, InitialScan(i)) == HeadersDone(i + 2, InitialScan(i))
  {
    EmptyLine(cfg, buf, i, InitialScan(i));
  }

  /* ----- refused header lines ----- */

  /** A character that ends a field name with a 400: a separator other than
      ':', or a control character other than tab and CR. */
  predicate BadKeyChar(c: char)
  {
    Separator(c) || (Ctl(c) && c != '\t' && c != '\r')
  }

  /** Name characters, then a separator or a control character: 400. */
  lemma KeyCharRefused(cfg: Config, buf: string, i: nat, st: Scan, j: nat)
    requires Terminated(buf) && ScanOk(buf, i, st) && st.isKey && i <= j < |buf|
    requires forall m :: i <= m < j ==> TokenChar(buf[m])
    requires BadKeyChar(buf[j])
    ensures ScanHeaders(cfg, buf, i, st) == HeaderRefused(400)
  {
    KeyRun(cfg, buf, i, j, st);
    assert ScanHeaders(cfg, buf, j, st) == KeyStep(cfg, buf, j, st);
  }

  /** The blank-skipping of a field name stops at the first non-blank. */
  lemma {:induction false} SkipWsIs(buf: string, j: nat, k: nat)
    requires Terminated(buf) && j <= k < |buf|
    requires forall m :: j <= m < k ==> HeaderValues.IsWs(buf[m])
    requires !HeaderValues.IsWs(buf[k])
    ensures SkipWs(buf, j) == k
    decreases k - j
  {
    if j < k {
      SkipWsIs(buf, j + 1, k);
    }
  }

  /** Name characters, then blanks not followed by the ':': 400. */
  lemma KeyBlankRefused(cfg: Config, buf: string, i: nat, st: Scan, j: nat, k: nat)
    requires Terminated(buf) && ScanOk(buf, i, st) && st.isKey && i <= j && st.first < j < k < |buf|
    requires forall m :: i <= m < j ==> TokenChar(buf[m])
    requires forall m :: j <= m < k ==> HeaderValues.IsWs(buf[m])
    requires !HeaderValues.IsWs(buf[k]) && buf[k] != ':'
    ensures ScanHeaders(cfg, buf, i, st) == HeaderRefused(400)
  {
    KeyRun(cfg, buf, i, j, st);
    SkipWsIs(buf, j + 1, k);
    assert ScanHeaders(cfg, buf, j, st) == KeyStep(cfg, buf, j, st);
  }

  /** A CR in a field name, or a CR first on a line without its LF: 400. */
  lemma KeyCrRefused(cfg: Config, buf: string, i: nat, st: Scan, j: nat)
    requires Terminated(buf) && ScanOk(buf, i, st) && st.isKey && i <= j && j + 1 < |buf|
    requires forall m :: i <= m < j ==> TokenChar(buf[m])
    requires buf[j] == '\r' && (j != st.first || buf[j + 1] != '\n')
    ensures ScanHeaders(cfg, buf, i, st) == HeaderRefused(400)
  {
    KeyRun(cfg, buf, i, j, st);
    assert ScanHeaders(cfg, buf, j, st) == KeyStep(cfg, buf, j, st);
  }

  /** A CR in a value that is not followed by its LF: 400. */
  lemma ValueCrRefused(cfg: Config, buf: string, q: nat, st: Scan)
    requires Terminated(buf) && ScanOk(buf, q, st) && !st.isKey && q + 1 < |buf|
    requires buf[q] == '\r' && buf[q + 1] != '\n'
    ensures ScanHeaders(cfg, buf, q, st) == HeaderRefused(400)
  {
    assert ScanHeaders(cfg, buf, q, st) == HeaderStep(cfg, buf, q, st);
  }

  /** The first header line's name runs into a separator or a control
      character: the request is refused with 400. */
  lemma BadKeyRejected(cfg: Config, buf: string, k: nat, verb: string, version: Version, uri: string, j: nat)
    requires Terminated(buf) && k + 2 <= j < |buf|
    requires forall m :: k + 2 <= m < j ==> TokenChar(buf[m])
    requires BadKeyChar(buf[j])
    ensures AfterFields(cfg, buf, k, verb, version, uri) == Rejected(400, Some(false))
  {
    KeyCharRefused(cfg, buf, k + 2, InitialScan(k + 2), j);
  }

  /** The first header line's name is followed by blanks and then something
      other than the ':': the request is refused with 400. */
  lemma BlankInKeyRejected(cfg: Config, buf: string, k: nat, verb: string, version: Version, uri: string, j: nat, l: nat)
    requires Terminated(buf) && k + 2 < j < l < |buf|
    requires forall m :: k + 2 <= m < j ==> TokenChar(buf[m])
    requires forall m :: j <= m < l ==> HeaderValues.IsWs(buf[m])
    requires !HeaderValues.IsWs(buf[l]) && buf[l] != ':'
    ensures AfterFields(cfg, buf, k, verb, version, uri) == Rejected(400, Some(false))
  {
    KeyBlankRefused(cfg, buf, k + 2, InitialScan(k + 2), j, l);
  }

  /** The first header line's name is cut by a CR, or the line is a CR
      without its LF: the request is refused with 400. */
  lemma CrInKeyRejected(cfg: Config, buf: string, k: nat, verb: string, version: Version, uri: string, j: nat)
    requires Terminated(buf) && k + 2 <= j && j + 1 < |buf|
    requires forall m :: k + 2 <= m < j ==> TokenChar(buf[m])
    requires buf[j] == '\r' && (j != k + 2 || buf[j + 1] != '\n')
    ensures AfterFields(cfg, buf, k, verb, version, uri) == Rejected(400, Some(false))
  {
    KeyCrRefused(cfg, buf, k + 2, InitialScan(k + 2), j);
  }

  /** Where the name, the ':', the blank and the value of a line prefix lie. */
  lemma LineChars(buf: string, i: nat, key: string, value: string)
    requires i + |key| + 2 + |value| <= |buf| && buf[i..i + |key| + 2 + |value|] == key + ": " + value
    ensures var p := i + |key|;
            buf[i..p] == key && buf[p + 2..p + 2 + |value|] == value && buf[p] == ':' && buf[p + 1] == ' '
  {
    var line := key + ": " + value;
    var p := i + |key|;
    assert forall m :: 0 <= m < |line| ==> buf[i + m] == line[m];
    assert buf[i..p] == line[..|key|];
    assert buf[p + 2..p + 2 + |value|] == line[|key| + 2..];
    assert buf[p] == line[|key|] && buf[p + 1] == line[|key| + 1];
  }

  /** The first header line `key: value` ends in a CR without its LF: the
      request is refused with 400. */
  lemma LoneCrRejected(cfg: Config, buf: string, k: nat, verb: string, version: Version, uri: string, key: string, value: string)
    requires Terminated(buf) && Name(key) && Word(value)
    requires k + 2 + |key| + 2 + |value| + 1 < |buf|
    requires buf[k + 2..k + 2 + |key| + 2 + |value|] == key + ": " + value
    requires buf[k + 4 + |key| + |value|] == '\r' && buf[k + 5 + |key| + |value|] != '\n'
    ensures AfterFields(cfg, buf, k, verb, version, uri) == Rejected(400, Some(false))
  {
    var i := k + 2;
    var p := i + |key|;
    var q := p + 2 + |value|;
    var st := InitialScan(i);
    LineChars(buf, i, key, value);
    assert forall m :: i <= m < p ==> TokenChar(buf[m]) by {
      forall m | i <= m < p ensures TokenChar(buf[m]) { assert buf[m] == buf[i..p][m - i] == key[m - i]; }
    }
    assert forall m :: p + 2 <= m < q ==> buf[m] != '\r' && !HeaderValues.IsWs(buf[m]) by {
      forall m | p + 2 <= m < q ensures buf[m] != '\r' && !HeaderValues.IsWs(buf[m]) {
        assert buf[m] == buf[p + 2..q][m - p - 2] == value[m - p - 2];
      }
    }
    KeyRun(cfg, buf, i, p, st);
    ColonSteps(cfg, buf, p, st);
    var st2 := st.(isKey := false, value := p + 2, keyLen := p - i);
    ValueRun(cfg, buf, p + 2, q, st2);
    ValueCrRefused(cfg, buf, q, st2);
  }

  /* ----- whole requests ----- */

  /** A method field: no blank, CR or NUL. */
  predicate MethodText(m: string)
  {
    ' ' !in m && '\r' !in m && '\0' !in m
  }

  /** The characters a valid URI leaves out. */
  lemma UriText(u: string)
    requires UriChars.UriValid(u)
    ensures ' ' !in u && '\r' !in u
  {
    if ' ' in u {
      var j :| 0 <= j < |u| && u[j] == ' ';
      UriChars.OnlyAscii(u[j]);
    }
    if '\r' in u {
      var j :| 0 <= j < |u| && u[j] == '\r';
      UriChars.OnlyAscii(u[j]);
    }
  }

  /** A request line found with its fields is followed by the header loop
      and the checks after it. */
  lemma ParseLine(cfg: Config, buf: string, s1: nat, s2: nat, k: nat, verb: string, version: Version, uri: string)
    requires Terminated(buf) && RequestLine.RequestLine(buf) == Line(s1, s2, k)
    requires s1 < s2 < k <= |buf| && LineFieldsOf(cfg, buf, s1, s2, k) == Fields(verb, version, uri)
    ensures k + 2 <= |buf|
    ensures ParseBuf(cfg, buf) == AfterFields(cfg, buf, k, verb, version, uri)
  {
    RequestLine.RequestLineMeaning(buf);
  }

  /** The fields of such a line, when its method is known, its URI valid and
      its protocol HTTP/1.0 or HTTP/1.1, are its method, version and URI. */
  lemma FieldsOf(cfg: Config, m: string, u: string, v: Version, rest: string)
    requires MethodText(m) && m in cfg.methods
    requires UriChars.UriValid(u) && !StartsWith(u, "http://")
    ensures ParseBuf(cfg, RequestText(m, u, Protocol(v), rest) + ['\0']) ==
              AfterFields(cfg, RequestText(m, u, Protocol(v), rest) + ['\0'], |m| + |u| + 10, m,
                          if v == Http11 && cfg.allowHttp11 then Http11 else Http10, u)
  {
    ProtocolFields(v);
    FieldsOfProto(cfg, m, u, Protocol(v), rest);
  }

  /** The same, for any eight-character protocol `HTTP/1.` with minor
      version 0 or 1. */
  lemma FieldsOfProto(cfg: Config, m: string, u: string, proto: string, rest: string)
    requires MethodText(m) && m in cfg.methods
    requires UriChars.UriValid(u) && !StartsWith(u, "http://")
    requires |proto| == 8 && ' ' !in proto && '\r' !in proto
    requires StartsWith(proto, "HTTP/1.") && MinorVersion(proto) in {'0', '1'}
    ensures ParseBuf(cfg, RequestText(m, u, proto, rest) + ['\0']) ==
              AfterFields(cfg, RequestText(m, u, proto, rest) + ['\0'], |m| + |u| + 10, m,
                          if MinorVersion(proto) == '1' && cfg.allowHttp11 then Http11 else Http10, u)
  {
    var buf := RequestText(m, u, proto, rest) + ['\0'];
    var version := if MinorVersion(proto) == '1' && cfg.allowHttp11 then Http11 else Http10;
    UriText(u);
    LineOf(m, u, proto, rest);
    FieldSlices(m, u, proto, rest);
    FieldsOfBuf(cfg, buf, |m|, |m| + 1 + |u|, |m| + |u| + 10, m, u, proto, version);
  }

  /** Where the method, the URI and the protocol lie in a request text. */
  lemma FieldSlices(m: string, u: string, proto: string, rest: string)
    ensures var buf := RequestText(m, u, proto, rest) + ['\0'];
            |m| + |u| + 4 + |proto| < |buf| && buf[..|m|] == m && buf[|m| + 1..|m| + 1 + |u|] == u &&
            buf[|m| + |u| + 2..|m| + |u| + 2 + |proto|] == proto
  {
    var buf := RequestText(m, u, proto, rest) + ['\0'];
    assert buf == m + " " + u + " " + proto + "\r\n" + rest + ['\0'];
  }

  /** `Protocol(v)` is `HTTP/1.` and the minor version of `v`. */
  lemma ProtocolFields(v: Version)
    ensures |Protocol(v)| == 8 && StartsWith(Protocol(v), "HTTP/1.")
    ensures ' ' !in Protocol(v) && '\r' !in Protocol(v)
    ensures MinorVersion(Protocol(v)) == if v == Http11 then '1' else '0'
  {
  }

  /** The same, for any buffer whose request line has a known method, a
      valid URI and the protocol HTTP/1.0 or HTTP/1.1. */
  lemma FieldsOfBuf(cfg: Config, buf: string, s1: nat, s2: nat, k: nat, m: string, u: string, proto: string, version: Version)
    requires Terminated(buf) && RequestLine.RequestLine(buf) == Line(s1, s2, k)
    requires s1 < s2 < k && k + 2 < |buf| && buf[..s1] == m && buf[s1 + 1..s2] == u && buf[s2 + 1..k] == proto
    requires StartsWith(proto, "HTTP/1.") && MinorVersion(proto) in {'0', '1'}
    requires version == if MinorVersion(proto) == '1' && cfg.allowHttp11 then Http11 else Http10
    requires MethodText(m) && m in cfg.methods
    requires UriChars.UriValid(u) && !StartsWith(u, "http://")
    ensures ParseBuf(cfg, buf) == AfterFields(cfg, buf, k, m, version, u)
  {
    SliceFields(cfg, buf, s1, s2, k, m, u, proto);
    ParseLine(cfg, buf, s1, s2, k, m, version, u);
  }

  /** A line whose fields are a known method, a valid URI and a protocol
      `HTTP/1.` with minor version 0 or 1. */
  lemma SliceFields(cfg: Config, buf: string, s1: nat, s2: nat, k: nat, m: string, u: string, proto: string)
    requires s1 < s2 < k <= |buf| && buf[..s1] == m && buf[s1 + 1..s2] == u && buf[s2 + 1..k] == proto
    requires StartsWith(proto, "HTTP/1.") && MinorVersion(proto) in {'0', '1'}
    requires MethodText(m) && m in cfg.methods
    requires UriChars.UriValid(u) && !StartsWith(u, "http://")
    ensures LineFieldsOf(cfg, buf, s1, s2, k) == Fields(m, if MinorVersion(proto) == '1' && cfg.allowHttp11 then Http11 else Http10, u)
  {
    UriText(u);
    NoNul(m);
  }

  /** Once the header loop has ended, the outcome is that of the checks
      after it. */
  lemma AfterHeaders(cfg: Config, buf: string, k: nat, verb: string, version: Version, uri: string, end: nat, st: Scan)
    requires Terminated(buf) && k + 2 <= |buf|
    requires ScanHeaders(cfg, buf, k + 2, InitialScan(k + 2)) == HeadersDone(end, st)
    ensures IndicesOk(st) && HostKeyOk(st)
    ensures AfterFields(cfg, buf, k, verb, version, uri) == Finish(cfg, verb, version, uri, end, st)
  {
  }

  /** The checks after an empty header list: HTTP/1.0 without a body is
      accepted, HTTP/1.1 lacks its `Host` header. */
  lemma FinishEmpty(cfg: Config, verb: string, version: Version, uri: string, end: nat, first: nat)
    ensures version == Http10 && verb != "POST" ==>
              Finish(cfg, verb, version, uri, end, InitialScan(first)) ==
                Accepted(Request(verb, Http10, uri, [], None, NoToken, None, end), false, false)
    ensures version == Http10 && verb == "POST" ==> Finish(cfg, verb, version, uri, end, InitialScan(first)) == Rejected(411, Some(false))
    ensures version == Http11 ==> Finish(cfg, verb, version, uri, end, InitialScan(first)) == Rejected(400, Some(false))
  {
    assert Host.CheckHostname(None);
  }

  /** A request line followed by the empty line alone is judged by the
      checks after the headers on an empty header list. */
  lemma NoHeaders(cfg: Config, buf: string, k: nat, verb: string, version: Version, uri: string)
    requires Terminated(buf) && k + 3 < |buf| && buf[k + 2] == '\r' && buf[k + 3] == '\n'
    ensures version == Http10 && verb != "POST" ==>
              AfterFields(cfg, buf, k, verb, version, uri) == Accepted(Request(verb, Http10, uri, [], None, NoToken, None, k + 4), false, false)
    ensures version == Http10 && verb == "POST" ==> AfterFields(cfg, buf, k, verb, version, uri) == Rejected(411, Some(false))
    ensures version == Http11 ==> AfterFields(cfg, buf, k, verb, version, uri) == Rejected(400, Some(false))
  {
    NoHeaderLines(cfg, buf, k + 2);
    AfterHeaders(cfg, buf, k, verb, version, uri, k + 4, InitialScan(k + 2));
    FinishEmpty(cfg, verb, version, uri, k + 4, k + 2);
  }

  /** A request without headers on HTTP/1.0 is accepted as it was written,
      with nothing to read after it and the connection to be closed. */
  lemma RoundTrip(cfg: Config, m: string, u: string, n: nat)
    requires MethodText(m) && m in cfg.methods && m != "POST"
    requires UriChars.UriValid(u) && !StartsWith(u, "http://")
    ensures Parse(cfg, RequestText(m, u, Protocol(Http10), "\r\n"), n) ==
              Accepted(Request(m, Http10, u, [], None, NoToken, None, |RequestText(m, u, Protocol(Http10), "\r\n")|), false, false)
  {
    LineFacts(cfg, m, u, Http10, "\r\n", n);
    EmptyRest(cfg, m, u);
  }

  /** A header-less HTTP/1.0 POST has no `Content-Length`, so it is refused
      with 411 and the connection is closed. */
  lemma PostWithoutLengthRefused(cfg: Config, u: string, n: nat)
    requires "POST" in cfg.methods
    requires UriChars.UriValid(u) && !StartsWith(u, "http://")
    ensures Parse(cfg, RequestText("POST", u, Protocol(Http10), "\r\n"), n) == Rejected(411, Some(false))
  {
    LineFacts(cfg, "POST", u, Http10, "\r\n", n);
    EmptyRest(cfg, "POST", u);
  }

  /** A request built from a known method, a valid URI and the protocol
      of a version is parsed as the header loop and the checks after it on
      its text after the request line, with those fields. */
  lemma LineFacts(cfg: Config, m: string, u: string, v: Version, rest: string, n: nat)
    requires MethodText(m) && m in cfg.methods
    requires UriChars.UriValid(u) && !StartsWith(u, "http://")
    ensures |RequestText(m, u, Protocol(v), rest)| == |m| + |u| + 12 + |rest|
    ensures Parse(cfg, RequestText(m, u, Protocol(v), rest), n) ==
              AfterFields(cfg, RequestText(m, u, Protocol(v), rest) + ['\0'], |m| + |u| + 10, m,
                          if v == Http11 && cfg.allowHttp11 then Http11 else Http10, u)
  {
    BufferOf(m, u, Protocol(v), rest, n);
    FieldsOf(cfg, m, u, v, rest);
    ParseIs(cfg, RequestText(m, u, Protocol(v), rest), n, RequestText(m, u, Protocol(v), rest) + ['\0']);
  }

  /** An HTTP/1.0 request line followed by the empty line alone: without
      a body it is accepted as it stands. */
  lemma EmptyRest(cfg: Config, m: string, u: string)
    ensures m != "POST" ==>
              AfterFields(cfg, RequestText(m, u, Protocol(Http10), "\r\n") + ['\0'], |m| + |u| + 10, m, Http10, u) ==
                Accepted(Request(m, Http10, u, [], None, NoToken, None, |m| + |u| + 14), false, false)
    ensures m == "POST" ==>
              AfterFields(cfg, RequestText(m, u, Protocol(Http10), "\r\n") + ['\0'], |m| + |u| + 10, m, Http10, u) ==
                Rejected(411, Some(false))
  {
    var buf := RequestText(m, u, Protocol(Http10), "\r\n") + ['\0'];
    assert buf == LineText(m, u, Protocol(Http10)) + "\r\n" + "\r\n" + ['\0'];
    assert buf[|m| + |u| + 12] == '\r' && buf[|m| + |u| + 13] == '\n';
    NoHeaders(cfg, buf, |m| + |u| + 10, m, Http10, u);
  }

  /** `Parse` is the parse of the buffer `ParseBuffer` makes. */
  lemma ParseIs(cfg: Config, req: string, n: nat, buf: string)
    requires ParseBuffer(req, n) == buf
    ensures Terminated(buf) && Parse(cfg, req, n) == ParseBuf(cfg, buf)
  {
  }

  /** A buffer whose request line is followed by one header line and the
      empty line: the header is stored, or refused as `Store` refuses it. */
  lemma OneHeader(cfg: Config, buf: string, k: nat, verb: string, version: Version, uri: string, key: string, value: string)
    requires Terminated(buf) && Name(key) && Word(value)
    requires k + 2 + |HeaderText(key, value)| + 1 < |buf|
    requires buf[k + 2..k + 2 + |HeaderText(key, value)|] == HeaderText(key, value)
    requires buf[k + 2 + |HeaderText(key, value)|] == '\r' && buf[k + 3 + |HeaderText(key, value)|] == '\n'
    ensures Store(cfg, InitialScan(k + 2), key, value).Err? ==>
              AfterFields(cfg, buf, k, verb, version, uri) == Rejected(Store(cfg, InitialScan(k + 2), key, value).error, Some(false))
    ensures Store(cfg, InitialScan(k + 2), key, value).Ok? ==>
              AfterFields(cfg, buf, k, verb, version, uri) ==
                Finish(cfg, verb, version, uri, k + 4 + |HeaderText(key, value)|,
                       LineStart(Store(cfg, InitialScan(k + 2), key, value).value, k + 2 + |HeaderText(key, value)|))
  {
    var e := k + 2 + |HeaderText(key, value)|;
    HeaderLine(cfg, buf, k + 2, InitialScan(k + 2), key, value);
    var stored := Store(cfg, InitialScan(k + 2), key, value);
    if stored.Ok? {
      EmptyLine(cfg, buf, e, LineStart(stored.value, e));
    }
  }

  /** A request on HTTP/1.1 with a valid `Host` header is accepted as it was
      written, with the header as its host and the connection kept open. */
  lemma HostRoundTrip(cfg: Config, m: string, u: string, h: string, n: nat)
    requires MethodText(m) && m in cfg.methods && m != "POST" && cfg.allowHttp11
    requires UriChars.UriValid(u) && !StartsWith(u, "http://")
    requires Word(h) && Host.CheckHostname(Some(h))
    ensures Parse(cfg, RequestText(m, u, Protocol(Http11), HeaderText("Host", h) + "\r\n"), n) ==
              Accepted(Request(m, Http11, u, [Header("Host", h)], Some(h), NoToken, None,
                               |RequestText(m, u, Protocol(Http11), HeaderText("Host", h) + "\r\n")|), true, false)
  {
    LineFacts(cfg, m, u, Http11, HeaderText("Host", h) + "\r\n", n);
    HostRest(cfg, m, u, h);
  }

  /** An HTTP/1.1 request line, one `Host` header line and the empty line:
      what follows the request line is accepted with that host. */
  lemma HostRest(cfg: Config, m: string, u: string, h: string)
    requires m != "POST" && Word(h) && Host.CheckHostname(Some(h))
    ensures AfterFields(cfg, RequestText(m, u, Protocol(Http11), HeaderText("Host", h) + "\r\n") + ['\0'], |m| + |u| + 10, m, Http11, u) ==
              Accepted(Request(m, Http11, u, [Header("Host", h)], Some(h), NoToken, None,
                               |m| + |u| + 14 + |HeaderText("Host", h)|), true, false)
  {
    var buf := RequestText(m, u, Protocol(Http11), HeaderText("Host", h) + "\r\n") + ['\0'];
    HeaderIn(m, u, Protocol(Http11), "Host", h);
    HostHeaderAccepted(cfg, buf, |m| + |u| + 10, m, u, h);
  }

  /** A `Host` header line with a valid hostname, then the empty line, after
      an HTTP/1.1 request line: the request is accepted with that host. */
  lemma HostHeaderAccepted(cfg: Config, buf: string, k: nat, m: string, u: string, h: string)
    requires Terminated(buf) && m != "POST" && Word(h) && Host.CheckHostname(Some(h))
    requires k + 2 + |HeaderText("Host", h)| + 1 < |buf|
    requires buf[k + 2..k + 2 + |HeaderText("Host", h)|] == HeaderText("Host", h)
    requires buf[k + 2 + |HeaderText("Host", h)|] == '\r' && buf[k + 3 + |HeaderText("Host", h)|] == '\n'
    ensures AfterFields(cfg, buf, k, m, Http11, u) ==
              Accepted(Request(m, Http11, u, [Header("Host", h)], Some(h), NoToken, None, k + 4 + |HeaderText("Host", h)|), true, false)
  {
    assert Name("Host");
    CaselessNames("Host");
    assert CaselessEq("Host", "Host");
    OneHeader(cfg, buf, k, m, Http11, u, "Host", h);
  }

  /** Where a single header line lies in a request. */
  lemma HeaderIn(m: string, u: string, proto: string, key: string, value: string)
    ensures |m| + |u| + |proto| + |HeaderText(key, value)| + 5 < |RequestText(m, u, proto, HeaderText(key, value) + "\r\n") + ['\0']|
    ensures (RequestText(m, u, proto, HeaderText(key, value) + "\r\n") + ['\0'])
              [|m| + |u| + |proto| + 4..|m| + |u| + |proto| + 4 + |HeaderText(key, value)|] == HeaderText(key, value)
    ensures (RequestText(m, u, proto, HeaderText(key, value) + "\r\n") + ['\0'])[|m| + |u| + |proto| + 4 + |HeaderText(key, value)|] == '\r'
    ensures (RequestText(m, u, proto, HeaderText(key, value) + "\r\n") + ['\0'])[|m| + |u| + |proto| + 5 + |HeaderText(key, value)|] == '\n'
  {
    var line := HeaderText(key, value);
    var buf := RequestText(m, u, proto, line + "\r\n") + ['\0'];
    var k := |m| + |u| + 2 + |proto|;
    assert buf == LineText(m, u, proto) + "\r\n" + line + "\r\n" + ['\0'];
    assert buf[k + 2..k + 2 + |line|] == line;
  }
}

=== FILE: service.dfy ===
/** The application registry of the foreverd service
    (lib/foreverd/service.js): the pause gate on `add` and `remove`, the
    selection and removal of applications, and `pause` / `resume`. An
    application's `file` and `options` are held as their JSON serialisations,
    the form `remove` compares them in; a request argument is `None` when it
    is falsy and otherwise the serialisation of the value given. The adapter
    and the dnode server are left out. */
module Service {

  import opened Wrappers
  import Monitor

  datatype Application = Application(file: string, options: string, monitor: Option<Monitor.Monitor>)

  datatype ForeverService = ForeverService(applications: seq<Application>, paused: bool)

  /** The error `add` and `remove` hand their callback while paused. */
  datatype ServiceError = Paused

  /** A request forwarded to the adapter's `add`. */
  datatype AdapterAdd = AdapterAdd(file: string, options: string)

  function Pause(s: ForeverService): (r: ForeverService)
    ensures r.paused && r.applications == s.applications
  {
    s.(paused := true)
  }

  function Resume(s: ForeverService): (r: ForeverService)
    ensures !r.paused && r.applications == s.applications
  {
    s.(paused := false)
  }

  /** `add(file, options)`: refused while paused, otherwise handed to the adapter. */
  function Add(s: ForeverService, file: string, options: string): (r: Result<AdapterAdd, ServiceError>)
    ensures r.Err? <==> s.paused
    ensures r.Ok? ==> r.value.file == file && r.value.options == options
  {
    if s.paused then Err(Paused) else Ok(AdapterAdd(file, options))
  }

  /** After `pause` nothing is added or removed until `resume`. */
  lemma PauseBlocksChanges(s: ForeverService, file: Option<string>, options: Option<string>, f: string, o: string)
    ensures Add(Pause(s), f, o) == Err(Paused)
    ensures Remove(Pause(s), file, options) == Err(Paused)
    ensures Add(Resume(Pause(s)), f, o).Ok?
    ensures Resume(Pause(s)) == s.(paused := false)
  {
  }

  /** The outcome of `remove`: the service afterwards and the results of
      stopping the monitors of the removed applications, in order. */
  datatype Removal = Removal(service: ForeverService, stopped: seq<Monitor.StepResult>)

  /** `application.monitor.stop()`, when the application has a monitor. */
  function StopAll(apps: seq<Application>): (r: seq<Monitor.StepResult>)
    ensures |r| <= |apps|
  {
    if |apps| == 0 then []
    else (if apps[0].monitor.Some? then [Monitor.Stop(apps[0].monitor.value)] else []) + StopAll(apps[1..])
  }

  /** The applications `sel` holds for, in order. */
  function Filter(apps: seq<Application>, sel: Application -> bool): (r: seq<Application>)
    ensures |r| <= |apps|
    ensures forall x :: x in r <==> x in apps && sel(x)
  {
    if |apps| == 0 then []
    else (if sel(apps[0]) then [apps[0]] else []) + Filter(apps[1..], sel)
  }

  /** Nothing is kept when nothing is selected. */
  lemma FilterNone(apps: seq<Application>, sel: Application -> bool)
    requires forall a :: a in apps ==> !sel(a)
    ensures Filter(apps, sel) == []
  {
  }

  /** Each selected application is kept as many times as it is listed, and
      no other application is kept. */
  lemma {:induction false} FilterCounts(apps: seq<Application>, sel: Application -> bool, a: Application)
    ensures multiset(Filter(apps, sel))[a] == if sel(a) then multiset(apps)[a] else 0
  {
    if |apps| > 0 {
      assert apps == [apps[0]] + apps[1..];
      FilterCounts(apps[1..], sel, a);
    }
  }

  /** The filter keeps the registry's order: filtering two lists one after
      the other is filtering their concatenation. */
  lemma {:induction false} FilterAppend(a: seq<Application>, b: seq<Application>, sel: Application -> bool)
    ensures Filter(a + b, sel) == Filter(a, sel) + Filter(b, sel)
  {
    if |a| == 0 {
      assert a + b == b;
    } else {
      FilterAppend(a[1..], b, sel);
      FilterAppendStep(a, b, sel);
    }
  }

  /** One step of FilterAppend: the head of `a` is kept or dropped in both
      filtered lists alike. */
  lemma FilterAppendStep(a: seq<Application>, b: seq<Application>, sel: Application -> bool)
    requires |a| > 0 && Filter(a[1..] + b, sel) == Filter(a[1..], sel) + Filter(b, sel)
    ensures Filter(a + b, sel) == Filter(a, sel) + Filter(b, sel)
  {
    var h := if sel(a[0]) then [a[0]] else [];
    assert Filter(a + b, sel) == h + Filter(a[1..] + b, sel) by {
      FilterCons(a + b, sel);
      ConsTail(a, b);
    }
    assert Filter(a, sel) == h + Filter(a[1..], sel) by {
      FilterCons(a, sel);
    }
    Regroup(Filter(a + b, sel), Filter(a, sel), Filter(b, sel), Filter(a[1..], sel), Filter(a[1..] + b, sel), h);
  }

  /** The head and the tail of a concatenation with a non-empty front. */
  lemma ConsTail<T>(a: seq<T>, b: seq<T>)
    requires |a| > 0
    ensures (a + b)[0] == a[0] && (a + b)[1..] == a[1..] + b
  {
  }

  /** Reassociates `h + (fr + fb)` as `(h + fr) + fb` under names. */
  lemma Regroup<T>(fab: seq<T>, fa: seq<T>, fb: seq<T>, fr: seq<T>, frb: seq<T>, h: seq<T>)
    requires fab == h + frb && fa == h + fr && frb == fr + fb
    ensures fab == fa + fb
  {
  }

  /** Filtering a non-empty list is filtering its head, then its tail. */
  lemma FilterCons(s: seq<Application>, sel: Application -> bool)
    requires |s| > 0
    ensures Filter(s, sel) == (if sel(s[0]) then [s[0]] else []) + Filter(s[1..], sel)
  {
  }

  /** A single application is kept exactly when it is selected. */
  lemma FilterOne(x: Application, sel: Application -> bool)
    ensures Filter([x], sel) == if sel(x) then [x] else []
  {
    assert [x][1..] == [];
  }

  /** The two `filter` calls of `remove` as written: an application is
      selected when its file differs from the requested one and its options
      differ from the requested ones. */
  predicate SelectedAsWritten(a: Application, file: Option<string>, options: Option<string>)
  {
    (file.None? || file.value != a.file) && (options.None? || options.value != a.options)
  }

  /** The `forEach` over the registry's own array when neither a file nor
      options are given: each visited application is spliced out at the index
      being visited, so the next one moves under the cursor and is skipped.
      Returns the array left and the applications visited. */
  function SpliceWhileVisiting(arr: seq<Application>, k: nat): (r: (seq<Application>, seq<Application>))
    decreases |arr| - k
  {
    if k >= |arr| then (arr, [])
    else
      var rest := SpliceWhileVisiting(arr[..k] + arr[k + 1..], k + 1);
      (rest.0, [arr[k]] + rest.1)
  }

  /** `remove(file, options)` as written. */
  function RemoveAsWritten(s: ForeverService, file: Option<string>, options: Option<string>): (r: Result<Removal, ServiceError>)
    ensures r.Err? <==> s.paused
    ensures r.Ok? && (file.Some? || options.Some?) ==>
              r.value.service.applications ==
                Filter(s.applications, a => !SelectedAsWritten(a, file, options))
  {
    if s.paused then Err(Paused)
    else if file.None? && options.None? then
      var (left, visited) := SpliceWhileVisiting(s.applications, 0);
      Ok(Removal(s.(applications := left), StopAll(visited)))
    else
      var selected := Filter(s.applications, a => SelectedAsWritten(a, file, options));
      var left := Filter(s.applications, a => !SelectedAsWritten(a, file, options));
      Ok(Removal(s.(applications := left), StopAll(selected)))
  }

  /** Removing by file keeps exactly the application named and removes the
      other one. */
  lemma RemoveByFileKeepsMatch(m: Monitor.Monitor)
    ensures var a, b := Application("\"a.js\"", "[]", Some(m)), Application("\"b.js\"", "[]", None);
            var r := RemoveAsWritten(ForeverService([a, b], false), Some("\"a.js\""), None);
            r.Ok? && r.value.service.applications == [a]
  {
    var a, b := Application("\"a.js\"", "[]", Some(m)), Application("\"b.js\"", "[]", None);
    assert "\"a.js\"" != "\"b.js\"" by {
      assert "\"a.js\""[1] != "\"b.js\""[1];
    }
    var apps := [a, b];
    var keep := (x: Application) => !SelectedAsWritten(x, Some("\"a.js\""), None);
    assert apps[1..] == [b];
    assert Filter([b], keep) == [];
    assert Filter(apps, keep) == [a] + Filter([b], keep);
  }

  /** The elements at odd positions. */
  function OddPositions(s: seq<Application>): (r: seq<Application>)
    ensures |r| == |s| / 2
    ensures forall i :: 0 <= i < |r| ==> r[i] == s[2 * i + 1]
  {
    if |s| < 2 then [] else [s[1]] + OddPositions(s[2..])
  }

  /** The elements at even positions. */
  function EvenPositions(s: seq<Application>): (r: seq<Application>)
    ensures |r| == (|s| + 1) / 2
    ensures forall i :: 0 <= i < |r| ==> r[i] == s[2 * i]
  {
    if |s| == 0 then [] else if |s| == 1 then [s[0]] else [s[0]] + EvenPositions(s[2..])
  }

  /** From cursor `k` on, the splicing `forEach` visits the elements at even
      distance from the cursor and leaves those at odd distance. */
  lemma {:induction false} SpliceWhileVisitingShape(arr: seq<Application>, k: nat)
    requires k <= |arr|
    ensures SpliceWhileVisiting(arr, k) == (arr[..k] + OddPositions(arr[k..]), EvenPositions(arr[k..]))
    decreases |arr| - k
  {
    if k < |arr| {
      var next := arr[..k] + arr[k + 1..];
      var rest := SpliceWhileVisiting(next, k + 1);
      assert SpliceWhileVisiting(arr, k) == (rest.0, [arr[k]] + rest.1);
      if k + 1 < |arr| {
        SpliceWhileVisitingShape(next, k + 1);
        assert next[..k + 1] == arr[..k] + [arr[k + 1]];
        assert next[k + 1..] == arr[k + 2..];
        assert arr[k..][2..] == arr[k + 2..];
        assert OddPositions(arr[k..]) == [arr[k + 1]] + OddPositions(arr[k + 2..]);
        assert EvenPositions(arr[k..]) == [arr[k]] + EvenPositions(arr[k + 2..]);
        assert rest.0 == arr[..k] + [arr[k + 1]] + OddPositions(arr[k + 2..]);
        assert rest.0 == arr[..k] + OddPositions(arr[k..]);
        assert [arr[k]] + rest.1 == EvenPositions(arr[k..]);
      } else {
        assert next == arr[..k];
        assert rest == (next, []);
        assert [arr[k]] + rest.1 == [arr[k]];
        assert arr[k..] == [arr[k]];
        assert OddPositions(arr[k..]) == [] && EvenPositions(arr[k..]) == [arr[k]];
        assert arr[..k] + OddPositions(arr[k..]) == arr[..k];
      }
    } else {
      assert arr[..k] == arr && arr[k..] == [];
      assert OddPositions([]) == [] && EvenPositions([]) == [];
      assert arr[..k] + OddPositions(arr[k..]) == arr;
    }
  }

  /** `remove()` with no file and no options as written: it stops and
      removes the applications at even positions and keeps those at odd ones. */
  lemma RemoveAllAsWritten(s: ForeverService)
    requires !s.paused
    ensures var r := RemoveAsWritten(s, None, None);
            r.Ok? && r.value.service.applications == OddPositions(s.applications) &&
            r.value.stopped == StopAll(EvenPositions(s.applications))
  {
    SpliceWhileVisitingShape(s.applications, 0);
    assert s.applications[0..] == s.applications;
  }

  /** Removing everything leaves every second application in place. */
  lemma RemoveAllLeavesEverySecond(a: Application, b: Application)
    ensures var r := RemoveAsWritten(ForeverService([a, b], false), None, None);
            r.Ok? && r.value.service.applications == [b]
  {
    var arr := [a, b];
    assert arr[..0] + arr[1..] == [b];
    assert SpliceWhileVisiting([b], 1) == ([b], []);
    assert SpliceWhileVisiting(arr, 0).0 == [b];
  }

  /** The selection `remove` evidently intends: applications with the given
      file and the given options; with neither given, all of them. */
  predicate Selected(a: Application, file: Option<string>, options: Option<string>)
  {
    (file.None? || file.value == a.file) && (options.None? || options.value == a.options)
  }

  /** `remove(file, options)` removing and stopping exactly the selected applications. */
  function Remove(s: ForeverService, file: Option<string>, options: Option<string>): (r: Result<Removal, ServiceError>)
    ensures r.Err? <==> s.paused
    ensures r.Ok? ==> r.value.service.paused == s.paused
    ensures r.Ok? ==> forall a :: a in r.value.service.applications ==> a in s.applications && !Selected(a, file, options)
    ensures r.Ok? ==> forall a :: a in s.applications && !Selected(a, file, options) ==> a in r.value.service.applications
    ensures r.Ok? && file.None? && options.None? ==> r.value.service.applications == []
    ensures r.Ok? ==> r.value.service.applications == Filter(s.applications, a => !Selected(a, file, options))
  {
    if s.paused then Err(Paused)
    else
      var selected := Filter(s.applications, a => Selected(a, file, options));
      var left := Filter(s.applications, a => !Selected(a, file, options));
      assert file.None? && options.None? ==> left == [] by {
        if file.None? && options.None? {
          FilterNone(s.applications, a => !Selected(a, file, options));
        }
      }
      Ok(Removal(s.(applications := left), StopAll(selected)))
  }

  /** `remove` stops the monitor of each selected application that has one,
      once each and in the registry's order, and stops nothing else. */
  lemma RemoveStopsSelected(s: ForeverService, file: Option<string>, options: Option<string>)
    requires !s.paused
    ensures var stopped := Remove(s, file, options).value.stopped;
            var chosen := Filter(s.applications, a => Selected(a, file, options) && a.monitor.Some?);
            |stopped| == |chosen| &&
            forall i :: 0 <= i < |chosen| ==>
              chosen[i] in chosen && chosen[i].monitor.Some? && stopped[i] == Monitor.Stop(chosen[i].monitor.value)
  {
    var selected := Filter(s.applications, a => Selected(a, file, options));
    StopAllMeaning(selected);
    FilterFilter(s.applications, a => Selected(a, file, options), HasMonitor,
                 a => Selected(a, file, options) && a.monitor.Some?);
  }

  predicate HasMonitor(a: Application)
  {
    a.monitor.Some?
  }

  /** The stops are those of the applications with a monitor, in order. */
  lemma {:induction false} StopAllMeaning(apps: seq<Application>)
    ensures var withMonitor := Filter(apps, HasMonitor);
            |StopAll(apps)| == |withMonitor| &&
            forall i :: 0 <= i < |withMonitor| ==>
              withMonitor[i] in withMonitor && withMonitor[i].monitor.Some? &&
              StopAll(apps)[i] == Monitor.Stop(withMonitor[i].monitor.value)
  {
    if |apps| > 0 {
      StopAllMeaning(apps[1..]);
      FilterCons(apps, HasMonitor);
    }
  }

  /** Filtering twice is filtering once by both predicates. */
  lemma {:induction false} FilterFilter(apps: seq<Application>, p: Application -> bool, q: Application -> bool,
                                        pq: Application -> bool)
    requires forall a :: pq(a) == (p(a) && q(a))
    ensures Filter(Filter(apps, p), q) == Filter(apps, pq)
  {
    if |apps| > 0 {
      var x := apps[0];
      FilterFilter(apps[1..], p, q, pq);
      var fp := Filter(apps[1..], p);
      var hp := if p(x) then [x] else [];
      assert Filter(apps, p) == hp + fp by {
        FilterCons(apps, p);
      }
      assert Filter(hp + fp, q) == Filter(hp, q) + Filter(fp, q) by {
        FilterAppend(hp, fp, q);
      }
      assert Filter(hp, q) == if pq(x) then [x] else [] by {
        if p(x) { FilterOne(x, q); }
      }
      assert Filter(apps, pq) == (if pq(x) then [x] else []) + Filter(apps[1..], pq) by {
        FilterCons(apps, pq);
      }
    }
  }

  /** A second identical `remove` finds nothing left to remove. */
  lemma RemoveIdempotent(s: ForeverService, file: Option<string>, options: Option<string>)
    requires !s.paused
    ensures var once := Remove(s, file, options).value.service;
            Remove(once, file, options).value.service == once
  {
    var once := Remove(s, file, options).value.service;
    FilterAll(once.applications, a => !Selected(a, file, options));
  }

  /** Filtering by a predicate every element already satisfies changes nothing. */
  lemma {:induction false} FilterAll(apps: seq<Application>, sel: Application -> bool)
    requires forall i :: 0 <= i < |apps| ==> sel(apps[i])
    ensures Filter(apps, sel) == apps
    decreases |apps|
  {
    if |apps| > 0 {
      FilterAll(apps[1..], sel);
      assert Filter(apps, sel) == [apps[0]] + apps[1..] by {
        FilterCons(apps, sel);
      }
      assert [apps[0]] + apps[1..] == apps;
    }
  }
}

=== FILE: uri.dfy ===
/** `request_uri_is_valid_char` of request.c: the characters a request URI
    may hold, after Appendix A of RFC 2396, plus '#', '[' and ']'. */
module UriChars {

  import opened Strings

  /** The `reserved` characters of section 2.2 of RFC 2396. */
  const Reserved: set<char> := {';', '/', '?', ':', '@', '&', '=', '+', '$', ','}

  /** The `mark` characters of section 2.3 of RFC 2396; with the
      alphanumerics they make up `unreserved`. */
  const Mark: set<char> := {'-', '_', '.', '!', '~', '*', '\'', '(', ')'}

  /** The `delims` and `unwise` characters section 2.4.3 of RFC 2396
      excludes from URIs. */
  const Delims: set<char> := {'<', '>', '#', '%', '"'}
  const Unwise: set<char> := {'{', '}', '|', '\\', '^', '[', ']', '`'}

  /** The US-ASCII control characters and space, also excluded. */
  predicate IsControlOrSpace(c: char) { c as int < 0x21 || c as int == 0x7F }

  /** `request_uri_is_valid_char(c)`. */
  function UriValidChar(c: char): (ok: bool)
    ensures ok <==> IsAlnum(c) || c in Reserved || c in Mark || c == '%' || c in {'#', '[', ']'}
  {
    if IsAlnum(c) then true
    else match c
      case ';' => true case '/' => true case '?' => true case ':' => true
      case '@' => true case '&' => true case '=' => true case '+' => true
      case '$' => true case ',' => true
      case '-' => true case '_' => true case '.' => true case '!' => true
      case '~' => true case '*' => true case '\'' => true case '(' => true
      case ')' => true
      case '%' => true
      case '#' => true
      case '[' => true case ']' => true
      case _ => false
  }

  predicate UriValid(u: string) { forall j :: 0 <= j < |u| ==> UriValidChar(u[j]) }

  /** Of the characters RFC 2396 excludes, only the escape character '%',
      the fragment mark '#' and the brackets pass; controls, space and the
      rest of `delims` and `unwise` are refused. */
  lemma ExcludedRefused(c: char)
    requires IsControlOrSpace(c) || c in Delims || c in Unwise
    ensures UriValidChar(c) <==> c in {'%', '#', '[', ']'}
  {
  }

  /** Nothing outside US-ASCII passes, and neither do the characters that
      end a request-line field: space, CR, LF and NUL. */
  lemma OnlyAscii(c: char)
    requires c as int > 0x7E || c in {' ', '\r', '\n', '\0'}
    ensures !UriValidChar(c)
  {
  }
}

=== FILE: values.dfy ===
/** `http_request_split_value` of request.c: a header value such as
    `val1, val2 ,val3` is cut at every ',' and each piece loses its leading
    and trailing spaces and tabs. The method follows the C loop and its three
    states; `Values` states the result piece by piece, and `ValuesSplit`
    relates it to a plain split at ','. */
module HeaderValues {

  import opened Strings

  predicate IsWs(c: char) { c == ' ' || c == '\t' }

  /** The number of leading spaces and tabs. */
  function LeadingWs(s: string): (n: nat)
    ensures n <= |s|
    ensures forall k :: 0 <= k < n ==> IsWs(s[k])
    ensures n < |s| ==> !IsWs(s[n])
    decreases |s|
  {
    if |s| > 0 && IsWs(s[0]) then 1 + LeadingWs(s[1..]) else 0
  }

  /** The length of `s` without its trailing spaces and tabs. */
  function UntilTrailingWs(s: string): (n: nat)
    ensures n <= |s|
    ensures forall k :: n <= k < |s| ==> IsWs(s[k])
    ensures n > 0 ==> !IsWs(s[n - 1])
    decreases |s|
  {
    if |s| > 0 && IsWs(s[|s| - 1]) then UntilTrailingWs(s[..|s| - 1]) else |s|
  }

  function Trim(s: string): string
  {
    var t := s[LeadingWs(s)..];
    t[..UntilTrailingWs(t)]
  }

  /** The values of a header, piece by piece: every piece before the last
      ',' is kept, even when it is blank, and the last piece only when it is
      not blank. */
  function Values(s: string): seq<string>
    decreases |s|
  {
    var k := FirstIndexOf(s, ',');
    if k == |s| then (if Trim(s) == "" then [] else [Trim(s)])
    else [Trim(s[..k])] + Values(s[k + 1..])
  }

  /** Only one length leaves nothing but blanks after it and ends in a
      non-blank. */
  lemma UntilTrailingWsUnique(s: string, n: nat)
    requires n <= |s| && forall k :: n <= k < |s| ==> IsWs(s[k])
    requires n == 0 || !IsWs(s[n - 1])
    ensures UntilTrailingWs(s) == n
  {
  }

  /** Only one count of leading blanks is followed by a non-blank. */
  lemma LeadingWsUnique(s: string, n: nat)
    requires n <= |s| && forall k :: 0 <= k < n ==> IsWs(s[k])
    requires n == |s| || !IsWs(s[n])
    ensures LeadingWs(s) == n
  {
  }

  /** The blanks from `seg` to `start` are the leading blanks of the slice
      from `seg` to `c`. */
  lemma LeadingWsSlice(b: string, seg: nat, start: nat, c: nat)
    requires seg <= start <= c <= |b|
    requires forall k :: seg <= k < start ==> IsWs(b[k])
    requires start < c ==> !IsWs(b[start])
    ensures LeadingWs(b[seg..c]) == start - seg
  {
    var x := b[seg..c];
    forall k | 0 <= k < start - seg
      ensures IsWs(x[k])
    {
      assert x[k] == b[seg + k];
    }
    if start < c {
      assert x[start - seg] == b[start];
    }
    LeadingWsUnique(x, start - seg);
  }

  /** The blanks after `end` are the trailing blanks of the slice from
      `start` to `c`. */
  lemma UntilTrailingWsSlice(b: string, start: nat, end: int, c: nat)
    requires start <= c <= |b| && start - 1 <= end < c
    requires forall k :: end + 1 <= k < c ==> IsWs(b[k])
    requires end >= start ==> !IsWs(b[end])
    ensures UntilTrailingWs(b[start..c]) == end + 1 - start
  {
    var t := b[start..c];
    var m := end + 1 - start;
    forall k | m <= k < |t|
      ensures IsWs(t[k])
    {
      assert t[k] == b[start + k];
    }
    if m > 0 {
      assert t[m - 1] == b[end];
    }
    UntilTrailingWsUnique(t, m);
  }

  /** The value the C loop copies for one piece: after the blanks skipped in
      state 0, up to the ',' or the end, with trailing blanks stripped down to
      the first character. */
  lemma PieceIsTrimmed(b: string, seg: nat, start: nat, c: nat, end: int)
    requires seg <= start <= c <= |b|
    requires forall k :: seg <= k < start ==> IsWs(b[k])
    requires start < c ==> !IsWs(b[start])
    requires start - 1 <= end < c
    requires forall k :: end + 1 <= k < c ==> IsWs(b[k])
    requires end >= start || start == c
    requires end > start ==> !IsWs(b[end])
    ensures b[start..end + 1] == Trim(b[seg..c])
  {
    LeadingWsSlice(b, seg, start, c);
    UntilTrailingWsSlice(b, start, end, c);
    PieceOfCounts(b, seg, start, end + 1, c);
  }

  /** The piece between the leading and the trailing blanks, by their
      counts. */
  lemma PieceOfCounts(b: string, seg: nat, start: nat, e: nat, c: nat)
    requires seg <= start <= e <= c <= |b|
    requires LeadingWs(b[seg..c]) == start - seg && UntilTrailingWs(b[start..c]) == e - start
    ensures b[start..e] == Trim(b[seg..c])
  {
    SliceOfSlice(b, seg, start, e, c);
    TrimOf(b[seg..c], start - seg, e - start);
  }

  /** `Trim` keeps what lies between the leading and the trailing blanks. */
  lemma TrimOf(x: string, n: nat, m: nat)
    requires n <= |x| && LeadingWs(x) == n && m <= |x| - n && UntilTrailingWs(x[n..]) == m
    ensures Trim(x) == x[n..][..m]
  {
  }

  /** A slice of a slice is a slice. */
  lemma SliceOfSlice(b: string, seg: nat, start: nat, e: nat, c: nat)
    requires seg <= start <= e <= c <= |b|
    ensures b[seg..c][start - seg..] == b[start..c]
    ensures b[start..c][..e - start] == b[start..e]
  {
  }

  /** State 0: skip spaces and tabs from `i`. */
  method SkipWs(b: string, i: nat) returns (j: nat)
    requires i <= |b|
    ensures i <= j <= |b| && (j < |b| ==> !IsWs(b[j]))
    ensures forall k :: i <= k < j ==> IsWs(b[k])
  {
    j := i;
    while j < |b| && IsWs(b[j])
      invariant i <= j <= |b| && forall k :: i <= k < j ==> IsWs(b[k])
    {
      j := j + 1;
    }
  }

  /** State 1, first loop: advance to the next ',' or the end. */
  method ToComma(b: string, i: nat) returns (c: nat)
    requires i <= |b|
    ensures i <= c <= |b| && (c < |b| ==> b[c] == ',')
    ensures forall k :: i <= k < c ==> b[k] != ','
  {
    c := i;
    while c < |b| && b[c] != ','
      invariant i <= c <= |b| && forall k :: i <= k < c ==> b[k] != ','
    {
      c := c + 1;
    }
  }

  /** State 1, second loop: move the end pointer back over trailing blanks,
      never below the first character of the piece. */
  method BackOverWs(b: string, start: nat, c: nat) returns (end: int)
    requires start <= c <= |b|
    ensures start - 1 <= end < c && (end >= start || start == c)
    ensures forall k :: end + 1 <= k < c ==> IsWs(b[k])
    ensures end > start ==> !IsWs(b[end])
  {
    end := c - 1;
    while end > start && IsWs(b[end])
      invariant start - 1 <= end < c && (end >= start || start == c)
      invariant forall k :: end + 1 <= k < c ==> IsWs(b[k])
    {
      end := end - 1;
    }
  }

  /** `http_request_split_value(vals, b)`, with the `array` of results as a
      sequence in insertion order. */
  method SplitValues(b: string) returns (vals: seq<string>)
    ensures vals == Values(b)
  {
    vals := [];
    var i := 0;
    var state := 0;
    ghost var seg := 0;
    while i < |b|
      invariant 0 <= seg <= i <= |b| && 0 <= state <= 2
      invariant state == 0 ==> i == seg
      invariant state == 1 ==> (forall k :: seg <= k < i ==> IsWs(b[k])) && (i < |b| ==> !IsWs(b[i]))
      invariant state != 2 ==> vals + Values(b[seg..]) == Values(b)
      invariant state == 2 ==> vals == Values(b)
      decreases |b| - i, 2 - state
    {
      if state == 0 {
        i := SkipWs(b, i);
        state := 1;
        assert vals + Values(b[seg..]) == Values(b);
      } else if state == 1 {
        var c, v := Piece(b, seg, i);
        ValuesAccum(b, seg, c, vals, v);
        vals := vals + [v];
        i := c;
        if i < |b| && b[i] == ',' {
          state := 0;
          i := i + 1;
          seg := i;
          assert vals + Values(b[seg..]) == Values(b);
        } else {
          state := 2;
        }
      } else {
        i := i + 1;
      }
    }
    if state == 0 {
      assert b[seg..] == [];
    } else if state == 1 {
      BlankValues(b[seg..]);
    }
  }

  /** The values found so far and the next one, with the values after it,
      are all the values. */
  lemma {:induction false} ValuesAccum(b: string, seg: nat, c: nat, found: seq<string>, v: string)
    requires seg <= c <= |b| && found + Values(b[seg..]) == Values(b)
    requires c < |b| ==> Values(b[seg..]) == [v] + Values(b[c + 1..])
    requires c == |b| ==> Values(b[seg..]) == [v]
    ensures c < |b| ==> (found + [v]) + Values(b[c + 1..]) == Values(b)
    ensures c == |b| ==> found + [v] == Values(b)
  {
    if c < |b| {
      AppendOne(found, v, Values(b[seg..]), Values(b[c + 1..]), Values(b));
    }
  }

  /** One element moved from the front of the rest to the end of the prefix. */
  lemma AppendOne<T>(found: seq<T>, v: T, x: seq<T>, y: seq<T>, all: seq<T>)
    requires found + x == all && x == [v] + y
    ensures (found + [v]) + y == all
  {
    assert (found + [v]) + y == found + ([v] + y);
  }

  /** State 1 from `start`, the first non-blank after `seg`: the piece up to
      the next ',' (at `c`) or the end, without its trailing blanks, is the
      next value. */
  method Piece(b: string, ghost seg: nat, start: nat) returns (c: nat, v: string)
    requires seg <= start < |b|
    requires (forall k :: seg <= k < start ==> IsWs(b[k])) && !IsWs(b[start])
    ensures start <= c <= |b| && (c < |b| ==> b[c] == ',')
    ensures c < |b| ==> Values(b[seg..]) == [v] + Values(b[c + 1..])
    ensures c == |b| ==> Values(b[seg..]) == [v]
  {
    c := ToComma(b, start);
    var end := BackOverWs(b, start, c);
    PieceIsTrimmed(b, seg, start, c, end);
    ValuesStep(b, seg, start, c);
    v := b[start..end + 1];
  }

  /** Text with nothing but blanks has no values. */
  lemma BlankValues(s: string)
    requires forall k :: 0 <= k < |s| ==> IsWs(s[k])
    ensures Values(s) == []
  {
    assert forall j :: 0 <= j < |s| ==> s[j] != ',';
    LeadingWsUnique(s, |s|);
  }

  /** `FirstIndexOf` is pinned down by where the first occurrence is. */
  lemma FirstIndexIs(s: string, c: char, k: nat)
    requires k <= |s| && (k < |s| ==> s[k] == c)
    requires forall j :: 0 <= j < k ==> s[j] != c
    ensures FirstIndexOf(s, c) == k
  {
  }

  /** One piece of state 1: the piece from `seg` to the ',' at `c` (or to
      the end) is the next value, and the rest follows. */
  lemma ValuesStep(b: string, seg: nat, start: nat, c: nat)
    requires seg <= start < c <= |b| || (seg <= start == c < |b|)
    requires (forall k :: seg <= k < start ==> IsWs(b[k])) && (start < |b| ==> !IsWs(b[start]))
    requires forall k :: start <= k < c ==> b[k] != ','
    requires c < |b| ==> b[c] == ','
    ensures c < |b| ==> Values(b[seg..]) == [Trim(b[seg..c])] + Values(b[c + 1..])
    ensures c == |b| ==> Values(b[seg..]) == [Trim(b[seg..c])]
  {
    FirstCommaAt(b, seg, start, c);
    if c < |b| {
      ValuesCut(b, seg, c);
    } else {
      ValuesEnd(b, seg, start);
      ValuesLast(b, seg);
    }
  }

  /** The first ',' from `seg` on is the one at `c`: the blanks before
      `start` are not commas. */
  lemma FirstCommaAt(b: string, seg: nat, start: nat, c: nat)
    requires seg <= start <= c <= |b|
    requires forall k :: seg <= k < start ==> IsWs(b[k])
    requires forall k :: start <= k < c ==> b[k] != ','
    requires c < |b| ==> b[c] == ','
    ensures FirstIndexOf(b[seg..], ',') == c - seg
  {
    var s := b[seg..];
    forall j | 0 <= j < c - seg
      ensures s[j] != ','
    {
      assert s[j] == b[seg + j];
    }
    if c < |b| {
      assert s[c - seg] == b[c];
    }
    FirstIndexIs(s, ',', c - seg);
  }

  /** A ',' at `c`, the first from `seg` on, ends the next value. */
  lemma ValuesCut(b: string, seg: nat, c: nat)
    requires seg <= c < |b| && FirstIndexOf(b[seg..], ',') == c - seg
    ensures Values(b[seg..]) == [Trim(b[seg..c])] + Values(b[c + 1..])
  {
    assert b[seg..][..c - seg] == b[seg..c];
    assert b[seg..][c - seg + 1..] == b[c + 1..];
  }

  /** Without a ',' from `seg` on, a piece that is not blank is the last
      value. */
  lemma ValuesLast(b: string, seg: nat)
    requires seg <= |b| && FirstIndexOf(b[seg..], ',') == |b| - seg && Trim(b[seg..]) != ""
    ensures Values(b[seg..]) == [Trim(b[seg..|b|])]
  {
    assert b[seg..] == b[seg..|b|];
  }

  /** The last piece, when it holds a non-blank character, is a value. */
  lemma ValuesEnd(b: string, seg: nat, start: nat)
    requires seg <= start < |b|
    requires (forall k :: seg <= k < start ==> IsWs(b[k])) && !IsWs(b[start])
    ensures Trim(b[seg..]) != ""
  {
    var s := b[seg..];
    assert forall k :: 0 <= k < start - seg ==> IsWs(s[k]) by {
      forall k | 0 <= k < start - seg ensures IsWs(s[k]) { assert s[k] == b[seg + k]; }
    }
    LeadingWsUnique(s, start - seg);
    var t := s[start - seg..];
    assert t[0] == b[start];
    assert UntilTrailingWs(t) > 0;
  }

  /** The last piece of a split, as a value: kept only when not blank. */
  function LastValue(parts: seq<string>): seq<string>
    requires |parts| >= 1
  {
    if Trim(parts[|parts| - 1]) == "" then [] else [Trim(parts[|parts| - 1])]
  }

  /** The values are the pieces of a split at ',', trimmed, with a blank
      last piece dropped. */
  lemma {:induction false} ValuesSplit(s: string)
    ensures Values(s) == TrimAll(Split(s, ',')[..|Split(s, ',')| - 1]) + LastValue(Split(s, ','))
    decreases |s|
  {
    var k := FirstIndexOf(s, ',');
    if k < |s| {
      ValuesSplit(s[k + 1..]);
      SplitCons(s, k);
    } else {
      assert Split(s, ',') == [s];
    }
  }

  /** A split and the values at a first ',' at `k`. */
  lemma {:induction false} SplitCons(s: string, k: nat)
    requires k < |s| && FirstIndexOf(s, ',') == k
    ensures Values(s) == [Trim(s[..k])] + Values(s[k + 1..])
    ensures TrimAll(Split(s, ',')[..|Split(s, ',')| - 1]) ==
              [Trim(s[..k])] + TrimAll(Split(s[k + 1..], ',')[..|Split(s[k + 1..], ',')| - 1])
    ensures LastValue(Split(s, ',')) == LastValue(Split(s[k + 1..], ','))
  {
    var rest := Split(s[k + 1..], ',');
    assert Split(s, ',') == [s[..k]] + rest;
    assert Split(s, ',')[..|Split(s, ',')| - 1] == [s[..k]] + rest[..|rest| - 1];
    TrimAllCons(s[..k], rest[..|rest| - 1]);
  }

  function TrimAll(parts: seq<string>): (r: seq<string>)
    ensures |r| == |parts|
    ensures forall j :: 0 <= j < |r| ==> r[j] == Trim(parts[j])
  {
    if |parts| == 0 then [] else [Trim(parts[0])] + TrimAll(parts[1..])
  }

  lemma TrimAllCons(p: string, parts: seq<string>)
    ensures TrimAll([p] + parts) == [Trim(p)] + TrimAll(parts)
  {
    assert ([p] + parts)[1..] == parts;
  }

  /** Examples: blanks around a value go, and blank text has no values. */
  lemma ValuesExamples()
    ensures Values("") == []
    ensures Values(" close\t") == ["close"]
  {
    BlankValues("");
    FirstIndexIs(" close\t", ',', 7);
    TrimExample();
  }

  lemma TrimExample()
    ensures Trim(" close\t") == "close"
  {
    var s := " close\t";
    assert LeadingWs(s) == 1;
    assert s[1..] == "close\t";
    TrailingExample();
    TrimOf(s, 1, 5);
    assert s[1..][..5] == "close";
  }

  lemma TrailingExample()
    ensures UntilTrailingWs("close\t") == 5
  {
    UntilTrailingWsUnique("close\t", 5);
  }
}

=== FILE: watch.dfy ===
/** The `watch` plugin of lib/forever/plugins/watch.js: which changed files
    restart the monitored child, and how `.foreverignore` adds ignore
    patterns. The glob matcher and `path.relative` are parameters. */
module Watch {

  import opened Wrappers
  import opened Strings
  import Monitor

  /** The monitor's watch settings. */
  datatype WatchConfig = WatchConfig(directory: string, ignoreDotFiles: bool, patterns: seq<string>)

  /** The index of the first pattern `name` matches, or `|patterns|`. */
  function FirstMatching(name: string, patterns: seq<string>, matches: (string, string) -> bool): (k: nat)
    ensures k <= |patterns|
    ensures k < |patterns| ==> matches(name, patterns[k])
    ensures forall j :: 0 <= j < k ==> !matches(name, patterns[j])
    decreases |patterns|
  {
    if |patterns| == 0 then 0
    else if matches(name, patterns[0]) then 0
    else 1 + FirstMatching(name, patterns[1..], matches)
  }

  /** A dot-file as `watchFilter` sees it: its last path component starts with '.'. */
  predicate IsDotFile(file: string)
  {
    var base := Basename(file);
    |base| > 0 && base[0] == '.'
  }

  /** `watchFilter(fileName)`: whether a change of `file` restarts the child.
      `relative(from, to)` is `path.relative` and `matches(name, pattern)` is
      `minimatch` with `matchBase`. */
  function WatchFilter(cfg: WatchConfig, file: string,
                       relative: (string, string) -> string,
                       matches: (string, string) -> bool): (accept: bool)
    ensures cfg.ignoreDotFiles && IsDotFile(file) ==> !accept
    ensures accept <==>
              !(cfg.ignoreDotFiles && IsDotFile(file)) &&
              forall j :: 0 <= j < |cfg.patterns| ==> !matches(relative(cfg.directory, file), cfg.patterns[j])
  {
    if cfg.ignoreDotFiles && IsDotFile(file) then false
    else FirstMatching(relative(cfg.directory, file), cfg.patterns, matches) == |cfg.patterns|
  }

  /** Adding patterns only ever rejects more files. */
  lemma MorePatternsRejectMore(cfg: WatchConfig, extra: seq<string>, file: string,
                               relative: (string, string) -> string,
                               matches: (string, string) -> bool)
    requires WatchFilter(cfg.(patterns := cfg.patterns + extra), file, relative, matches)
    ensures WatchFilter(cfg, file, relative, matches)
  {
    var all := cfg.patterns + extra;
    forall j | 0 <= j < |cfg.patterns|
      ensures !matches(relative(cfg.directory, file), cfg.patterns[j])
    {
      assert cfg.patterns[j] == all[j];
    }
  }

  /** What `watch.watchTree` reports: the end of the initial walk (a file
      table with no stat objects) or a change to one file. */
  datatype Notification = WalkDone | Changed(file: string)

  datatype WatchOutcome = Ignored | Restarted(step: Monitor.StepResult)

  /** The `watchTree` callback of `attach`: an accepted change restarts the monitor. */
  function OnNotification(m: Monitor.Monitor, cfg: WatchConfig, n: Notification,
                          relative: (string, string) -> string,
                          matches: (string, string) -> bool): (r: WatchOutcome)
    ensures n.WalkDone? ==> r.Ignored?
    ensures n.Changed? ==> (r.Restarted? <==> WatchFilter(cfg, n.file, relative, matches))
    ensures r.Restarted? ==> r.step == Monitor.Restart(m) && r.step.m.forceStop == m.forceStop
  {
    match n
    case WalkDone => Ignored
    case Changed(file) =>
      if WatchFilter(cfg, file, relative, matches) then Restarted(Monitor.Restart(m)) else Ignored
  }

  /** The `.foreverignore` reader: `None` when the file cannot be read, in
      which case the patterns are unchanged; otherwise one pattern per line
      is appended. */
  function AddIgnoreFile(cfg: WatchConfig, contents: Option<string>): (r: WatchConfig)
    ensures r.directory == cfg.directory && r.ignoreDotFiles == cfg.ignoreDotFiles
    ensures contents.None? ==> r == cfg
    ensures contents.Some? ==>
              |r.patterns| == |cfg.patterns| + Count(contents.value, '\n') + 1 &&
              r.patterns[..|cfg.patterns|] == cfg.patterns &&
              JoinWith(r.patterns[|cfg.patterns|..], '\n') == contents.value
  {
    match contents
    case None => cfg
    case Some(text) =>
      var lines := Split(text, '\n');
      SplitCount(text, '\n');
      JoinSplit(text, '\n');
      assert (cfg.patterns + lines)[|cfg.patterns|..] == lines;
      cfg.(patterns := cfg.patterns + lines)
  }

  /** A line of `.foreverignore` that matches the file's relative path stops
      it from restarting the child. */
  lemma IgnoredLineRejects(cfg: WatchConfig, text: string, file: string,
                           relative: (string, string) -> string,
                           matches: (string, string) -> bool, j: nat)
    requires j < |Split(text, '\n')| && matches(relative(cfg.directory, file), Split(text, '\n')[j])
    ensures !WatchFilter(AddIgnoreFile(cfg, Some(text)), file, relative, matches)
  {
    var r := AddIgnoreFile(cfg, Some(text));
    assert r.patterns[|cfg.patterns| + j] == Split(text, '\n')[j];
  }
}

=== FILE: worker.dfy ===
/** The control-socket worker of lib/forever/worker.js: the search for the
    first free `worker.<n>.sock` slot, the constructor's flags, the `start`
    guard and the handling of the `ping`, `data`, `spawn` and `kill`
    messages. The socket directory is a finite map from slot numbers to the
    answer `fs.stat` gives; the transport itself is left out. */
module Worker {

  import opened Wrappers
  import opened Strings
  import opened Paths
  import Monitor

  /* ----- `findSocket` ----- */

  /** What `fs.stat` reports for one socket path. */
  datatype StatAnswer = Exists | NoEntry | StatFailed(code: string)

  /** The socket directory: the slots `fs.stat` does not answer `ENOENT` for. */
  type SockDir = map<nat, StatAnswer>

  function Answer(dir: SockDir, n: nat): StatAnswer
  {
    if n in dir then dir[n] else NoEntry
  }

  function SocketName(sockPath: string, n: nat): string
  {
    Join(sockPath, "worker." + NatToString(n) + ".sock")
  }

  /** A number above every slot of the directory. */
  ghost function Bound(slots: set<nat>): (b: nat)
    ensures forall k :: k in slots ==> k < b
  {
    if slots == {} then 0
    else
      var k :| k in slots;
      var b := Bound(slots - {k});
      assert forall j :: j in slots ==> j == k || j in slots - {k};
      if k < b then b else k + 1
  }

  /** The slot at which the search started at `n` stops: the first one that
      does not exist. */
  function StopSlot(dir: SockDir, n: nat): (k: nat)
    ensures n <= k
    ensures !Answer(dir, k).Exists?
    ensures forall j :: n <= j < k ==> Answer(dir, j).Exists?
    decreases var b := Bound(dir.Keys); if n < b then b - n else 0
  {
    if Answer(dir, n).Exists? then StopSlot(dir, n + 1) else n
  }

  /** `findSocket(sockPath, startAt)`: the socket path of the least slot from
      `startAt` on that `fs.stat` reports missing, or the first other stat
      error met on the way. `startAt` is 0 when falsy. */
  function FindSocket(sockPath: string, dir: SockDir, startAt: nat): (r: Result<string, string>)
    ensures var k := StopSlot(dir, startAt);
            (r.Ok? <==> Answer(dir, k).NoEntry?) &&
            (r.Ok? ==> r.value == SocketName(sockPath, k)) &&
            (r.Err? ==> Answer(dir, k) == StatFailed(r.error))
  {
    var k := StopSlot(dir, startAt);
    match Answer(dir, k)
    case StatFailed(code) => Err(code)
    case _ => Ok(SocketName(sockPath, k))
  }

  /** A name framed by the same prefix and suffix determines what it frames. */
  lemma InfixCancel(p: string, x: string, y: string, q: string)
    ensures p + x + q == p + y + q ==> x == y
  {
    if p + x + q == p + y + q {
      assert x == (p + x + q)[|p|..|p| + |x|];
      assert y == (p + y + q)[|p|..|p| + |y|];
    }
  }

  /** A socket file name is a single path segment. */
  lemma SocketFileSegment(n: nat)
    ensures Segment("worker." + NatToString(n) + ".sock")
  {
    var x := NatToString(n);
    var f := "worker." + x + ".sock";
    assert f[0] == 'w';
    forall j | 0 <= j < |f| ensures f[j] != '/' {
      if j < 7 { assert f[j] == "worker."[j]; }
      else if j < 7 + |x| { assert f[j] == x[j - 7]; assert IsDigit(x[j - 7]); }
      else { assert f[j] == ".sock"[j - 7 - |x|]; }
    }
  }

  /** Distinct slots have distinct socket paths: the base names differ. */
  lemma SocketNamesDistinct(sockPath: string, m: nat, n: nat)
    requires m != n
    ensures SocketName(sockPath, m) != SocketName(sockPath, n)
  {
    NatToStringInjective(m, n);
    var x, y := NatToString(m), NatToString(n);
    InfixCancel("worker.", x, y, ".sock");
    SocketFileSegment(m);
    SocketFileSegment(n);
    JoinBasename(sockPath, "worker." + x + ".sock");
    JoinBasename(sockPath, "worker." + y + ".sock");
  }

  /** Once a worker listens on the slot found, the next worker's search from
      the same start finds a later slot. */
  lemma NextWorkerNextSlot(sockPath: string, dir: SockDir, startAt: nat)
    requires FindSocket(sockPath, dir, startAt).Ok?
    ensures var k := StopSlot(dir, startAt);
            StopSlot(dir[k := Exists], startAt) > k
  {
    var k := StopSlot(dir, startAt);
    var dir2 := dir[k := Exists];
    assert forall j :: startAt <= j <= k ==> Answer(dir2, j).Exists? by {
      forall j | startAt <= j <= k
        ensures Answer(dir2, j).Exists?
      {
        if j < k {
          assert Answer(dir2, j) == Answer(dir, j);
        }
      }
    }
  }

  /* ----- the worker ----- */

  /** The value of the `exitOnKill` option: a boolean, anything else, or missing. */
  datatype Flag = BoolFlag(b: bool) | OtherFlag(text: string) | NoFlag

  /** The supervised monitor as the worker sees it: the monitor record, the
      value of its `data` property (none is defined by
      lib/forever/monitor.js, so a real monitor answers `undefined`), and
      whether the code that handed it over listens for its `error`. */
  datatype MonitorHandle = MonitorHandle(m: Monitor.Monitor, data: Option<Monitor.Snapshot>, errorHeard: bool)

  datatype WorkerOptions = WorkerOptions(monitor: Option<MonitorHandle>, sockPath: Option<string>, exitOnKill: Flag)

  /** `server` records that `_socket` has been created; `stopListeners`
      counts the `stop` listeners earlier `kill` requests left on the monitor. */
  datatype Worker = Worker(
    monitor: Option<MonitorHandle>,
    sockPath: string,
    exitOnKill: bool,
    server: bool,
    stopListeners: nat)

  /** `new Worker(options)`; `configSockPath` is the configured `sockPath`
      (the empty string standing for an unset one). */
  function NewWorker(opts: WorkerOptions, configSockPath: string): (w: Worker)
    ensures w.exitOnKill <==> opts.exitOnKill == BoolFlag(true)
    ensures w.sockPath == (if Truthy(opts.sockPath) then opts.sockPath.value else configSockPath)
    ensures !w.server && w.monitor == opts.monitor && w.stopListeners == 0
  {
    Worker(opts.monitor, Or(opts.sockPath, configSockPath), opts.exitOnKill == BoolFlag(true), false, 0)
  }

  /** A truthy flag that is not the boolean `true` leaves `exitOnKill` off. */
  lemma OnlyTrueExits(sockPath: string)
    ensures !NewWorker(WorkerOptions(None, None, OtherFlag("true")), sockPath).exitOnKill
    ensures !NewWorker(WorkerOptions(None, None, NoFlag), sockPath).exitOnKill
    ensures NewWorker(WorkerOptions(None, None, BoolFlag(true)), sockPath).exitOnKill
  {
  }

  datatype StartError = AlreadyStarted | SocketError(code: string)

  /** `start()`: throws on a worker that already has a server, else creates
      it and reports the socket path it listens on or the search error. */
  function Start(w: Worker, dir: SockDir): (r: (Worker, Result<string, StartError>))
    ensures w.server ==> r == (w, Err(AlreadyStarted))
    ensures !w.server ==> r.0 == w.(server := true)
    ensures !w.server ==> (r.1.Ok? <==> FindSocket(w.sockPath, dir, 0).Ok?)
    ensures !w.server && r.1.Ok? ==> r.1.value == SocketName(w.sockPath, StopSlot(dir, 0))
  {
    if w.server then (w, Err(AlreadyStarted))
    else
      var w2 := w.(server := true);
      match FindSocket(w.sockPath, dir, 0)
      case Ok(sock) => (w2, Ok(sock))
      case Err(code) => (w2, Err(SocketError(code)))
  }

  /** A second `start` throws even when the first one's socket search failed. */
  lemma StartTwiceThrows(w: Worker, dir: SockDir, dir2: SockDir)
    ensures Start(Start(w, dir).0, dir2).1 == Err(AlreadyStarted)
  {
  }

  /* ----- message handling ----- */

  datatype Message =
    | Ping
    | Data
    | Spawn(script: Option<Monitor.Script>, options: Monitor.MonitorOptions)
    | Kill

  datatype SpawnFailure = NoScript | AlreadyRunning

  datatype Reply =
    | Pong                              // ['pong']
    | DataReply(payload: Option<Monitor.Snapshot>)  // ['data'], monitor.data
    | SpawnError(reason: SpawnFailure)  // ['spawn', 'error']
    | SpawnStart                        // ['spawn', 'start']
    | KillStop                          // ['kill', 'stop']

  /** The inputs a spawned monitor's constructor and first start need. */
  datatype SpawnEnv = SpawnEnv(root: string, pidPath: string, freshUid: string, now: int,
                               targetExists: bool, pid: int, hostPid: int)

  /** The result of one message: the worker afterwards, the replies sent, the
      monitor a `spawn` created and whether the process exits; or the
      handler threw because the worker has no monitor; or the monitor a
      `spawn` created emitted `error`. The handler listens only for `start`,
      so that `error` has no listener, Node throws it, and the worker
      process dies. */
  datatype Handled =
    | Handled(w: Worker, replies: seq<Reply>, spawned: Option<Monitor.StepResult>, exit: bool)
    | Threw
    | Crashed(died: Monitor.StepResult)

  /** JavaScript truthiness of `data.script`: arrays are always truthy. */
  predicate HasScript(script: Option<Monitor.Script>)
  {
    script.Some? && (script.value.ScriptArgv? || script.value.path != "")
  }

  function Repeat(r: Reply, n: nat): (s: seq<Reply>)
    ensures |s| == n && forall i :: 0 <= i < n ==> s[i] == r
  {
    if n == 0 then [] else [r] + Repeat(r, n - 1)
  }

  /** A new monitor built from the request and started. */
  function SpawnMonitor(script: Monitor.Script, options: Monitor.MonitorOptions, env: SpawnEnv): Monitor.StepResult
  {
    var m := Monitor.New(script, options, env.root, env.pidPath, env.freshUid);
    Monitor.Start(m, false, env.now, env.targetExists, env.pid, env.hostPid)
  }

  /** Whether a start step emitted `start`. */
  predicate EmittedStart(s: Monitor.StepResult)
  {
    exists i :: 0 <= i < |s.events| && s.events[i].Started?
  }

  /** Whether a start step emitted `error`. */
  predicate EmittedError(s: Monitor.StepResult)
  {
    exists i :: 0 <= i < |s.events| && s.events[i].Error?
  }

  /** Whether the first start of the monitor a `spawn` builds finds no target:
      `trySpawn` stats `options[0]` and it is missing, or there is none. */
  predicate SpawnTargetMissing(script: Monitor.Script, options: Monitor.MonitorOptions, env: SpawnEnv)
  {
    var m := Monitor.New(script, options, env.root, env.pidPath, env.freshUid);
    Monitor.StatsTarget(m) && !(|m.options| > 0 && env.targetExists)
  }

  /** What a spawned monitor's first start leaves: the process dies on its
      `error`; otherwise `spawn start` is sent once it emits `start`. */
  function SpawnOutcome(w: Worker, s: Monitor.StepResult): Handled
  {
    if EmittedError(s) then Crashed(s)
    else Handled(w, if EmittedStart(s) then [SpawnStart] else [], Some(s), false)
  }

  /** The monitor a message started, whether or not the worker survived it. */
  function Spawned(r: Handled): Option<Monitor.StepResult>
  {
    match r
    case Handled(_, _, spawned, _) => spawned
    case Threw => None
    case Crashed(died) => Some(died)
  }

  /** The `kill` handler: a `stop` listener is added, then `monitor.kill()`
      runs with no argument, that is as a restart. Every `stop` listener
      replies when the monitor emits `stop`. A monitor with no running child
      emits `error` instead, which kills the process unless someone listens. */
  function HandleKill(w: Worker, exitOnStop: bool): Handled
  {
    match w.monitor
    case None => Threw
    case Some(h) =>
      var k := Monitor.Kill(h.m, false);
      var listeners := w.stopListeners + 1;
      var w2 := w.(monitor := Some(h.(m := k.m)), stopListeners := listeners);
      var stopped := k.events == [Monitor.Stopped(h.m.childData)];
      if !stopped && !h.errorHeard then Crashed(k)
      else Handled(w2, if stopped then Repeat(KillStop, listeners) else [], None, stopped && exitOnStop)
  }

  /** The handlers as written. The `spawn` guard reads `this.monitor`, where
      `this` is the socket, never the worker, so it never refuses; and the
      `stop` listener reads `this.exitOnKill` on the monitor, which has no such
      property, so `kill` never ends the process. */
  function HandleAsWritten(w: Worker, msg: Message, env: SpawnEnv): (r: Handled)
    ensures msg.Spawn? && HasScript(msg.script) ==>
              Spawned(r) == Some(SpawnMonitor(msg.script.value, msg.options, env)) &&
              (r.Crashed? <==> SpawnTargetMissing(msg.script.value, msg.options, env)) &&
              (r.Handled? ==> r.w == w && r.replies == [SpawnStart])
    ensures msg.Kill? && r.Handled? ==> !r.exit
    ensures msg.Kill? && w.monitor.Some? ==>
              (r.Crashed? <==> !(w.monitor.value.m.running && w.monitor.value.m.child.Some?) && !w.monitor.value.errorHeard)
  {
    match msg
    case Ping => Handled(w, [Pong], None, false)
    case Data => if w.monitor.None? then Threw else Handled(w, [DataReply(w.monitor.value.data)], None, false)
    case Spawn(script, options) =>
      if !HasScript(script) then Handled(w, [SpawnError(NoScript)], None, false)
      else
        SpawnStartMeaning(script.value, options, env);
        SpawnOutcome(w, SpawnMonitor(script.value, options, env))
    case Kill => HandleKill(w, false)
  }

  /** A worker already supervising a running monitor still spawns a second
      one on request. */
  lemma SpawnGuardNeverFires(w: Worker, script: Monitor.Script, options: Monitor.MonitorOptions, env: SpawnEnv)
    requires w.monitor.Some? && HasScript(Some(script))
    ensures Spawned(HandleAsWritten(w, Spawn(Some(script), options), env)).Some?
    ensures Handle(w, Spawn(Some(script), options), env) == Handled(w, [SpawnError(AlreadyRunning)], None, false)
  {
  }

  /** A worker built with `exitOnKill: true` does not exit after `kill`. */
  lemma ExitOnKillIgnored(w: Worker, h: MonitorHandle, env: SpawnEnv)
    requires w.exitOnKill && w.monitor == Some(h) && h.m.running && h.m.child.Some?
    ensures HandleAsWritten(w, Kill, env).Handled? && !HandleAsWritten(w, Kill, env).exit
    ensures Handle(w, Kill, env).Handled? && Handle(w, Kill, env).exit
  {
  }

  /** `kill` on a worker whose monitor has no running child: the monitor's
      "not running" error kills the worker unless its owner listens for it,
      and then nothing is answered. */
  lemma KillStoppedMonitor(w: Worker, h: MonitorHandle, env: SpawnEnv)
    requires w.monitor == Some(h) && !h.m.running
    ensures var r := Handle(w, Kill, env);
            (r.Crashed? <==> !h.errorHeard) &&
            (r.Handled? ==> r.replies == [] && !r.exit && r.w.monitor == Some(h))
  {
  }

  /** The handlers with the guard on the worker's own monitor and the exit
      decided by the worker's own flag. */
  function Handle(w: Worker, msg: Message, env: SpawnEnv): (r: Handled)
    ensures msg.Ping? ==> r == Handled(w, [Pong], None, false)
    ensures msg.Data? ==> (r.Threw? <==> w.monitor.None?)
    ensures msg.Data? && r.Handled? ==> r.replies == [DataReply(w.monitor.value.data)] && r.w == w
    ensures msg.Spawn? && !HasScript(msg.script) ==> r == Handled(w, [SpawnError(NoScript)], None, false)
    ensures msg.Spawn? && HasScript(msg.script) && w.monitor.Some? ==>
              r == Handled(w, [SpawnError(AlreadyRunning)], None, false)
    ensures msg.Spawn? && r.Handled? && r.spawned.Some? ==>
              (r.replies == [SpawnStart] <==> EmittedStart(r.spawned.value)) && r.w == w
    ensures msg.Spawn? && HasScript(msg.script) && w.monitor.None? ==>
              Spawned(r) == Some(SpawnMonitor(msg.script.value, msg.options, env)) &&
              (r.Crashed? <==> SpawnTargetMissing(msg.script.value, msg.options, env)) &&
              (r.Handled? ==> r.replies == [SpawnStart] && !r.exit)
    ensures msg.Kill? ==> (r.Threw? <==> w.monitor.None?)
    ensures msg.Kill? && w.monitor.Some? ==>
              (r.Crashed? <==> !(w.monitor.value.m.running && w.monitor.value.m.child.Some?) && !w.monitor.value.errorHeard)
    ensures msg.Kill? && r.Crashed? ==> r.died.events == [Monitor.Error(Monitor.NotRunning)]
    ensures msg.Kill? && r.Handled? ==>
              r.w.stopListeners == w.stopListeners + 1 &&
              (r.exit <==> w.exitOnKill && w.monitor.value.m.running && w.monitor.value.m.child.Some?) &&
              (forall i :: 0 <= i < |r.replies| ==> r.replies[i] == KillStop) &&
              (|r.replies| > 0 <==> w.monitor.value.m.running && w.monitor.value.m.child.Some?)
    ensures msg.Kill? && r.Handled? ==>
              r.w.monitor.Some? && r.w.monitor.value.m.forceStop == w.monitor.value.m.forceStop
  {
    match msg
    case Ping => Handled(w, [Pong], None, false)
    case Data => if w.monitor.None? then Threw else Handled(w, [DataReply(w.monitor.value.data)], None, false)
    case Spawn(script, options) =>
      if !HasScript(script) then Handled(w, [SpawnError(NoScript)], None, false)
      else if w.monitor.Some? then Handled(w, [SpawnError(AlreadyRunning)], None, false)
      else
        SpawnStartMeaning(script.value, options, env);
        SpawnOutcome(w, SpawnMonitor(script.value, options, env))
    case Kill => HandleKill(w, w.exitOnKill)
  }

  /** The first start of a spawned monitor either emits the one `error` that
      its target is missing, or emits `start` and no `error`. */
  lemma SpawnStartMeaning(script: Monitor.Script, options: Monitor.MonitorOptions, env: SpawnEnv)
    ensures var s := SpawnMonitor(script, options, env);
            (EmittedError(s) <==> SpawnTargetMissing(script, options, env)) &&
            (!EmittedError(s) ==> EmittedStart(s))
  {
    var s := SpawnMonitor(script, options, env);
    if SpawnTargetMissing(script, options, env) {
      assert s.events[0].Error?;
    } else {
      assert s.events[0].Started? && |s.events| == 1;
    }
  }

  /** A `spawn` whose `node` script is missing kills the worker: the new
      monitor's only event is the unheard `error` naming the script. */
  lemma MissingTargetCrashes(w: Worker, path: string, options: Monitor.MonitorOptions, env: SpawnEnv)
    requires w.monitor.None? && path != "" && !Truthy(options.command) && !Truthy(options.sourceDir)
    requires !env.targetExists
    ensures var r := Handle(w, Spawn(Some(Monitor.ScriptPath(path)), options), env);
            r.Crashed? && r.died.events == [Monitor.Error(Monitor.TargetMissing(Some(path)))] && !r.died.m.running
  {
    SpawnStartMeaning(Monitor.ScriptPath(path), options, env);
  }

  /** A `spawn` that finds its script answers `spawn start`: the new monitor
      is not running yet, so its first start launches the child. */
  lemma SpawnStartsMonitor(w: Worker, script: Monitor.Script, options: Monitor.MonitorOptions, env: SpawnEnv)
    requires w.monitor.None? && HasScript(Some(script))
    requires script.ScriptPath? || |script.args| > 0
    requires env.targetExists
    ensures Handle(w, Spawn(Some(script), options), env).replies == [SpawnStart]
  {
    var m := Monitor.New(script, options, env.root, env.pidPath, env.freshUid);
    assert |m.options| > 0;
    assert !SpawnTargetMissing(script, options, env);
  }
}
